=== FILE: README.md ===
# Financial data explorer: a Dafny model of the data pipeline

This project models the core of a Python application. The application collects market data from several providers into one SQLite database. It derives technical indicators and returns from the stored bars, and serves them to a dashboard. The model covers the part between the provider adapters and the dashboard:

- the indicator engine (`calculate_technical_indicators`), with its storage and the batch job around it;
- the returns calculator and the per-field fallback between two price sources;
- the store operations on tables with UNIQUE keys: INSERT OR REPLACE, INSERT OR IGNORE, the full refresh of Yahoo Finance bars, the income-statement UPDATE, keep-min-id deduplication, dropping the legacy tables, and both migrations of the legacy tables;
- the mapping of provider payloads to rows, and the loader of the tickers file;
- the dispatch of the update form, the ticker endpoint and the cleanup route of the web application.

Every table is a `Table<V>`: a sequence of rows with AUTOINCREMENT ids and a next id. Each UNIQUE constraint is a key function (`BarKeyOf`, `QuoteKeyOf`, ...). `Consistent` says that every canonical table has distinct ids and satisfies its constraint. Prices are exact `real`s. A NaN indicator value, and a NULL in the quote, profile, news and fundamentals columns, is `None`. Bar prices are never NULL in the model. Dates are day numbers; `Returns.IsoOrderIsDayOrder` shows that on valid dates, day-number order agrees with the order of the ISO text SQLite compares. A JSON value read with `dict.get` is a `Field<T>`: `Missing`, `Null` or `Val`. Whatever the program reads from outside becomes a parameter:

- the clock is `today`/`now`;
- every provider call is a field of `Fetchers.Providers`;
- `sqrt` is a function parameter;
- a statement that raises is named in a `failing` set, for the statements whose failure the model covers: the returns queries, the legacy DROPs and copies, and the duplicate DELETEs.

Modules, one per file: `Common`, `Text`, `Ordering` (SQLite value order, stable sort, `ORDER BY ... LIMIT`), `Tables`, `Schema`, `Indicators`, `DataUtils`, `IndicatorJob`, `Returns`, `WebApi`, `Fetchers`, `DbManager`, `Migration`, `Cleanup`, `Settings`.

Behaviours of the code that are easy to misread:

- **RSI on a flat window.** When both 14-row averages are 0, `rsi_14` is NaN (absent) under IEEE division. It is 100 only when the average loss is 0 and the average gain is positive (`Indicators.RsiOfFacts`, `Indicators.RsiAbsentIffFlat`).
- **ATR on row 0.** The first row's true range is `high - low`, because `max` skips the NaN gaps. That value is part of the ATR window of row 13 (`Indicators.AtrFacts`).
- **Yahoo Finance refresh.** `fetch_yfinance_data` deletes every yfinance bar before fetching. A provider that returns nothing therefore leaves no yfinance bars (`Fetchers.FetchYfinanceReplacesSource`).
- **Quarter and year returns.** A defined quarter return does not imply a defined year return. The year window can start on a bar whose close is 0, which makes the division NULL, while the quarter window does not include that bar (`Returns.QuarterDefinedYearAbsent`). What does hold is that the year window holds a bar whenever the quarter or year-to-date window does (`Returns.YearWindowCovers`).
- **Description of ticker_info rows.** The two `ticker_info` migrations differ. The database manager does not copy `resena` (`Migration.MigratedTickerInfoFields`); the migration script copies it into `description` (`Migration.ScriptTickerInfoFields`).

## Model

| member | source | states |
|---|---|---|
| Indicators.RollingMeans | utils/data_utils.py:64-66 | A running-sum pass computes, at every row, the value of `rolling(n).mean()`: absent before row n-1, the mean of the last n values from then on |
| Indicators.Rolling | utils/data_utils.py:64-66 | A rolling mean is absent at row i exactly when fewer than n rows end there |
| Indicators.SmaIsTrailingMean | utils/data_utils.py:64 | Once defined, sma_20 is the mean of closes i-19..i and lies between the least and the greatest of them |
| Indicators.Calculate | utils/data_utils.py:47-100 | One row of values per bar, an empty frame giving an empty result; what each row holds is stated by PresenceByRow, SmaIsTrailingMean, MacdRelations, RsiRange, BollingerFacts and AtrFacts below |
| Indicators.PresenceByRow | utils/data_utils.py:63-98 | Which rows carry each column: SMA(n) from row n-1, ATR from row 13, the bands from row 19, no RSI before row 13, and the EMA/MACD family on every row |
| Indicators.EmaBounds | utils/data_utils.py:69-70 | The adjust=False EMA never leaves the range of the closes seen so far |
| Indicators.EmaPass | utils/data_utils.py:69-70 | One pass carrying the previous value computes the EMA with alpha = 2/(span+1) and row 0 equal to the first close |
| Indicators.AlphaRange | utils/data_utils.py:69-70 | The smoothing factor 2/(span+1) lies in (0, 1] |
| Indicators.MacdStartsAtZero | utils/data_utils.py:73-75 | MACD, signal and histogram are all 0 on the first row |
| Indicators.MacdRelations | utils/data_utils.py:73-75 | MACD = EMA12 - EMA26, the signal is the 9-span EMA of the MACD column, and histogram = MACD - signal |
| Indicators.GainLossFacts | utils/data_utils.py:78-80 | Gains and losses are non-negative, at most one is non-zero, and their difference is the close-to-close change; row 0 contributes 0 to both |
| Indicators.RsiWindows | utils/data_utils.py:78-82 | Average gain and loss are defined from row 13, the row-13 window includes the synthetic zero of row 0, and both are non-negative |
| Indicators.RsiOfFacts | utils/data_utils.py:83-84 | RSI is NaN exactly when both averages are 0, equals 100·g/(g+l) otherwise, lies in [0, 100], and is 100 when only the loss is 0 |
| Indicators.RsiRange | utils/data_utils.py:78-84 | A present rsi_14 lies in [0, 100]; from row 13 it is 100·g/(g+l) of the row's averages when they are not both 0 |
| Indicators.RsiAbsentIffNoMoves | utils/data_utils.py:81-84 | From row 13, rsi_14 is NaN exactly when both 14-row sums are 0 |
| Indicators.RsiAbsentIffFlat | utils/data_utils.py:78-84 | From row 13, rsi_14 is NaN exactly when the closes the window looks at are all equal |
| Indicators.VarianceNonNegative | utils/data_utils.py:88 | The sample variance (ddof = 1) under the rolling std is never negative |
| Indicators.BollingerStd | utils/data_utils.py:88 | bollinger_std is absent exactly on rows 0..18 |
| Indicators.BollingerFacts | utils/data_utils.py:87-90 | The middle band is SMA20; the std is the root of the sample variance of the same 20 closes; the bands sit symmetrically 2·std away and are ordered when the root is non-negative |
| Indicators.TrueRangeFacts | utils/data_utils.py:93-97 | The true range is at least high-low and both gaps to the previous close, equals one of them, and is exactly high-low on row 0 |
| Indicators.AtrNonNegative | utils/data_utils.py:93-98 | With high >= low on every bar, atr_14 is never negative |
| Indicators.AtrFacts | utils/data_utils.py:93-98 | atr_14 is the mean of the last 14 true ranges (row 0's high-low included) and is at least the mean spread of those rows |
| DataUtils.StockData | utils/data_utils.py:23-36 | Exactly the bars of the ticker dated between start and end (of the source unless it is 'all'), in ascending date order, drawn from the table |
| DataUtils.StockDataStrictlyIncreasing | utils/data_utils.py:26-36 | For one source, the bars returned have strictly increasing dates, by the UNIQUE(ticker, date, source) constraint |
| DataUtils.StoreIndicators | utils/data_utils.py:113-153 | An empty frame returns 0 and changes nothing; otherwise every row is written under (ticker, date), no stored key disappears, the count is the number of rows, and the table stays well formed and unique |
| DataUtils.StoreIndicatorsContents | utils/data_utils.py:120-146 | The last row of each date is stored with its values, bollinger_std left out; rows of other tickers stay |
| DataUtils.StoreIndicatorsIdempotent | utils/data_utils.py:120-146 | Storing the same frame twice leaves the stored values as after the first time |
| DataUtils.RefreshIndicators | utils/data_utils.py:284-306 | The total is the sum, over the listed tickers, of the bars each one is computed from; it is 0 exactly when no ticker has bars in the window, and then nothing changes; rows of unlisted tickers are kept; uniqueness is preserved |
| DataUtils.RefreshStoresRows | utils/data_utils.py:287-303 | Every bar a listed ticker's indicators are computed from has its (ticker, date) indicator row once the loop is done, later tickers' writes included |
| DataUtils.DistinctTickers | utils/data_utils.py:282-283 | The tickers listed are exactly those with a bar of the source, each once |
| DataUtils.UpdateIndicatorsForAll | utils/data_utils.py:271-306 | The total is the per-ticker sum of window bars over the tickers with a yfinance bar; indicator rows of tickers without a yfinance bar survive, and uniqueness is preserved |
| DataUtils.UpdateStoresRows | utils/data_utils.py:281-303 | Every yfinance bar inside its ticker's 500-day window has its (ticker, date) indicator row afterwards |
| DataUtils.CompanyProfile | utils/data_utils.py:168-185 | None exactly when the ticker has no profile; otherwise a profile of the ticker, from any source, whose timestamp is the greatest |
| DataUtils.MarketQuote | utils/data_utils.py:226-243 | None exactly when the ticker has no quote; otherwise a quote of the ticker whose timestamp is the greatest |
| DataUtils.LatestNews | utils/data_utils.py:200-206 | min(limit, count) articles of the ticker, newest published_at first, and no article left out is newer than one returned |
| DataUtils.FundamentalData | utils/data_utils.py:258-264 | min(periods, count) rows of the ticker, latest period_end_date first, and none left out is later than one returned |
| IndicatorJob.JobBars | utils/indicators.py:23-27 | The yfinance bars in the window when there are any, else the bars of all sources; empty exactly when the ticker has no recent bar at all |
| IndicatorJob.OutcomeFor | utils/indicators.py:29-44 | Error with 'No data available' exactly when there are no bars; otherwise records_inserted is the number of rows stored and indicators_calculated is 14 |
| IndicatorJob.AddedColumns | utils/indicators.py:43 | Output width minus input width is the 14 indicator columns, none of them an input column |
| IndicatorJob.RunTicker | utils/indicators.py:22-46 | A failed ticker stores nothing; a successful one stores a row for every date it computed; rows of other tickers stay |
| IndicatorJob.Results | utils/indicators.py:17-48 | Exactly one result entry per configured ticker, each the outcome of that ticker's bars |
| IndicatorJob.StoreAll | utils/indicators.py:19-46 | Rows of unlisted tickers are kept, and with no data for any ticker the table is unchanged |
| Returns.IsoOrderIsDayOrder | web_app.py:239-241 | On valid dates the ISO text order the queries compare agrees with day-number order |
| Returns.WindowsNest | web_app.py:239-241 | Every window starts no later than today, and the year window starts no later than the quarter and year-to-date windows |
| Returns.WindowReturn | web_app.py:244-298 | Absent when the window holds no bar of the ticker and source; a present value is latest close / earliest close in the window - 1; absent otherwise only for a zero divisor |
| Returns.LatestInsideWindow | web_app.py:247-253 | When the count guard passes, the latest bar lies inside the window |
| Returns.SingleBarWindow | web_app.py:247-257 | A window holding exactly one bar, with a non-zero close, yields a return of 0 |
| Returns.ZeroBaseYieldsNone | web_app.py:254-257 | An earliest close of 0 in the window yields NULL |
| Returns.YearWindowCovers | web_app.py:239-298 | If the year window holds no bar, neither do the quarter and year-to-date windows |
| Returns.QuarterDefinedYearAbsent | web_app.py:263-298 | A concrete pair of bars for which the quarter return is 0 while the year return is NULL |
| Returns.CalculateReturnsFields | web_app.py:301-325 | A window whose query raised is None; every other window holds its window's return |
| Returns.FailureIsolation | web_app.py:301-317 | A failing query changes no other window's value |
| Returns.FillMissing | web_app.py:212-218 | A present primary field is kept; a missing one is taken from the backup |
| Returns.Fallback | web_app.py:206-218 | The backup is consulted exactly when some primary field is missing; a present primary field is never overwritten; a field is missing only when it is missing in both |
| WebApi.TickerBars | web_app.py:141-147 | min(30, count) bars, all of the ticker, with no source filter |
| WebApi.TickerBarsNewestFirst | web_app.py:141-147 | The bars come newest first, and no bar left out is newer than one returned |
| WebApi.FewBarsAllShown | web_app.py:141-147 | With at most 30 bars for the ticker, all of them are returned |
| WebApi.SameDateFromTwoSources | web_app.py:141-147 | Two providers' bars of one date both appear in the answer |
| WebApi.TickerData | web_app.py:135-167 | At most 30 bars and 5 articles, all of the ticker; profile and quote are empty exactly when the ticker has none |
| WebApi.Apply | web_app.py:117-129 | Each recognised table name changes only its own table, an unknown name changes nothing, and the constraints are kept |
| WebApi.ApplyEffects | web_app.py:117-129 | What each recognised name writes: the FMP profiles, the fetched bars, the quotes stamped now, news rows only appended, fundamentals only of the listed tickers, and indicator rows kept for tickers without yfinance bars |
| WebApi.RunPlan | web_app.py:114-129 | A table no selected name refers to is unchanged; a selection of unknown names changes nothing |
| WebApi.UnknownNamesIgnored | web_app.py:114-129 | Appending unrecognised names to a selection changes nothing |
| WebApi.UpdateData | web_app.py:104-133 | An empty selection changes nothing and says so; otherwise the message counts the names submitted, and no unselected table other than the three migrated ones changes |
| WebApi.UnselectedTablesOnlyMigrated | web_app.py:109-129 | An unselected bars, quotes or profiles table receives only the migration's appended rows |
| WebApi.UnknownSelectionCounted | web_app.py:109-133 | A selection of one unknown name still migrates and reports one table updated |
| WebApi.CleanupRoute | web_app.py:191-200 | The message counts at most the five legacy tables, all five when no drop raises; the news, indicator and fundamentals tables are untouched and the constraints are kept |
| WebApi.CleanupRouteIsScriptPrefix | web_app.py:191-200 | The route is the maintenance script without its refresh step |
| WebApi.CleanupRouteIdempotent | web_app.py:191-200 | A second cleanup changes nothing |
| Tables.InsertOrReplace | database/schema.py:18 | INSERT OR REPLACE removes every row sharing the new row's key and appends the row under a fresh id; ids stay distinct and the key stays unique |
| Tables.InsertOrIgnore | database/db_manager.py:58-63 | INSERT OR IGNORE appends exactly when the key is absent and otherwise leaves the table as it was |
| Tables.InsertAllOrIgnoreNoop | database/db_manager.py:58-63 | Insert-or-ignore of rows whose keys are all present inserts nothing |
| Tables.InsertAllOrIgnoreCopies | database/db_manager.py:58-63 | A row whose key is new to the table and to the rows before it is inserted unchanged |
| Tables.UpsertAllData | api/data_fetchers.py:50-63 | A sequence of INSERT OR REPLACE leaves the old rows of untouched keys, in order, followed by the last written row of each key |
| Tables.UpsertAllIdempotent | utils/data_utils.py:123-145 | Replaying the same INSERT OR REPLACE sequence leaves the stored values unchanged |
| Tables.UpsertAllMembers | api/data_fetchers.py:50-63 | A row survives the upserts exactly when its key is not written or it is the last write of its key |
| Tables.InsertOrReplaceKeepsKey | database/schema.py:101 | INSERT OR REPLACE never makes a stored key disappear |
| Tables.UpsertAllKeepsKeys | utils/data_utils.py:123-145 | A sequence of INSERT OR REPLACE keeps every key already stored |
| Tables.Purge | api/data_fetchers.py:28-33 | DELETE WHERE keeps exactly the rows the predicate rejects |
| Tables.Dedup | cleanup_db.py:18-25 | The keep-min-id DELETE keeps exactly the minimum-id row of each key group, and the result is unique on the key |
| Tables.DedupKeepsKeys | cleanup_db.py:18-55 | Deduplication keeps every key tuple present |
| Tables.DedupOfUnique | cleanup_db.py:18-55 | A table already unique on the key is left as it was |
| Tables.DedupIdempotent | cleanup_db.py:17-56 | A second deduplication deletes nothing |
| Tables.DedupKeepsLoneRows | cleanup_db.py:18-25 | A row whose key no other row shares is untouched |
| Tables.UniqueCount | database/schema.py:18 | In a table unique on its key, every value occurs at most once |
| Schema.InsertNewsOrIgnore | database/schema.py:73 | An article is appended exactly when it has no url or its url is not yet stored |
| Schema.BarsOfTwoSourcesCoexist | database/schema.py:18 | Bars of one ticker and day from two sources are both kept |
| Schema.IndicatorRowsOverwrite | database/schema.py:101 | Indicator rows have no source column: a second write for the same ticker and day replaces the first |
| Schema.NullUrlNewsCoexist | database/schema.py:73 | Articles without a url are all stored |
| Schema.NewsUrlIsGlobal | database/schema.py:73 | A stored url blocks the same url for any other ticker |
| Fetchers.TruncateFacts | api/data_fetchers.py:61 | int() truncates toward zero: the result is within 1 of the volume and on its side of 0 |
| Fetchers.HistoryBars | api/data_fetchers.py:47-64 | Every history row with a volume becomes one yfinance bar of the ticker, and every bar comes from such a row |
| Fetchers.FetchYfinance | api/data_fetchers.py:14-73 | The count is the number of bars fetched, every fetched bar's key is present, and uniqueness is kept |
| Fetchers.FetchYfinanceReplacesSource | api/data_fetchers.py:28-64 | Bars of other sources are exactly kept, and every yfinance bar afterwards comes from this fetch |
| Fetchers.UpsertEach | api/data_fetchers.py:89-119 | The count equals the number of tickers exactly when every payload yields a row; every such row's key is present |
| Fetchers.FetchFinhubWrites | api/data_fetchers.py:95-112 | A quote stamped now under source 'finhub' is written exactly for the tickers whose payload has 'c'; the count reaches the ticker count only when all have one |
| Fetchers.FetchFinhubKeepsHistory | api/data_fetchers.py:95-112 | Earlier quotes are kept, and every new row is some ticker's quote with missing fields stored as 0 |
| Fetchers.FetchFmpWrites | api/data_fetchers.py:141-163 | Every ticker with a non-empty profile list gets its (ticker, 'fmp') row; the count reaches the ticker count only when every list is non-empty |
| Fetchers.FetchFmpKeepsOtherSources | api/data_fetchers.py:141-163 | Profiles of other sources are kept, and every new row is the mapping of some ticker's first list element |
| Fetchers.RefetchClearsUnnamedColumns | api/data_fetchers.py:145-162 | A refetched FMP profile replaces the old row whole: the columns the statement does not name are NULL |
| Fetchers.InsertNews | api/data_fetchers.py:198-214 | Existing rows are untouched, the count is the number of rows added, and every article with a url has that url stored |
| Fetchers.ArticleRows | api/data_fetchers.py:195-212 | At most NEWS_ARTICLE_LIMIT rows per ticker, all under that ticker |
| Fetchers.FetchNews | api/data_fetchers.py:175-223 | Only appends; the count is the rows added and is at most 10 per ticker; every new row belongs to a listed ticker; urls stay unique |
| Fetchers.ArticlesWithoutUrlCollide | api/data_fetchers.py:209 | Articles without a url key are stored under the empty url, so at most one of them is added |
| Fetchers.RatioRows | api/data_fetchers.py:243-267 | At most four ratio rows, all of the ticker, one for every convertible item among the first four |
| Fetchers.ApplyIncome | api/data_fetchers.py:274-289 | The income UPDATEs move no id and no key and insert nothing; a row no item matches is unchanged |
| Fetchers.LastIncomeItemWins | api/data_fetchers.py:278-289 | A row takes the figures of the last income item that matches its period end date, with 0 for a missing key |
| Fetchers.FetchFundamentals | api/data_fetchers.py:225-296 | The count is the number of ratio rows written (the convertible items among the first four), so at most 4 and never an income row; without ratios nothing is added; uniqueness is kept |
| Fetchers.FetchFundamentalsStoresRatios | api/data_fetchers.py:243-289 | Every ratio row written has its key afterwards |
| Fetchers.FetchFundamentalsKeepsOtherTickers | api/data_fetchers.py:225-296 | The rows of other tickers are exactly those before |
| Fetchers.FetchFundamentalsAll | cleanup_db.py:89-92 | At most 4 rows counted per ticker; rows of unlisted tickers are exactly kept |
| DbManager.PlaceholderCount | database/db_manager.py:159 | The placeholder list for n columns holds exactly n question marks |
| DbManager.QueryPlaceholders | database/db_manager.py:159-162 | With '?'-free names, the INSERT query has exactly as many placeholders as columns |
| DbManager.InsertMany | database/db_manager.py:141-170 | Empty values return 0 with no query; otherwise the query is built, every value's key is present, and the count is the number of values |
| DbManager.InsertOrUpdateCompanyProfile | database/db_manager.py:172-214 | Empty input returns 0 and changes nothing; otherwise every ticker gets its (ticker, 'manual') row and the count is the number of entries |
| DbManager.CompanyProfileFrame | database/db_manager.py:190-206 | Profiles of other sources or other tickers are kept; every stored profile is old or written by some entry |
| DbManager.CompanyProfileStored | database/db_manager.py:196-205 | The stored manual profile carries resena as description and '' for a missing key |
| DbManager.DropTables | database/db_manager.py:237-243 | A legacy table remains exactly when it was not named or its DROP raised; the list holds the named tables whose DROP succeeded, in order |
| DbManager.CleanupDatabase | database/db_manager.py:216-248 | Only the five legacy tables are dropped; the list is those whose DROP succeeded, all five in list order when none raised |
| DbManager.CleanupRemovesAllLegacy | database/db_manager.py:227-245 | After a cleanup in which nothing raised, no legacy table remains and all five are listed |
| DbManager.CleanupThenMigrateIsNoop | database/db_manager.py:39-40 | After the legacy tables are dropped, create_database migrates nothing |
| Migration.CopyLegacy | database/db_manager.py:55-103 | A missing legacy table adds nothing; a present one only appends, every legacy key is present afterwards, each added row is a converted legacy row, and uniqueness is kept |
| Migration.CopyAgainIsNoop | database/db_manager.py:58-63 | Copying again once every legacy key is present inserts nothing |
| Migration.MigrateData | database/db_manager.py:45-105 | Only bars, quotes and profiles change, only by appending, and the constraints are kept; no table is dropped |
| Migration.MissingLegacyTablesChangeNothing | database/db_manager.py:54-103 | With no legacy table present, the migration changes nothing |
| Migration.MigratedKeysPresent | database/db_manager.py:55-103 | Every legacy row's key is present afterwards under its table's tag: alphavantage, polygon, finhub, fmp or manual |
| Migration.MigrateDataIdempotent | database/db_manager.py:45-105 | A second migration, at any later time, inserts nothing |
| Migration.MigratedBarKeepsValues | database/db_manager.py:58-63 | A new alphavantage bar arrives with identical OHLCV values under the tag 'alphavantage' |
| Migration.MigratedTickerInfoFields | database/db_manager.py:98-103 | ticker_info maps symbol, pais, fundacion, anos_en_bolsa and tipo to ticker, country, founded, years_public and type under 'manual', with no description |
| Migration.ScriptResults | migrate_database.py:50-135 | results has an entry exactly for the legacy tables that exist or whose migration raised, and an entry is an error exactly when it raised |
| Migration.MigrateDatabase | migrate_database.py:39-138 | Only the three canonical tables change; the result entries are as above; the constraints are kept |
| Migration.MigrateDatabaseCounts | migrate_database.py:63-131 | Each recorded count is the number of rows its INSERT OR IGNORE added |
| Migration.ScriptTickerInfoFields | migrate_database.py:125-131 | The script's ticker_info mapping also copies resena into description |
| Migration.MigrateDatabaseAgrees | migrate_database.py:53-118 | When nothing raises, the script copies bars and quotes exactly as the database manager does, and profiles too when there is no ticker_info |
| Migration.FailureIsolated | migrate_database.py:65-135 | A failing table is recorded as an error, and every other table and entry is as in a run where that table did not exist |
| Cleanup.DedupTable | cleanup_db.py:17-56 | A failing DELETE changes nothing; otherwise exactly the minimum-id row of each key group remains and the table becomes unique |
| Cleanup.RemoveDuplicateData | cleanup_db.py:9-59 | Only bars, profiles and quotes change, and each becomes unique on its key: (ticker, date, source), (ticker, source), (ticker, timestamp, source) |
| Cleanup.RemoveDuplicatesKeepsKeys | cleanup_db.py:17-56 | Every key tuple present before is present after, in each of the three tables |
| Cleanup.RemoveDuplicatesKeepsLoneBars | cleanup_db.py:17-25 | A bar whose key no other bar shares survives |
| Cleanup.RemoveDuplicatesIdempotent | cleanup_db.py:17-56 | A second run deletes nothing |
| Cleanup.DedupFailureIsolated | cleanup_db.py:17-56 | A failing table is left as it was, and the others are deduplicated as if it had not failed |
| Cleanup.UpdateAllData | cleanup_db.py:61-94 | The refresh changes only bars, quotes, profiles, news and fundamentals, and keeps the constraints |
| Cleanup.CleanupMain | cleanup_db.py:96-115 | The script reports the tables cleanup_database dropped and never touches the indicators |
| Cleanup.CleanupMainRestoresConsistency | cleanup_db.py:102-113 | From well-formed tables where only bars, quotes and profiles break their UNIQUE keys, a run in which nothing raises leaves every constraint holding and no legacy table |
| Settings.NormalizeIdempotent | config/settings.py:52 | strip().upper() of a normalised symbol changes nothing |
| Settings.LoadedSymbolsNormalized | config/settings.py:52-67 | Every symbol returned, the defaults included, is in normal form: stripping and uppercasing it again changes nothing |
| Settings.TickerData | config/settings.py:53-69 | ticker_data has exactly one key per symbol any dict entry or non-blank string gives |
| Settings.LaterEntryOverwrites | config/settings.py:53 | For a repeated symbol, the later entry's metadata is recorded |
| Settings.KeptMembers | config/settings.py:56-58 | The filtered list holds exactly the symbols of the dicts whose tipo equals the active filter |
| Settings.ListedMembers | config/settings.py:63-68 | The unfiltered list holds the non-blank strings always, and the dicts only without a filter |
| Settings.LoadTickers | config/settings.py:24-88 | Never an empty list; an empty ticker_data comes with the defaults; a missing file, a missing or non-list or empty 'tickers' value, an entry that raises, or a list that yields no symbol returns the defaults with an empty map; any non-empty ticker_data returned is the map the loop builds from the entries |
| Settings.NoSymbolsNoLists | config/settings.py:49-73 | Entries none of which gives a symbol leave both the filtered and the unfiltered list empty |
| Settings.FilterSelectsByType | config/settings.py:75-77 | With an active filter some dict matches, exactly the symbols of the dicts of that type are returned |
| Settings.UnmatchedFilterFallsBackToStrings | config/settings.py:81-82 | With an active filter no dict matches, exactly the string entries' symbols are returned when there are any |
| Settings.UnfilteredListsEverything | config/settings.py:63-68 | Without a filter every dict with a symbol and every non-blank string gives a returned symbol |
| Text.StripShape | config/settings.py:52 | strip() removes only leading and trailing whitespace and leaves no whitespace at either end |
| Ordering.Sort | utils/data_utils.py:36 | ORDER BY is a permutation of its input in key order |
| Ordering.Top | web_app.py:145-146 | ORDER BY ... DESC LIMIT n gives min(n, count) rows, in order, drawn from the input, none left out ranking above one kept |
| Ordering.Latest | utils/data_utils.py:171-172 | ORDER BY ... DESC LIMIT 1 is empty exactly for no rows, else a row of greatest rank |
| Ordering.First | web_app.py:254-257 | ORDER BY ... ASC LIMIT 1 is empty exactly for no rows, else a row of least rank |

## Left out

- The HTTP connectors (api/connectors.py), the Dash layout and callbacks, Flask routing and templates, the browser script web/static/js/main.js, and app.py. They are presentation and orchestration, and the model has no network. A connector's failure is the `None`/empty payload the fetchers already handle.
- SQLite and pandas mechanics: SQL parsing, commits and transactions, connections, and DataFrame indexing. Tables are row sequences. Only the returns queries, the legacy DROPs and copies, and the duplicate DELETEs have a `failing` set; a payload the row mapping rejects is skipped. Other per-row statements are taken to succeed, as the two lines below say.
- IEEE-754 arithmetic. Prices are exact reals, a NaN indicator value is `None`, and an infinite RSI ratio is the case analysis in `Indicators.RsiOf`. The square root is a parameter, so the bands are stated through the sample variance.
- Indicators.BollingerFacts: the band order holds only for a non-negative square root, because `sqrt` is a parameter.
- Schema.Bar / Fetchers.HistoryBars: bar prices are never NULL in the model. A NaN price from the provider, which the code would store as NULL, is not modelled, and neither is its effect on the indicators through `rolling()` and `ewm()`. Making every price an `Option` would thread NULL handling through the whole indicator engine.
- Text.Upper: only the ASCII letters a-z are upper-cased. Python's full Unicode case mapping, which can also change the length of a symbol ("ß" becomes "SS"), is not modelled.
- The wall clock. `today` and `now` are parameters, and `CURRENT_TIMESTAMP` defaults are `now`.
- File I/O of the tickers file. The decoded JSON is a datatype, and an unreadable file or non-object JSON returns the defaults. Of the exceptions the broad `except` catches, only a non-text 'symbol' is modelled (`Settings.Raises`).
- API keys, endpoint constants, and log output.
- SQL injection through the f-string queries. It is a security matter, not functional behaviour.
- Concurrency. The program is sequential.
- create_database's and create_new_tables' DDL: the model's tables always exist. The portfolio and watchlist tables are represented by their UNIQUE keys only (`Schema.HoldingKeyOf`, `Schema.WatchKeyOf`), because no core operation writes them.
- DataUtils.StoreIndicators: every frame row is stored and counted. The source wraps each INSERT OR REPLACE in a try/except that skips and does not count a row whose statement raises; that failure path is not modelled.
- DbManager.InsertOrUpdateCompanyProfile: a metadata value that is not a string is stored as NULL. The source binds a JSON number as is, so a TEXT column keeps it as its text ('25'), and a list or dict value makes the execute raise, so the source skips that ticker and does not count it. Neither is modelled: the decoded tickers file carries only strings.
- DbManager.InsertMany: the count is the number of values, which is what `executemany` reports for INSERT OR REPLACE when no statement fails. Per-statement failures are not modelled.
- Returns.TickerReturns and Returns.CalculateReturns carry no contract of their own. Their properties are `Returns.Fallback`, `Returns.CalculateReturnsFields` and `Returns.FailureIsolation`.
- IndicatorJob.CalculateAll carries no contract of its own. Its two halves are `IndicatorJob.StoreAll` and `IndicatorJob.Results`.
- Fetchers.FetchFinhub and Fetchers.FetchFmp are stated through the lemmas `Fetchers.FetchFinhubWrites`, `Fetchers.FetchFinhubKeepsHistory`, `Fetchers.FetchFmpWrites` and `Fetchers.FetchFmpKeepsOtherSources`.
- Per-row insert failures inside the fetchers' loops, other than the ones the payload mapping shows: a NaN volume, a null source object, a null period or date.
- migrate_database.py's `main` runs create_new_tables and then migrate_data. Only migrate_data is modelled; the canonical tables are assumed to exist.

=== FILE: cleanup.dfy ===
/** The maintenance script: drop the legacy tables, remove duplicate rows
    keeping the first-inserted row of each key, then refresh every table
    from the providers.

  Each deduplication runs in its own try block; `failing` names the tables
  whose DELETE raises, and a failed DELETE removes nothing.
 */
module Cleanup {
  import opened Common
  import opened Tables
  import opened Schema
  import opened Fetchers
  import DbManager

  /** DELETE FROM table WHERE id NOT IN (SELECT MIN(id) ... GROUP BY key),
      or nothing when the statement raises. */
  function DedupTable<V(!new), K(==)>(t: Table<V>, key: V -> K, fails: bool): (r: Table<V>)
    ensures fails ==> r == t
    ensures r.nextId == t.nextId
    ensures forall x :: x in r.rows ==> x in t.rows
    ensures !fails ==> forall x :: x in r.rows <==> x in t.rows && IsGroupMin(t.rows, x, key)
    ensures WellFormed(t) ==> WellFormed(r)
    ensures WellFormed(t) && !fails ==> UniqueOn(r.rows, key)
  {
    if fails then t
    else
      var rows := Dedup(t.rows, key);
      assert WellFormed(t) ==> forall i :: 0 <= i < |rows| ==> rows[i].id < t.nextId by {
        if WellFormed(t) {
          forall i | 0 <= i < |rows|
            ensures rows[i].id < t.nextId
          {
            assert rows[i] in t.rows;
          }
        }
      }
      Table(rows, t.nextId)
  }

  /** remove_duplicate_data: bars by (ticker, date, source), profiles by
      (ticker, source), quotes by (ticker, timestamp, source). Nothing else
      changes. */
  function RemoveDuplicateData(db: Db, failing: set<string>): (r: Db)
    ensures r == db.(bars := r.bars, profiles := r.profiles, quotes := r.quotes)
    ensures WellFormed(db.bars) && BarsTable !in failing ==> UniqueOn(r.bars.rows, BarKeyOf)
    ensures WellFormed(db.profiles) && ProfilesTable !in failing ==> UniqueOn(r.profiles.rows, ProfileKeyOf)
    ensures WellFormed(db.quotes) && QuotesTable !in failing ==> UniqueOn(r.quotes.rows, QuoteKeyOf)
    ensures Consistent(db) ==> Consistent(r)
  {
    db.(bars := DedupTable(db.bars, BarKeyOf, BarsTable in failing),
        profiles := DedupTable(db.profiles, ProfileKeyOf, ProfilesTable in failing),
        quotes := DedupTable(db.quotes, QuoteKeyOf, QuotesTable in failing))
  }

  /** Deduplication removes only extra copies: every key tuple present
      before is present after, in each of the three tables. */
  lemma RemoveDuplicatesKeepsKeys(db: Db, failing: set<string>)
    ensures var r := RemoveDuplicateData(db, failing);
      && KeysOf(Data(r.bars.rows), BarKeyOf) == KeysOf(Data(db.bars.rows), BarKeyOf)
      && KeysOf(Data(r.profiles.rows), ProfileKeyOf) == KeysOf(Data(db.profiles.rows), ProfileKeyOf)
      && KeysOf(Data(r.quotes.rows), QuoteKeyOf) == KeysOf(Data(db.quotes.rows), QuoteKeyOf)
  {
    DedupKeepsKeys(db.bars.rows, BarKeyOf);
    DedupKeepsKeys(db.profiles.rows, ProfileKeyOf);
    DedupKeepsKeys(db.quotes.rows, QuoteKeyOf);
  }

  /** A bar whose key no other bar shares survives deduplication. */
  lemma RemoveDuplicatesKeepsLoneBars(db: Db, failing: set<string>, i: nat)
    requires i < |db.bars.rows|
    requires forall j :: 0 <= j < |db.bars.rows| && j != i ==> BarKeyOf(db.bars.rows[j].data) != BarKeyOf(db.bars.rows[i].data)
    ensures db.bars.rows[i] in RemoveDuplicateData(db, failing).bars.rows
  {
    DedupKeepsLoneRows(db.bars.rows, BarKeyOf, i);
  }

  /** A second run deletes nothing. */
  lemma RemoveDuplicatesIdempotent(db: Db, failing: set<string>)
    requires WellFormed(db.bars) && WellFormed(db.profiles) && WellFormed(db.quotes)
    ensures var once := RemoveDuplicateData(db, {});
      RemoveDuplicateData(once, failing) == once
  {
    DedupIdempotent(db.bars.rows, BarKeyOf);
    DedupIdempotent(db.profiles.rows, ProfileKeyOf);
    DedupIdempotent(db.quotes.rows, QuoteKeyOf);
  }

  /** A failing table is left as it was; the others are still
      deduplicated exactly as in a run without that failure. */
  lemma DedupFailureIsolated(db: Db, failing: set<string>, name: string)
    requires name in failing
    ensures var r := RemoveDuplicateData(db, failing);
      var s := RemoveDuplicateData(db, failing - {name});
      && (name == BarsTable ==> r.bars == db.bars && r.profiles == s.profiles && r.quotes == s.quotes)
      && (name == ProfilesTable ==> r.profiles == db.profiles && r.bars == s.bars && r.quotes == s.quotes)
      && (name == QuotesTable ==> r.quotes == db.quotes && r.bars == s.bars && r.profiles == s.profiles)
  {
  }

  /** update_all_data: Yahoo Finance bars, Finnhub quotes, FMP profiles,
      news, then the fundamentals of each ticker, in that order. */
  function UpdateAllData(db: Db, tickers: seq<string>, p: Providers): (r: Db)
    ensures r == db.(bars := r.bars, quotes := r.quotes, profiles := r.profiles, news := r.news,
                     fundamentals := r.fundamentals)
    ensures Consistent(db) ==> Consistent(r)
  {
    var bars := FetchYfinance(db.bars, tickers, p.history, p.today).0;
    var quotes := FetchFinhub(db.quotes, tickers, p.quote, p.now).0;
    FetchFinhubWrites(db.quotes, tickers, p.quote, p.now);
    var profiles := FetchFmp(db.profiles, tickers, p.profile, p.now).0;
    FetchFmpWrites(db.profiles, tickers, p.profile, p.now);
    var news := FetchNews(db.news, tickers, p.news).0;
    var fundamentals := FetchFundamentalsAll(db.fundamentals, tickers, p.ratios, p.income).0;
    db.(bars := bars, quotes := quotes, profiles := profiles, news := news, fundamentals := fundamentals)
  }

  /** The script's main: legacy tables dropped first, then duplicates
      removed, then the data refreshed. The list is what
      cleanup_database reports. */
  function CleanupMain(db: Db, tickers: seq<string>, p: Providers, dropFailing: set<string>,
                       dedupFailing: set<string>): (r: (Db, seq<string>))
    ensures r.1 == DbManager.CleanupDatabase(db, dropFailing).1
    ensures r.0.indicators == db.indicators
  {
    var (dropped, names) := DbManager.CleanupDatabase(db, dropFailing);
    (UpdateAllData(RemoveDuplicateData(dropped, dedupFailing), tickers, p), names)
  }

  /** When nothing raises, the script leaves no legacy table, and tables
      whose only defect was duplicate keys satisfy every UNIQUE constraint
      again. */
  lemma CleanupMainRestoresConsistency(db: Db, tickers: seq<string>, p: Providers)
    requires WellFormed(db.bars) && WellFormed(db.quotes) && WellFormed(db.profiles)
    requires WellFormed(db.news) && UrlsUnique(db.news.rows)
    requires WellFormed(db.indicators) && UniqueOn(db.indicators.rows, IndicatorKeyOf)
    requires WellFormed(db.fundamentals) && UniqueOn(db.fundamentals.rows, FundamentalKeyOf)
    ensures var r := CleanupMain(db, tickers, p, {}, {}).0;
      && Consistent(r)
      && r.alphavantageDaily.None? && r.polygonData.None? && r.finhubQuotes.None?
      && r.fmpProfiles.None? && r.tickerInfo.None?
  {
    DbManager.CleanupRemovesAllLegacy(db);
    var dropped := DbManager.CleanupDatabase(db, {}).0;
    var deduped := RemoveDuplicateData(dropped, {});
    assert Consistent(deduped);
  }
}

=== FILE: common.dfy ===
/** Values that may be absent.

  - Option<T> is a column or computed value that may be missing: SQL NULL,
    a pandas NaN, or "no result".
  - Field<T> is one key of a decoded JSON object (a provider payload or an
    entry of the tickers file). A key can be missing, can be present with
    the JSON value null, or can hold a value; Python's dict.get(key, default)
    treats the first two differently, so the model keeps them apart.
 */
module Common {

  datatype Option<+T> = None | Some(value: T) {

    /** The value, or a default when absent. */
    function GetOr(default: T): T {
      match this
      case Some(v) => v
      case None => default
    }
  }

  datatype Field<+T> = Missing | Null | Val(value: T) {

    /** True when the key occurs in the object, whatever its value (Python's `k in d`). */
    predicate Present() {
      !Missing?
    }

    /** Python's `d.get(key, default)`: the default only for a missing key;
        a JSON null is returned as None and stored as SQL NULL. */
    function Get(default: T): Option<T> {
      match this
      case Missing => Some(default)
      case Null => None
      case Val(v) => Some(v)
    }
  }

  /** What a loop keeps when it converts each item in turn and skips the
      items whose conversion raised: the successful conversions, in order. */
  function Convert<A, T(==, !new)>(xs: seq<A>, f: A -> Option<T>): (r: seq<T>)
    ensures |r| <= |xs|
    ensures |r| == |xs| <==> forall i :: 0 <= i < |xs| ==> f(xs[i]).Some?
    ensures forall y :: y in r <==> exists i :: 0 <= i < |xs| && f(xs[i]) == Some(y)
    decreases |xs|
  {
    if |xs| == 0 then []
    else
      var rest := Convert(xs[1..], f);
      assert forall i :: 1 <= i < |xs| ==> xs[i] == xs[1..][i - 1];
      assert forall y :: (exists i :: 0 <= i < |xs[1..]| && f(xs[1..][i]) == Some(y)) ==>
        exists i :: 0 <= i < |xs| && f(xs[i]) == Some(y) by {
        forall y | exists i :: 0 <= i < |xs[1..]| && f(xs[1..][i]) == Some(y)
          ensures exists i :: 0 <= i < |xs| && f(xs[i]) == Some(y)
        {
          var i :| 0 <= i < |xs[1..]| && f(xs[1..][i]) == Some(y);
          assert f(xs[i + 1]) == Some(y);
        }
      }
      match f(xs[0])
      case Some(y) => [y] + rest
      case None => rest
  }

  /** The first n items, or all of them when there are fewer (Python's xs[:n]). */
  function Take<A>(xs: seq<A>, n: nat): (r: seq<A>)
    ensures |r| <= n && r <= xs
    ensures |xs| <= n ==> r == xs
    ensures n <= |xs| ==> |r| == n
  {
    if |xs| <= n then xs else xs[..n]
  }

  /** Each item converted by f, in order (a list comprehension, or the
      SELECT list of an INSERT ... SELECT). */
  function Map<A, B>(xs: seq<A>, f: A -> B): (r: seq<B>)
    ensures |r| == |xs|
    ensures forall i :: 0 <= i < |xs| ==> r[i] == f(xs[i])
    decreases |xs|
  {
    if |xs| == 0 then [] else [f(xs[0])] + Map(xs[1..], f)
  }
}

=== FILE: data_utils.dfy ===
/** Reading and writing the store on behalf of the dashboard: loading the
    bars of a ticker, storing computed indicators, and the latest-row
    lookups for profiles, quotes, news and fundamentals. */
module DataUtils {
  import opened Common
  import opened Ordering
  import opened Tables
  import opened Schema
  import opened Indicators

  function ByDate(b: Bar): SortKey {
    KInt(b.date)
  }

  /** The source argument that disables the source filter. */
  const AllSources: string := "all"

  /** The WHERE clause of get_stock_data. */
  predicate InRange(b: Bar, ticker: string, start: int, end: int, source: string) {
    b.ticker == ticker && start <= b.date <= end && (source == AllSources || b.source == source)
  }

  /** get_stock_data: the bars of `ticker` dated from today - days to today,
      from `source` unless it is "all", oldest first. */
  function StockData(bars: seq<Bar>, ticker: string, days: int, source: string, today: int): (r: seq<Bar>)
    ensures forall b :: b in r <==> b in bars && InRange(b, ticker, today - days, today, source)
    ensures Sorted(r, ByDate, false)
    ensures multiset(r) <= multiset(bars)
  {
    var selected := Filter(bars, (b: Bar) => InRange(b, ticker, today - days, today, source));
    SortMembers(selected, ByDate, false);
    Sort(selected, ByDate, false)
  }

  /** Within one source the bars of a ticker have distinct dates, so the
      frame get_stock_data returns has strictly increasing dates. */
  lemma StockDataStrictlyIncreasing(t: Table<Bar>, ticker: string, days: int, source: string, today: int)
    requires UniqueOn(t.rows, BarKeyOf)
    requires source != AllSources
    ensures var r := StockData(Data(t.rows), ticker, days, source, today);
      forall i, j :: 0 <= i < j < |r| ==> r[i].date < r[j].date
  {
    var r := StockData(Data(t.rows), ticker, days, source, today);
    forall i, j | 0 <= i < j < |r|
      ensures r[i].date < r[j].date
    {
      assert r[i] in r && r[j] in r;
      assert InOrder(ByDate(r[i]), ByDate(r[j]), false);
      DistinctKeysInSubset(t, r, i, j);
    }
  }

  /** Positions of a sub-multiset of a uniquely keyed table hold different
      keys. */
  lemma DistinctKeysInSubset(t: Table<Bar>, r: seq<Bar>, i: nat, j: nat)
    requires UniqueOn(t.rows, BarKeyOf)
    requires multiset(r) <= multiset(Data(t.rows))
    requires i < j < |r|
    ensures BarKeyOf(r[i]) != BarKeyOf(r[j])
  {
    if BarKeyOf(r[i]) == BarKeyOf(r[j]) {
      assert r[i] in multiset(Data(t.rows)) && r[j] in multiset(Data(t.rows));
      var a :| 0 <= a < |t.rows| && Data(t.rows)[a] == r[i];
      var b :| 0 <= b < |t.rows| && Data(t.rows)[b] == r[j];
      assert BarKeyOf(t.rows[a].data) == BarKeyOf(t.rows[b].data);
      assert r[i] == r[j];
      RepeatedTwice(r, i, j);
      UniqueCount(t.rows, BarKeyOf, r[i]);
      assert false;
    }
  }

  /** A value at two positions of a sequence occurs in it at least twice. */
  lemma RepeatedTwice<T>(r: seq<T>, i: nat, j: nat)
    requires i < j < |r| && r[i] == r[j]
    ensures multiset(r)[r[i]] >= 2
  {
    var x := r[i];
    assert r == r[..i] + [x] + r[i + 1..j] + [x] + r[j + 1..];
  }

  /** The indicator row stored for one frame row; bollinger_std has no column. */
  function IndicatorRow(ticker: string, date: int, v: Values): Indicator {
    Indicator(ticker, date, v.sma20, v.sma50, v.sma200, v.ema12, v.ema26,
              v.macd, v.macdSignal, v.macdHistogram, v.rsi14,
              v.bollingerUpper, v.bollingerMiddle, v.bollingerLower, v.atr14)
  }

  /** One row of the frame calculate_technical_indicators returns: the date
      index and the computed values. */
  datatype FrameRow = FrameRow(date: int, values: Values)

  function IndicatorRows(ticker: string, frame: seq<FrameRow>): (r: seq<Indicator>)
    ensures |r| == |frame|
    ensures forall i :: 0 <= i < |frame| ==> r[i] == IndicatorRow(ticker, frame[i].date, frame[i].values)
  {
    seq(|frame|, i requires 0 <= i < |frame| => IndicatorRow(ticker, frame[i].date, frame[i].values))
  }

  /** store_technical_indicators: INSERT OR REPLACE of one indicator row per
      frame row, keyed (ticker, date); returns the table and the count. */
  function StoreIndicators(t: Table<Indicator>, ticker: string, frame: seq<FrameRow>): (r: (Table<Indicator>, nat))
    ensures |frame| == 0 ==> r == (t, 0)
    ensures r.1 == |frame|
    ensures forall i :: 0 <= i < |frame| ==> HasKey(r.0.rows, IndicatorKeyOf, IndicatorKey(ticker, frame[i].date))
    ensures forall k :: HasKey(t.rows, IndicatorKeyOf, k) ==> HasKey(r.0.rows, IndicatorKeyOf, k)
    ensures WellFormed(t) ==> WellFormed(r.0)
    ensures UniqueOn(t.rows, IndicatorKeyOf) ==> UniqueOn(r.0.rows, IndicatorKeyOf)
  {
    if |frame| == 0 then (t, 0)
    else
      var rows := IndicatorRows(ticker, frame);
      assert forall i :: 0 <= i < |frame| ==> IndicatorKeyOf(rows[i]) == IndicatorKey(ticker, frame[i].date);
      assert forall k :: HasKey(t.rows, IndicatorKeyOf, k) ==> HasKey(UpsertAll(t, rows, IndicatorKeyOf).rows, IndicatorKeyOf, k) by {
        forall k | HasKey(t.rows, IndicatorKeyOf, k)
          ensures HasKey(UpsertAll(t, rows, IndicatorKeyOf).rows, IndicatorKeyOf, k)
        {
          UpsertAllKeepsKeys(t, rows, IndicatorKeyOf, k);
        }
      }
      (UpsertAll(t, rows, IndicatorKeyOf), |frame|)
  }

  /** What storing leaves behind: for each stored date the values of the
      last frame row carrying it, and the rows of other tickers as they were. */
  lemma StoreIndicatorsContents(t: Table<Indicator>, ticker: string, frame: seq<FrameRow>, i: nat)
    requires i < |frame|
    requires forall j :: i < j < |frame| ==> frame[j].date != frame[i].date
    ensures IndicatorRow(ticker, frame[i].date, frame[i].values) in Data(StoreIndicators(t, ticker, frame).0.rows)
    ensures forall x :: x in Data(t.rows) && x.ticker != ticker ==> x in Data(StoreIndicators(t, ticker, frame).0.rows)
  {
    var rows := IndicatorRows(ticker, frame);
    assert StoreIndicators(t, ticker, frame).0 == UpsertAll(t, rows, IndicatorKeyOf);
    UpsertAllMembers(t, rows, IndicatorKeyOf);
    LastRowStored(rows, i);
    OtherTickersNotWritten(ticker, frame);
  }

  lemma LastRowStored(rows: seq<Indicator>, i: nat)
    requires i < |rows|
    requires forall j :: i < j < |rows| ==> rows[j].date != rows[i].date || rows[j].ticker != rows[i].ticker
    ensures rows[i] in Lasts(rows, IndicatorKeyOf)
  {
    assert forall j :: i < j < |rows| ==> IndicatorKeyOf(rows[j]) != IndicatorKeyOf(rows[i]);
    LastsContains(rows, IndicatorKeyOf, i);
  }

  lemma OtherTickersNotWritten(ticker: string, frame: seq<FrameRow>)
    ensures forall k :: k in KeysOf(IndicatorRows(ticker, frame), IndicatorKeyOf) ==> k.ticker == ticker
  {
  }

  /** Storing the same frame a second time leaves the stored values as they
      were. */
  lemma StoreIndicatorsIdempotent(t: Table<Indicator>, ticker: string, frame: seq<FrameRow>)
    ensures var once := StoreIndicators(t, ticker, frame).0;
      Data(StoreIndicators(once, ticker, frame).0.rows) == Data(once.rows)
  {
    if |frame| > 0 {
      UpsertAllIdempotent(t, IndicatorRows(ticker, frame), IndicatorKeyOf);
    }
  }

  /** The frame of a bar series: the bar dates with the computed values. */
  function FrameOf(bars: seq<Bar>, sqrt: real -> real): (r: seq<FrameRow>)
    ensures |r| == |bars|
    ensures forall i :: 0 <= i < |bars| ==> r[i] == FrameRow(bars[i].date, Calculate(bars, sqrt)[i])
  {
    var vs := Calculate(bars, sqrt);
    seq(|bars|, i requires 0 <= i < |bars| => FrameRow(bars[i].date, vs[i]))
  }

  // ---------------------------------------------------- indicator refresh

  /** The look-back and source update_technical_indicators_for_all_stocks
      passes to get_stock_data. */
  const RefreshDays: int := 500
  const RefreshSource: string := "yfinance"

  /** SELECT DISTINCT ticker ... WHERE source = s: each ticker once, in the
      order of its first bar. */
  function DistinctTickers(bars: seq<Bar>, source: string): (r: seq<string>)
    ensures forall x :: x in r <==> exists b :: b in bars && b.ticker == x && b.source == source
    ensures forall i, j :: 0 <= i < j < |r| ==> r[i] != r[j]
    decreases |bars|
  {
    if |bars| == 0 then []
    else
      var last := bars[|bars| - 1];
      var front := bars[..|bars| - 1];
      assert forall b :: b in bars <==> b in front || b == last;
      var rest := DistinctTickers(front, source);
      if last.source == source && last.ticker !in rest then rest + [last.ticker] else rest
  }

  /** The bars update_technical_indicators_for_all_stocks computes from for
      one ticker. */
  function RefreshBars(bars: seq<Bar>, ticker: string, today: int): seq<Bar> {
    StockData(bars, ticker, RefreshDays, RefreshSource, today)
  }

  /** The number of rows the refresh computes: the sum, over the tickers, of
      the bars each one is computed from. */
  function RefreshCount(bars: seq<Bar>, tickers: seq<string>, today: int): nat
    decreases |tickers|
  {
    if |tickers| == 0 then 0
    else |RefreshBars(bars, tickers[0], today)| + RefreshCount(bars, tickers[1..], today)
  }

  /** The sum taken from the back, as the loop accumulates it. */
  lemma {:induction false} RefreshCountSnoc(bars: seq<Bar>, tickers: seq<string>, today: int)
    requires |tickers| > 0
    ensures RefreshCount(bars, tickers, today)
      == RefreshCount(bars, tickers[..|tickers| - 1], today) + |RefreshBars(bars, tickers[|tickers| - 1], today)|
    decreases |tickers|
  {
    var front := tickers[..|tickers| - 1];
    if |tickers| == 1 {
      assert front == [];
    } else {
      var tail := tickers[1..];
      RefreshCountSnoc(bars, tail, today);
      assert front[0] == tickers[0];
      assert front[1..] == tail[..|tail| - 1];
      assert tail[|tail| - 1] == tickers[|tickers| - 1];
    }
  }

  /** The loop of update_technical_indicators_for_all_stocks over the given
      tickers: each ticker with bars in the window has its indicators
      computed and stored; the count is the total number of rows stored. */
  function RefreshIndicators(t: Table<Indicator>, bars: seq<Bar>, tickers: seq<string>, today: int,
                             sqrt: real -> real): (r: (Table<Indicator>, nat))
    ensures r.1 == RefreshCount(bars, tickers, today)
    ensures r.1 == 0 <==> forall x :: x in tickers ==> |RefreshBars(bars, x, today)| == 0
    ensures r.1 == 0 ==> r.0 == t
    ensures forall x :: x in Data(t.rows) && x.ticker !in tickers ==> x in Data(r.0.rows)
    ensures WellFormed(t) ==> WellFormed(r.0)
    ensures UniqueOn(t.rows, IndicatorKeyOf) ==> UniqueOn(r.0.rows, IndicatorKeyOf)
    decreases |tickers|
  {
    if |tickers| == 0 then (t, 0)
    else
      var last := tickers[|tickers| - 1];
      var front := tickers[..|tickers| - 1];
      assert forall x :: x in tickers <==> x in front || x == last;
      RefreshCountSnoc(bars, tickers, today);
      var before := RefreshIndicators(t, bars, front, today, sqrt);
      var src := RefreshBars(bars, last, today);
      if |src| == 0 then before
      else
        var frame := FrameOf(src, sqrt);
        StoreIndicatorsContents(before.0, last, frame, |frame| - 1);
        var stored := StoreIndicators(before.0, last, frame);
        (stored.0, before.1 + stored.1)
  }

  /** Storing the frame of a bar series writes the row of every bar's date. */
  lemma StoreFrameHasRow(t: Table<Indicator>, ticker: string, src: seq<Bar>, sqrt: real -> real, b: Bar)
    requires b in src
    ensures HasKey(StoreIndicators(t, ticker, FrameOf(src, sqrt)).0.rows, IndicatorKeyOf, IndicatorKey(ticker, b.date))
  {
    var frame := FrameOf(src, sqrt);
    var i :| 0 <= i < |src| && src[i] == b;
    assert frame[i].date == b.date;
  }

  /** The last step of the refresh loop stores the last ticker's frame. */
  lemma RefreshLastStep(t: Table<Indicator>, bars: seq<Bar>, tickers: seq<string>, today: int, sqrt: real -> real)
    requires |tickers| > 0
    ensures var front := tickers[..|tickers| - 1];
      var last := tickers[|tickers| - 1];
      var before := RefreshIndicators(t, bars, front, today, sqrt).0;
      var src := RefreshBars(bars, last, today);
      RefreshIndicators(t, bars, tickers, today, sqrt).0
        == if |src| == 0 then before else StoreIndicators(before, last, FrameOf(src, sqrt)).0
  {
  }

  /** Every bar a listed ticker's indicators are computed from has its
      indicator row (ticker, date) stored once the loop is done. */
  lemma {:induction false} RefreshStoresRows(t: Table<Indicator>, bars: seq<Bar>, tickers: seq<string>, today: int,
                                             sqrt: real -> real, x: string, b: Bar)
    requires x in tickers && b in RefreshBars(bars, x, today)
    ensures HasKey(RefreshIndicators(t, bars, tickers, today, sqrt).0.rows, IndicatorKeyOf, IndicatorKey(x, b.date))
    decreases |tickers|
  {
    var last := tickers[|tickers| - 1];
    var front := tickers[..|tickers| - 1];
    var before := RefreshIndicators(t, bars, front, today, sqrt).0;
    var src := RefreshBars(bars, last, today);
    RefreshLastStep(t, bars, tickers, today, sqrt);
    if x == last {
      StoreFrameHasRow(before, last, src, sqrt, b);
    } else {
      assert x in front;
      RefreshStoresRows(t, bars, front, today, sqrt, x, b);
    }
  }

  /** update_technical_indicators_for_all_stocks: the refresh over every
      ticker that has a yfinance bar. Every bar in a ticker's window gets
      its indicator row, and the count is the number of such bars. */
  function UpdateIndicatorsForAll(t: Table<Indicator>, bars: seq<Bar>, today: int, sqrt: real -> real): (r: (Table<Indicator>, nat))
    ensures r.1 == RefreshCount(bars, DistinctTickers(bars, RefreshSource), today)
    ensures forall x :: x in Data(t.rows) && (forall b :: b in bars && b.source == RefreshSource ==> b.ticker != x.ticker) ==>
      x in Data(r.0.rows)
    ensures WellFormed(t) ==> WellFormed(r.0)
    ensures UniqueOn(t.rows, IndicatorKeyOf) ==> UniqueOn(r.0.rows, IndicatorKeyOf)
  {
    RefreshIndicators(t, bars, DistinctTickers(bars, RefreshSource), today, sqrt)
  }

  /** After the refresh, every yfinance bar inside its ticker's window has its
      indicator row; no ticker needs to be named. */
  lemma UpdateStoresRows(t: Table<Indicator>, bars: seq<Bar>, today: int, sqrt: real -> real, x: string, b: Bar)
    requires b in RefreshBars(bars, x, today)
    ensures HasKey(UpdateIndicatorsForAll(t, bars, today, sqrt).0.rows, IndicatorKeyOf, IndicatorKey(x, b.date))
  {
    var tickers := DistinctTickers(bars, RefreshSource);
    assert b in bars && b.ticker == x && b.source == RefreshSource;
    assert x in tickers;
    RefreshStoresRows(t, bars, tickers, today, sqrt, x, b);
  }

  // ------------------------------------------------------ latest lookups

  function ByTimestamp(p: Profile): SortKey {
    KInt(p.timestamp)
  }

  function QuoteByTimestamp(q: Quote): SortKey {
    KInt(q.timestamp)
  }

  /** A NULL published_at sorts below every text. */
  function ByPublished(n: News): SortKey {
    match n.publishedAt
    case None => KNull
    case Some(s) => KText(s)
  }

  function ByPeriodEnd(f: Fundamental): SortKey {
    KText(f.periodEnd)
  }

  /** get_company_profile: the profile of the ticker with the greatest
      timestamp, whatever its source; None stands for the empty dict. */
  function CompanyProfile(t: Table<Profile>, ticker: string): (r: Option<Profile>)
    ensures r.None? <==> forall x :: x in Data(t.rows) ==> x.ticker != ticker
    ensures r.Some? ==> r.value in Data(t.rows) && r.value.ticker == ticker
    ensures r.Some? ==> forall x :: x in Data(t.rows) && x.ticker == ticker ==> x.timestamp <= r.value.timestamp
  {
    var mine := Filter(Data(t.rows), (p: Profile) => p.ticker == ticker);
    var r := Latest(mine, ByTimestamp);
    assert forall x :: x in Data(t.rows) && x.ticker == ticker ==> x in mine;
    assert r.Some? ==> forall x :: x in Data(t.rows) && x.ticker == ticker ==> x.timestamp <= r.value.timestamp by {
      if r.Some? {
        forall x | x in Data(t.rows) && x.ticker == ticker
          ensures x.timestamp <= r.value.timestamp
        {
          assert Le(ByTimestamp(x), ByTimestamp(r.value));
        }
      }
    }
    r
  }

  /** get_market_quotes: the quote of the ticker with the greatest
      timestamp; None stands for the empty dict. */
  function MarketQuote(t: Table<Quote>, ticker: string): (r: Option<Quote>)
    ensures r.None? <==> forall x :: x in Data(t.rows) ==> x.ticker != ticker
    ensures r.Some? ==> r.value in Data(t.rows) && r.value.ticker == ticker
    ensures r.Some? ==> forall x :: x in Data(t.rows) && x.ticker == ticker ==> x.timestamp <= r.value.timestamp
  {
    var mine := Filter(Data(t.rows), (q: Quote) => q.ticker == ticker);
    var r := Latest(mine, QuoteByTimestamp);
    assert forall x :: x in Data(t.rows) && x.ticker == ticker ==> x in mine;
    assert r.Some? ==> forall x :: x in Data(t.rows) && x.ticker == ticker ==> x.timestamp <= r.value.timestamp by {
      if r.Some? {
        forall x | x in Data(t.rows) && x.ticker == ticker
          ensures x.timestamp <= r.value.timestamp
        {
          assert Le(QuoteByTimestamp(x), QuoteByTimestamp(r.value));
        }
      }
    }
    r
  }

  /** get_latest_news: at most `limit` articles of the ticker, newest
      published_at first; every article left out is no newer than every
      article returned. */
  function LatestNews(t: Table<News>, ticker: string, limit: nat): (r: seq<News>)
    ensures |r| <= limit
    ensures forall x :: x in r ==> x in Data(t.rows) && x.ticker == ticker
    ensures Sorted(r, ByPublished, true)
    ensures |r| == Min(limit, |Filter(Data(t.rows), (n: News) => n.ticker == ticker)|)
    ensures forall x, y :: x in Data(t.rows) && x.ticker == ticker && x !in r && y in r ==>
      Le(ByPublished(x), ByPublished(y))
  {
    var mine := Filter(Data(t.rows), (n: News) => n.ticker == ticker);
    var r := Top(mine, ByPublished, limit);
    TopMembers(mine, ByPublished, limit);
    r
  }

  /** get_fundamental_data: at most `periods` rows of the ticker, latest
      period_end_date first. */
  function FundamentalData(t: Table<Fundamental>, ticker: string, periods: nat): (r: seq<Fundamental>)
    ensures |r| <= periods
    ensures forall x :: x in r ==> x in Data(t.rows) && x.ticker == ticker
    ensures Sorted(r, ByPeriodEnd, true)
    ensures |r| == Min(periods, |Filter(Data(t.rows), (f: Fundamental) => f.ticker == ticker)|)
    ensures forall x, y :: x in Data(t.rows) && x.ticker == ticker && x !in r && y in r ==>
      Le(ByPeriodEnd(x), ByPeriodEnd(y))
  {
    var mine := Filter(Data(t.rows), (f: Fundamental) => f.ticker == ticker);
    var r := Top(mine, ByPeriodEnd, periods);
    TopMembers(mine, ByPeriodEnd, periods);
    r
  }
}

=== FILE: db_manager.dfy ===
/** The remaining writers of the database manager: the generic batch
    insert, the upsert of the hand-maintained company metadata, and the
    removal of the legacy tables once migrated. */
module DbManager {
  import opened Common
  import opened Tables
  import opened Schema
  import opened Text
  import Settings
  import Migration

  // ---------------------------------------------------------------------
  // insert_many

  /** n copies of s. */
  function Repeat(s: string, n: nat): (r: seq<string>)
    ensures |r| == n
    ensures forall i :: 0 <= i < n ==> r[i] == s
  {
    if n == 0 then [] else [s] + Repeat(s, n - 1)
  }

  /** The number of occurrences of c in s. */
  function Occurrences(c: char, s: string): (n: nat)
    ensures n <= |s|
    ensures n == 0 <==> c !in s
    decreases |s|
  {
    if |s| == 0 then 0
    else
      assert forall x :: x in s <==> x == s[0] || x in s[1..];
      (if s[0] == c then 1 else 0) + Occurrences(c, s[1..])
  }

  lemma {:induction false} OccurrencesAppend(c: char, a: string, b: string)
    ensures Occurrences(c, a + b) == Occurrences(c, a) + Occurrences(c, b)
    decreases |a|
  {
    if |a| == 0 {
      assert a + b == b;
    } else {
      assert (a + b)[1..] == a[1..] + b;
      OccurrencesAppend(c, a[1..], b);
    }
  }

  /** The parameter list of the statement: one '?' per column, joined by ", ". */
  function Placeholders(n: nat): string {
    Join(", ", Repeat("?", n))
  }

  /** The placeholder list holds exactly n question marks, and has the
      length of n marks separated by n - 1 separators. */
  lemma {:induction false} PlaceholderCount(n: nat)
    ensures Occurrences('?', Placeholders(n)) == n
    ensures |Placeholders(n)| == if n == 0 then 0 else 3 * n - 2
  {
    if n > 1 {
      PlaceholderCount(n - 1);
      assert Repeat("?", n)[1..] == Repeat("?", n - 1);
      assert Placeholders(n) == "?" + ", " + Placeholders(n - 1);
      OccurrencesAppend('?', "?" + ", ", Placeholders(n - 1));
    }
  }

  /** Joining texts that lack c, with a separator that lacks c, yields a
      text without c. */
  lemma {:induction false} JoinWithout(c: char, sep: string, parts: seq<string>)
    requires c !in sep
    requires forall i :: 0 <= i < |parts| ==> c !in parts[i]
    ensures c !in Join(sep, parts)
    decreases |parts|
  {
    if |parts| > 1 {
      JoinWithout(c, sep, parts[1..]);
      OccurrencesAppend(c, parts[0] + sep, Join(sep, parts[1..]));
      OccurrencesAppend(c, parts[0], sep);
    }
  }

  /** The text of the statement before its placeholder list. */
  function QueryHead(table: string, columns: seq<string>): (r: string)
    ensures '?' !in table && '?' !in Join(", ", columns) ==> '?' !in r
  {
    var a := "INSERT OR REPLACE INTO ";
    var b := " (";
    var c := ") VALUES (";
    assert '?' !in a && '?' !in b && '?' !in c;
    a + table + b + Join(", ", columns) + c
  }

  /** The statement insert_many prepares. */
  function InsertManyQuery(table: string, columns: seq<string>): string {
    QueryHead(table, columns) + Placeholders(|columns|) + ")"
  }

  /** When neither the table nor a column name contains '?', the statement
      has exactly one placeholder per column. */
  lemma QueryPlaceholders(table: string, columns: seq<string>)
    requires '?' !in table
    requires forall i :: 0 <= i < |columns| ==> '?' !in columns[i]
    ensures Occurrences('?', InsertManyQuery(table, columns)) == |columns|
  {
    var c := '?';
    JoinWithout(c, ", ", columns);
    PlaceholderCount(|columns|);
    var head := QueryHead(table, columns);
    var p := Placeholders(|columns|);
    OccurrencesAppend(c, head, p);
    OccurrencesAppend(c, head + p, ")");
  }

  /** insert_many: no statement and 0 for an empty batch; otherwise the
      prepared statement, the table after INSERT OR REPLACE of every value
      in order, and the row count, one per value. */
  function InsertMany<V(!new), K(==)>(t: Table<V>, table: string, columns: seq<string>, values: seq<V>,
                                      key: V -> K): (r: (Table<V>, Option<string>, nat))
    ensures |values| == 0 ==> r == (t, None, 0)
    ensures |values| > 0 ==> r.1 == Some(InsertManyQuery(table, columns))
    ensures r.2 == |values|
    ensures forall i :: 0 <= i < |values| ==> HasKey(r.0.rows, key, key(values[i]))
    ensures WellFormed(t) ==> WellFormed(r.0)
    ensures UniqueOn(t.rows, key) ==> UniqueOn(r.0.rows, key)
  {
    if |values| == 0 then (t, None, 0)
    else (UpsertAll(t, values, key), Some(InsertManyQuery(table, columns)), |values|)
  }

  // ---------------------------------------------------------------------
  // insert_or_update_company_profile

  /** The row written for one entry of the ticker metadata: the
      hand-maintained columns, each '' when its key is missing and NULL
      when it is null, and the tag 'manual'. */
  function ManualProfile(ticker: string, info: Settings.TickerJson, now: int): Profile {
    BlankProfile(ticker, Migration.ManualTag, now).(
      sector := info.sector.Get(""), subsector := info.subsector.Get(""),
      country := info.pais.Get(""), founded := info.fundacion.Get(""),
      yearsPublic := info.anosEnBolsa.Get(""), kind := info.tipo.Get(""),
      description := info.resena.Get(""))
  }

  function ManualProfiles(entries: seq<(string, Settings.TickerJson)>, now: int): (r: seq<Profile>)
    ensures |r| == |entries|
    ensures forall i :: 0 <= i < |entries| ==> r[i] == ManualProfile(entries[i].0, entries[i].1, now)
  {
    Map(entries, (e: (string, Settings.TickerJson)) => ManualProfile(e.0, e.1, now))
  }

  /** insert_or_update_company_profile over the items of the metadata
      dictionary, in order: each replaces the (ticker, 'manual') profile;
      the count is the number of entries, 0 for none. */
  function InsertOrUpdateCompanyProfile(t: Table<Profile>, entries: seq<(string, Settings.TickerJson)>, now: int): (r: (Table<Profile>, nat))
    ensures |entries| == 0 ==> r == (t, 0)
    ensures r.1 == |entries|
    ensures forall i :: 0 <= i < |entries| ==> HasKey(r.0.rows, ProfileKeyOf, ProfileKey(entries[i].0, Migration.ManualTag))
    ensures WellFormed(t) ==> WellFormed(r.0)
    ensures UniqueOn(t.rows, ProfileKeyOf) ==> UniqueOn(r.0.rows, ProfileKeyOf)
  {
    if |entries| == 0 then (t, 0)
    else
      var vs := ManualProfiles(entries, now);
      assert forall i :: 0 <= i < |entries| ==> ProfileKeyOf(vs[i]) == ProfileKey(entries[i].0, Migration.ManualTag);
      (UpsertAll(t, vs, ProfileKeyOf), |entries|)
  }

  /** Some entry names the ticker. */
  predicate Names(entries: seq<(string, Settings.TickerJson)>, ticker: string) {
    exists i :: 0 <= i < |entries| && entries[i].0 == ticker
  }

  /** Some entry's row is exactly x. */
  predicate WrittenBy(entries: seq<(string, Settings.TickerJson)>, now: int, x: Profile) {
    exists i :: 0 <= i < |entries| && x == ManualProfile(entries[i].0, entries[i].1, now)
  }

  /** Profiles of other sources, and manual profiles of tickers the
      entries do not name, are kept; every stored profile is an old one or
      the row of some entry. */
  lemma CompanyProfileFrame(t: Table<Profile>, entries: seq<(string, Settings.TickerJson)>, now: int)
    ensures var r := InsertOrUpdateCompanyProfile(t, entries, now).0;
      && (forall x :: x in Data(t.rows) && (x.source != Migration.ManualTag || !Names(entries, x.ticker)) ==>
            x in Data(r.rows))
      && (forall x :: x in Data(r.rows) ==> x in Data(t.rows) || WrittenBy(entries, now, x))
  {
    if |entries| == 0 {
      return;
    }
    var r := InsertOrUpdateCompanyProfile(t, entries, now).0;
    var vs := ManualProfiles(entries, now);
    assert r == UpsertAll(t, vs, ProfileKeyOf);
    UpsertAllMembers(t, vs, ProfileKeyOf);
    ManualProfilesFacts(entries, now);
    forall x | x in Data(t.rows) && (x.source != Migration.ManualTag || !Names(entries, x.ticker))
      ensures x in Data(r.rows)
    {
      ManualKeysAvoid(entries, now, x);
    }
  }

  /** A profile of another source, or of a ticker no entry names, shares
      its key with no row the entries produce. */
  lemma ManualKeysAvoid(entries: seq<(string, Settings.TickerJson)>, now: int, x: Profile)
    requires x.source != Migration.ManualTag || !Names(entries, x.ticker)
    ensures ProfileKeyOf(x) !in KeysOf(ManualProfiles(entries, now), ProfileKeyOf)
  {
    var vs := ManualProfiles(entries, now);
    forall i | 0 <= i < |vs|
      ensures ProfileKeyOf(vs[i]) != ProfileKeyOf(x)
    {
      assert vs[i] == ManualProfile(entries[i].0, entries[i].1, now);
      assert entries[i].0 == vs[i].ticker;
    }
  }

  /** Every row the entries produce is a manual profile of a ticker they
      name. */
  lemma ManualProfilesFacts(entries: seq<(string, Settings.TickerJson)>, now: int)
    ensures forall v :: v in ManualProfiles(entries, now) ==>
      v.source == Migration.ManualTag && Names(entries, v.ticker) && WrittenBy(entries, now, v)
  {
    var vs := ManualProfiles(entries, now);
    forall v | v in vs
      ensures v.source == Migration.ManualTag && Names(entries, v.ticker) && WrittenBy(entries, now, v)
    {
      var i :| 0 <= i < |vs| && vs[i] == v;
      assert v == ManualProfile(entries[i].0, entries[i].1, now);
    }
  }

  /** The last entry for a ticker decides its manual profile: resena is
      the description, and a missing key is stored as ''. */
  lemma CompanyProfileStored(t: Table<Profile>, entries: seq<(string, Settings.TickerJson)>, now: int, i: nat)
    requires i < |entries|
    requires forall j :: i < j < |entries| ==> entries[j].0 != entries[i].0
    ensures var (ticker, info) := entries[i];
      exists x :: x in Data(InsertOrUpdateCompanyProfile(t, entries, now).0.rows)
        && x.ticker == ticker && x.source == Migration.ManualTag
        && x.description == info.resena.Get("")
        && x.sector == info.sector.Get("") && x.country == info.pais.Get("")
        && (info.tipo.Missing? ==> x.kind == Some(""))
  {
    var vs := ManualProfiles(entries, now);
    assert forall j :: i < j < |vs| ==> ProfileKeyOf(vs[j]) != ProfileKeyOf(vs[i]);
    LastsContains(vs, ProfileKeyOf, i);
    UpsertAllMembers(t, vs, ProfileKeyOf);
  }

  // ---------------------------------------------------------------------
  // cleanup_database

  /** The legacy tables cleanup_database drops, in its order. */
  const OldTables: seq<string> := [Migration.AlphavantageDaily, Migration.FinhubQuotes,
                                   Migration.FmpProfiles, Migration.TickerInfoTable, Migration.PolygonData]

  /** DROP TABLE IF EXISTS of each name in turn; `failing` names the
      statements that raise. The list holds every name whose statement did
      not raise, in order, whether or not the table existed. */
  function DropTables(db: Db, names: seq<string>, failing: set<string>): (r: (Db, seq<string>))
    ensures r.0 == db.(alphavantageDaily := r.0.alphavantageDaily, polygonData := r.0.polygonData,
                       finhubQuotes := r.0.finhubQuotes, fmpProfiles := r.0.fmpProfiles, tickerInfo := r.0.tickerInfo)
    ensures forall n :: Migration.LegacyExists(r.0, n) <==> Migration.LegacyExists(db, n) && (n !in names || n in failing)
    ensures forall n :: n in r.1 <==> n in names && n !in failing
    ensures |r.1| <= |names|
    ensures (forall i :: 0 <= i < |names| ==> names[i] !in failing) ==> r.1 == names
    decreases |names|
  {
    if |names| == 0 then (db, [])
    else
      var n := names[0];
      var rest := DropTables(if n in failing then db else Migration.WithoutLegacy(db, n), names[1..], failing);
      assert forall x :: x in names <==> x == n || x in names[1..];
      assert (forall i :: 0 <= i < |names| ==> names[i] !in failing) ==> forall i :: 0 <= i < |names[1..]| ==> names[1..][i] !in failing;
      (rest.0, (if n in failing then [] else [n]) + rest.1)
  }

  /** cleanup_database: drops only the five legacy tables and lists those
      whose statement succeeded. */
  function CleanupDatabase(db: Db, failing: set<string>): (r: (Db, seq<string>))
    ensures r.0.bars == db.bars && r.0.quotes == db.quotes && r.0.profiles == db.profiles
    ensures r.0.news == db.news && r.0.indicators == db.indicators && r.0.fundamentals == db.fundamentals
    ensures forall n :: n in r.1 <==> n in OldTables && n !in failing
    ensures (forall n :: n in OldTables ==> n !in failing) ==> r.1 == OldTables
  {
    DropTables(db, OldTables, failing)
  }

  /** After a cleanup in which nothing raised no legacy table remains, and
      every legacy table is listed even when it did not exist. */
  lemma CleanupRemovesAllLegacy(db: Db)
    ensures var r := CleanupDatabase(db, {});
      && r.1 == OldTables
      && r.0.alphavantageDaily.None? && r.0.polygonData.None? && r.0.finhubQuotes.None?
      && r.0.fmpProfiles.None? && r.0.tickerInfo.None?
  {
    var r := CleanupDatabase(db, {});
    assert !Migration.LegacyExists(r.0, Migration.AlphavantageDaily);
    assert !Migration.LegacyExists(r.0, Migration.PolygonData);
    assert !Migration.LegacyExists(r.0, Migration.FinhubQuotes);
    assert !Migration.LegacyExists(r.0, Migration.FmpProfiles);
    assert !Migration.LegacyExists(r.0, Migration.TickerInfoTable);
  }

  /** Dropping the legacy tables after a migration leaves the migrated
      canonical rows; a later create_database then migrates nothing. */
  lemma CleanupThenMigrateIsNoop(db: Db, now: int, later: int)
    ensures var cleaned := CleanupDatabase(Migration.MigrateData(db, now), {}).0;
      Migration.MigrateData(cleaned, later) == cleaned
  {
    CleanupRemovesAllLegacy(Migration.MigrateData(db, now));
  }
}

=== FILE: fetchers.dfy ===
/** The fetchers that pull data from the providers and write it to the
    canonical tables (api/data_fetchers.py).

  Each provider call is a function parameter from the ticker to the decoded
  payload. A payload the code treats as falsy (an empty dict, which is also
  what the connectors return on a request error) or that fails the code's
  shape test is `None`. A write that raises inside a per-row `try` skips
  that row; the conditions under which the code's own expressions raise are
  modelled (a NaN volume, a JSON null where `.get` is called on it, a NULL
  in a NOT NULL column). Every write of one run uses the same `now` for
  the columns that default to CURRENT_TIMESTAMP.
 */
module Fetchers {
  import opened Common
  import opened Tables
  import opened Schema
  import Settings
  import Returns

  const YfinanceSource: string := "yfinance"
  const FinhubSource: string := "finhub"
  const FmpSource: string := "fmp"

  /** The first day of the history requested from Yahoo Finance. */
  const HistoryStart: int := Returns.DayNumber(Returns.Date(2024, 1, 1))

  /** The number of reporting periods kept from each fundamentals payload. */
  const FundamentalPeriods: nat := 4

  // ---------------------------------------------------------------------
  // fetch_yfinance_data

  /** Python's int() of a float: truncation toward zero. */
  function Truncate(x: real): (n: int)
    ensures 0.0 <= x ==> 0 <= n && n as real <= x < n as real + 1.0
    ensures x < 0.0 ==> n <= 0 && n as real - 1.0 < x <= n as real
  {
    if x >= 0.0 then x.Floor else -((-x).Floor)
  }

  /** Truncation is odd and leaves integral values alone. */
  lemma TruncateFacts(x: real, k: int)
    ensures Truncate(-x) == -Truncate(x)
    ensures Truncate(k as real) == k
  {
  }

  /** A row of the frame yfinance returns, keyed by its day; the volume is
      None when pandas holds NaN there. */
  datatype HistRow = HistRow(date: int, open: real, high: real, low: real, close: real, volume: Option<real>)

  /** The bar one history row is stored as; int() of a NaN volume raises, and
      the row is skipped. */
  function BarOf(ticker: string, h: HistRow): Option<Bar> {
    if h.volume.None? then None
    else Some(Bar(ticker, h.date, h.open, h.high, h.low, h.close, Truncate(h.volume.value), YfinanceSource))
  }

  /** The bars one ticker's history yields, in order: the rows with a
      volume, each stored under the ticker. */
  function HistoryBars(tk: string, hist: seq<HistRow>): (r: seq<Bar>)
    ensures forall b :: b in r ==> b.source == YfinanceSource && b.ticker == tk
    ensures forall b :: b in r ==> exists h :: h in hist && BarOf(tk, h) == Some(b)
    ensures forall h :: h in hist && h.volume.Some? ==> BarOf(tk, h).value in r
  {
    var r := Convert(hist, (h: HistRow) => BarOf(tk, h));
    assert forall b :: b in r ==> exists h :: h in hist && BarOf(tk, h) == Some(b) by {
      forall b | b in r
        ensures exists h :: h in hist && BarOf(tk, h) == Some(b)
      {
        var i :| 0 <= i < |hist| && BarOf(tk, hist[i]) == Some(b);
      }
    }
    assert forall h :: h in hist && h.volume.Some? ==> BarOf(tk, h).value in r by {
      forall h | h in hist && h.volume.Some?
        ensures BarOf(tk, h).value in r
      {
        var i :| 0 <= i < |hist| && hist[i] == h;
      }
    }
    r
  }

  /** The bars of every ticker, in the order the loop writes them. */
  function FetchedBars(tickers: seq<string>, history: (string, int, int) -> seq<HistRow>, today: int): (r: seq<Bar>)
    ensures forall b :: b in r ==> b.source == YfinanceSource && b.ticker in tickers
    ensures forall b :: b in r ==> exists h :: h in history(b.ticker, HistoryStart, today) && BarOf(b.ticker, h) == Some(b)
    ensures forall i, h :: 0 <= i < |tickers| && h in history(tickers[i], HistoryStart, today) && h.volume.Some? ==>
      BarOf(tickers[i], h).value in r
    decreases |tickers|
  {
    if |tickers| == 0 then []
    else
      var mine := HistoryBars(tickers[0], history(tickers[0], HistoryStart, today));
      var rest := FetchedBars(tickers[1..], history, today);
      assert forall i :: 1 <= i < |tickers| ==> tickers[i] == tickers[1..][i - 1];
      mine + rest
  }

  /** fetch_yfinance_data: every yfinance bar is deleted, then the fetched
      bars are written with INSERT OR REPLACE; the count is the number of
      bars written. */
  function FetchYfinance(t: Table<Bar>, tickers: seq<string>, history: (string, int, int) -> seq<HistRow>,
                         today: int): (r: (Table<Bar>, nat))
    ensures r.1 == |FetchedBars(tickers, history, today)|
    ensures forall b :: b in FetchedBars(tickers, history, today) ==> HasKey(r.0.rows, BarKeyOf, BarKeyOf(b))
    ensures WellFormed(t) ==> WellFormed(r.0)
    ensures UniqueOn(t.rows, BarKeyOf) ==> UniqueOn(r.0.rows, BarKeyOf)
  {
    var bars := FetchedBars(tickers, history, today);
    var purged := Purge(t, (b: Bar) => b.source == YfinanceSource);
    PurgeUnique(t, (b: Bar) => b.source == YfinanceSource, BarKeyOf);
    UpsertAllHasKeys(purged, bars, BarKeyOf);
    (UpsertAll(purged, bars, BarKeyOf), |bars|)
  }

  /** The bars of the other sources are untouched, and afterwards every
      yfinance bar comes from this fetch: none survives from before. */
  lemma FetchYfinanceReplacesSource(t: Table<Bar>, tickers: seq<string>, history: (string, int, int) -> seq<HistRow>,
                                    today: int)
    ensures var r := FetchYfinance(t, tickers, history, today).0;
      && (forall x :: x in Data(t.rows) && x.source != YfinanceSource ==> x in Data(r.rows))
      && (forall x :: x in Data(r.rows) && x.source != YfinanceSource ==> x in Data(t.rows))
      && (forall x :: x in Data(r.rows) && x.source == YfinanceSource ==> x in FetchedBars(tickers, history, today))
  {
    var purged := Purge(t, (b: Bar) => b.source == YfinanceSource);
    var bars := FetchedBars(tickers, history, today);
    UpsertAllMembers(purged, bars, BarKeyOf);
    assert forall x: Bar :: x.source != YfinanceSource ==> BarKeyOf(x) !in KeysOf(bars, BarKeyOf);
  }

  /** One INSERT OR REPLACE per ticker whose payload yields a row; the count
      is the number of such tickers. */
  function UpsertEach<V(==, !new), K(==)>(t: Table<V>, tickers: seq<string>, rowOf: string -> Option<V>,
                                      key: V -> K): (r: (Table<V>, nat))
    ensures r.1 <= |tickers|
    ensures r.1 == |tickers| <==> forall i :: 0 <= i < |tickers| ==> rowOf(tickers[i]).Some?
    ensures forall i :: 0 <= i < |tickers| && rowOf(tickers[i]).Some? ==> HasKey(r.0.rows, key, key(rowOf(tickers[i]).value))
    ensures WellFormed(t) ==> WellFormed(r.0)
    ensures UniqueOn(t.rows, key) ==> UniqueOn(r.0.rows, key)
  {
    var rows := Convert(tickers, rowOf);
    var stored := UpsertAll(t, rows, key);
    forall i | 0 <= i < |tickers| && rowOf(tickers[i]).Some?
      ensures HasKey(stored.rows, key, key(rowOf(tickers[i]).value))
    {
      assert rowOf(tickers[i]).value in rows;
      var j :| 0 <= j < |rows| && rows[j] == rowOf(tickers[i]).value;
    }
    (stored, |rows|)
  }

  /** A stored value is either an old one or a row of some ticker, and an
      old value whose key no written row carries stays. */
  lemma UpsertEachMembers<V(!new), K>(t: Table<V>, tickers: seq<string>, rowOf: string -> Option<V>, key: V -> K)
    ensures var r := UpsertEach(t, tickers, rowOf, key).0;
      && (forall x :: x in Data(r.rows) ==> x in Data(t.rows) || exists i :: 0 <= i < |tickers| && rowOf(tickers[i]) == Some(x))
      && (forall x :: x in Data(t.rows) && (forall i :: 0 <= i < |tickers| && rowOf(tickers[i]).Some? ==> key(rowOf(tickers[i]).value) != key(x))
            ==> x in Data(r.rows))
  {
    var rows := Convert(tickers, rowOf);
    UpsertAllMembers(t, rows, key);
    forall x | x in Data(t.rows) && (forall i :: 0 <= i < |tickers| && rowOf(tickers[i]).Some? ==> key(rowOf(tickers[i]).value) != key(x))
      ensures key(x) !in KeysOf(rows, key)
    {
      forall j | 0 <= j < |rows|
        ensures key(rows[j]) != key(x)
      {
        assert rows[j] in rows;
      }
    }
  }

  // ---------------------------------------------------------------------
  // fetch_finhub_data

  /** The Finnhub quote object. */
  datatype FinhubQuote = FinhubQuote(c: Field<real>, d: Field<real>, dp: Field<real>, h: Field<real>,
                                     l: Field<real>, o: Field<real>, pc: Field<real>)

  /** The quote row written for one ticker: only when the payload has a
      'c' key; every missing field is stored as 0. */
  function QuoteOf(ticker: string, payload: Option<FinhubQuote>, now: int): Option<Quote> {
    if payload.Some? && payload.value.c.Present() then
      var q := payload.value;
      Some(Quote(ticker, q.c.Get(0.0), q.d.Get(0.0), q.dp.Get(0.0), q.h.Get(0.0), q.l.Get(0.0),
                 q.o.Get(0.0), q.pc.Get(0.0), FinhubSource, now))
    else None
  }

  /** fetch_finhub_data: one INSERT OR REPLACE per ticker whose payload has
      a 'c' key; the count is the number of such tickers. */
  function FetchFinhub(t: Table<Quote>, tickers: seq<string>, quote: string -> Option<FinhubQuote>,
                       now: int): (r: (Table<Quote>, nat))
  {
    UpsertEach(t, tickers, (tk: string) => QuoteOf(tk, quote(tk), now), QuoteKeyOf)
  }

  /** The quotes of the tickers whose payload has a 'c' key are stored under
      the run's timestamp; the count reaches the number of tickers exactly
      when every payload has one. */
  lemma FetchFinhubWrites(t: Table<Quote>, tickers: seq<string>, quote: string -> Option<FinhubQuote>, now: int)
    ensures var r := FetchFinhub(t, tickers, quote, now);
      && r.1 <= |tickers|
      && (r.1 == |tickers| <==> forall i :: 0 <= i < |tickers| ==> quote(tickers[i]).Some? && quote(tickers[i]).value.c.Present())
      && (forall i :: 0 <= i < |tickers| && quote(tickers[i]).Some? && quote(tickers[i]).value.c.Present() ==>
            HasKey(r.0.rows, QuoteKeyOf, QuoteKey(tickers[i], now, FinhubSource)))
      && (WellFormed(t) ==> WellFormed(r.0))
      && (UniqueOn(t.rows, QuoteKeyOf) ==> UniqueOn(r.0.rows, QuoteKeyOf))
  {
  }

  /** Earlier quotes are kept: the key holds the timestamp, so quotes
      accumulate over runs; every new row is some ticker's quote. */
  lemma FetchFinhubKeepsHistory(t: Table<Quote>, tickers: seq<string>, quote: string -> Option<FinhubQuote>, now: int)
    ensures var r := FetchFinhub(t, tickers, quote, now).0;
      && (forall x :: x in Data(t.rows) && (x.timestamp != now || x.source != FinhubSource) ==> x in Data(r.rows))
      && (forall x :: x in Data(r.rows) ==>
            x in Data(t.rows) || exists i :: 0 <= i < |tickers| && QuoteOf(tickers[i], quote(tickers[i]), now) == Some(x))
  {
    UpsertEachMembers(t, tickers, (tk: string) => QuoteOf(tk, quote(tk), now), QuoteKeyOf);
  }

  // ---------------------------------------------------------------------
  // fetch_fmp_data

  /** The first object of the FMP profile list. */
  datatype ProfileJson = ProfileJson(companyName: Field<string>, industry: Field<string>, sector: Field<string>,
                                     mktCap: Field<real>, fullTimeEmployees: Field<int>,
                                     description: Field<string>, ceo: Field<string>, website: Field<string>,
                                     exchange: Field<string>, ipoDate: Field<string>)

  /** The profile row written for one ticker: only for a non-empty list; the
      columns the statement does not name are NULL in the replacing row. */
  function ProfileOf(ticker: string, payload: Option<seq<ProfileJson>>, now: int): Option<Profile> {
    if payload.Some? && |payload.value| > 0 then
      var p := payload.value[0];
      Some(BlankProfile(ticker, FmpSource, now).(
        companyName := p.companyName.Get(""), industry := p.industry.Get(""), sector := p.sector.Get(""),
        marketCap := p.mktCap.Get(0.0), employees := p.fullTimeEmployees.Get(0),
        description := p.description.Get(""), ceo := p.ceo.Get(""), website := p.website.Get(""),
        exchange := p.exchange.Get(""), ipoDate := p.ipoDate.Get("")))
    else None
  }

  /** fetch_fmp_data: one INSERT OR REPLACE per ticker with a non-empty
      profile list. */
  function FetchFmp(t: Table<Profile>, tickers: seq<string>, profile: string -> Option<seq<ProfileJson>>,
                    now: int): (r: (Table<Profile>, nat))
  {
    UpsertEach(t, tickers, (tk: string) => ProfileOf(tk, profile(tk), now), ProfileKeyOf)
  }

  /** Every ticker with a non-empty list gets its FMP profile; the count
      reaches the number of tickers exactly when every list is non-empty. */
  lemma FetchFmpWrites(t: Table<Profile>, tickers: seq<string>, profile: string -> Option<seq<ProfileJson>>, now: int)
    ensures var r := FetchFmp(t, tickers, profile, now);
      && r.1 <= |tickers|
      && (r.1 == |tickers| <==> forall i :: 0 <= i < |tickers| ==> profile(tickers[i]).Some? && |profile(tickers[i]).value| > 0)
      && (forall i :: 0 <= i < |tickers| && profile(tickers[i]).Some? && |profile(tickers[i]).value| > 0 ==>
            HasKey(r.0.rows, ProfileKeyOf, ProfileKey(tickers[i], FmpSource)))
      && (WellFormed(t) ==> WellFormed(r.0))
      && (UniqueOn(t.rows, ProfileKeyOf) ==> UniqueOn(r.0.rows, ProfileKeyOf))
  {
  }

  /** The profiles of the other sources are left alone, and every new row is
      some ticker's FMP profile. */
  lemma FetchFmpKeepsOtherSources(t: Table<Profile>, tickers: seq<string>, profile: string -> Option<seq<ProfileJson>>,
                                  now: int)
    ensures var r := FetchFmp(t, tickers, profile, now).0;
      && (forall x :: x in Data(t.rows) && x.source != FmpSource ==> x in Data(r.rows))
      && (forall x :: x in Data(r.rows) ==>
            x in Data(t.rows) || exists i :: 0 <= i < |tickers| && ProfileOf(tickers[i], profile(tickers[i]), now) == Some(x))
  {
    UpsertEachMembers(t, tickers, (tk: string) => ProfileOf(tk, profile(tk), now), ProfileKeyOf);
  }

  /** A refetched FMP profile replaces the old one entirely: a column the
      statement does not name (subsector, country, ...) is NULL afterwards,
      whatever the old row held there. */
  lemma RefetchClearsUnnamedColumns(t: Table<Profile>, ticker: string, payload: seq<ProfileJson>, now: int)
    requires |payload| > 0
    ensures var r := FetchFmp(t, [ticker], (tk: string) => Some(payload), now).0;
      forall x :: x in Data(r.rows) && ProfileKeyOf(x) == ProfileKey(ticker, FmpSource) ==>
        x.subsector.None? && x.country.None? && x.founded.None? && x.yearsPublic.None? && x.kind.None?
  {
    var f := (tk: string) => Some(payload);
    var rowOf := (tk: string) => ProfileOf(tk, f(tk), now);
    var rows := Convert([ticker], rowOf);
    var p := ProfileOf(ticker, Some(payload), now).value;
    assert rows == [p] by {
      assert rowOf(ticker) == Some(p);
    }
    UpsertAllMembers(t, rows, ProfileKeyOf);
    LastsSubset(rows, ProfileKeyOf);
    assert KeysOf(rows, ProfileKeyOf) == {ProfileKey(ticker, FmpSource)};
  }

  // ---------------------------------------------------------------------
  // fetch_news_data

  /** The 'source' object of an article. */
  datatype SourceJson = SourceJson(name: Field<string>)

  /** An article of the News API payload; a 'source' that is null or not an
      object is `Null`. */
  datatype ArticleJson = ArticleJson(title: Field<string>, source: Field<SourceJson>, url: Field<string>,
                                     publishedAt: Field<string>, content: Field<string>)

  /** The news row one article is stored as. `article.get('source', {})` of
      a null source is None, whose `.get` raises, so the article is skipped;
      a missing source gives an empty name. A missing url is stored as the
      empty text, not as NULL. */
  function NewsOf(ticker: string, a: ArticleJson): Option<News> {
    if a.source.Null? then None
    else
      var name := if a.source.Missing? then Some("") else a.source.value.name.Get("");
      Some(News(ticker, a.title.Get(""), name, a.url.Get(""), a.publishedAt.Get(""), a.content.Get("")))
  }

  /** INSERT OR IGNORE of each row in turn; the count is the number of
      statements whose row count was positive. */
  function InsertNews(t: Table<News>, rows: seq<News>): (r: (Table<News>, nat))
    ensures t.rows <= r.0.rows
    ensures r.1 == |r.0.rows| - |t.rows| && r.1 <= |rows|
    ensures r.0.nextId == t.nextId + r.1
    ensures forall k :: |t.rows| <= k < |r.0.rows| ==> r.0.rows[k].data in rows
    ensures forall n :: n in rows && n.url.Some? ==> HasUrl(r.0.rows, n.url.value)
    ensures WellFormed(t) ==> WellFormed(r.0)
    ensures UrlsUnique(t.rows) ==> UrlsUnique(r.0.rows)
    decreases |rows|
  {
    if |rows| == 0 then (t, 0)
    else
      var (t1, added) := InsertNewsOrIgnore(t, rows[0]);
      var (t2, n) := InsertNews(t1, rows[1..]);
      assert forall x :: x in rows[1..] ==> x in rows;
      assert rows[0].url.Some? ==> HasUrl(t2.rows, rows[0].url.value) by {
        if rows[0].url.Some? {
          var i :| 0 <= i < |t1.rows| && t1.rows[i].data.url == rows[0].url by {
            if added {
              assert t1.rows[|t.rows|].data == rows[0];
            }
          }
          assert t2.rows[i] == t1.rows[i];
        }
      }
      assert forall k :: |t.rows| <= k < |t2.rows| ==> t2.rows[k].data in rows by {
        forall k | |t.rows| <= k < |t2.rows|
          ensures t2.rows[k].data in rows
        {
          if k < |t1.rows| {
            assert t2.rows[k] == t1.rows[k];
          }
        }
      }
      assert forall x :: x in rows ==> x == rows[0] || x in rows[1..];
      (t2, n + if added then 1 else 0)
  }

  /** The rows the fetch tries to insert for one ticker: the convertible
      articles among the first NEWS_ARTICLE_LIMIT of its payload. */
  function ArticleRows(ticker: string, articles: Option<seq<ArticleJson>>): (r: seq<News>)
    ensures |r| <= Settings.NewsArticleLimit
    ensures forall n :: n in r ==> n.ticker == ticker
  {
    if articles.None? then []
    else
      var rows := Convert(Take(articles.value, Settings.NewsArticleLimit), (a: ArticleJson) => NewsOf(ticker, a));
      assert forall n :: n in rows ==> n.ticker == ticker by {
        forall n | n in rows
          ensures n.ticker == ticker
        {
          var i :| 0 <= i < |Take(articles.value, Settings.NewsArticleLimit)| &&
            NewsOf(ticker, Take(articles.value, Settings.NewsArticleLimit)[i]) == Some(n);
        }
      }
      rows
  }

  /** fetch_news_data: the articles of each ticker in turn, INSERT OR IGNORE
      on the url. Existing rows are never touched, at most
      NEWS_ARTICLE_LIMIT rows are added per ticker, and the count is the
      number of rows added. */
  function FetchNews(t: Table<News>, tickers: seq<string>, news: string -> Option<seq<ArticleJson>>): (r: (Table<News>, nat))
    ensures t.rows <= r.0.rows
    ensures r.1 == |r.0.rows| - |t.rows|
    ensures r.1 <= Settings.NewsArticleLimit * |tickers|
    ensures forall k :: |t.rows| <= k < |r.0.rows| ==> r.0.rows[k].data.ticker in tickers
    ensures WellFormed(t) ==> WellFormed(r.0)
    ensures UrlsUnique(t.rows) ==> UrlsUnique(r.0.rows)
    decreases |tickers|
  {
    if |tickers| == 0 then (t, 0)
    else
      var front := tickers[..|tickers| - 1];
      var last := tickers[|tickers| - 1];
      var (t1, n1) := FetchNews(t, front, news);
      var (t2, n2) := InsertNews(t1, ArticleRows(last, news(last)));
      assert forall x :: x in front ==> x in tickers;
      assert forall k :: |t1.rows| <= k < |t2.rows| ==> t2.rows[k].data.ticker == last;
      assert forall k :: |t.rows| <= k < |t1.rows| ==> t2.rows[k] == t1.rows[k];
      (t2, n1 + n2)
  }

  /** Every article of a fetched payload that has no url key is stored under
      the empty url, so once one is stored no later one is: they collide on
      UNIQUE(url). */
  lemma ArticlesWithoutUrlCollide(t: Table<News>, ticker: string, a: ArticleJson, b: ArticleJson)
    requires a.url.Missing? && b.url.Missing? && !a.source.Null? && !b.source.Null?
    ensures var r := InsertNews(t, [NewsOf(ticker, a).value, NewsOf(ticker, b).value]);
      r.1 <= 1 && HasUrl(r.0.rows, "")
  {
    var na, nb := NewsOf(ticker, a).value, NewsOf(ticker, b).value;
    var (t1, added) := InsertNewsOrIgnore(t, na);
    assert HasUrl(t1.rows, "") by {
      if added {
        assert t1.rows[|t.rows|].data == na;
      }
    }
    assert [na, nb][1..] == [nb];
    assert [nb][1..] == [];
  }

  // ---------------------------------------------------------------------
  // fetch_fundamental_data

  /** An item of the FMP ratios list. */
  datatype RatioJson = RatioJson(period: Field<string>, date: Field<string>,
                                 priceEarningsRatio: Field<real>, priceToBookRatio: Field<real>,
                                 dividendYield: Field<real>, debtToEquity: Field<real>,
                                 returnOnAssets: Field<real>, returnOnEquity: Field<real>,
                                 grossProfitMargin: Field<real>, operatingProfitMargin: Field<real>,
                                 netProfitMargin: Field<real>)

  /** An item of the FMP income-statement list. */
  datatype IncomeJson = IncomeJson(date: Field<string>, revenue: Field<real>, netIncome: Field<real>,
                                   eps: Field<real>, freeCashFlow: Field<real>)

  /** The fundamentals row one ratios item is stored as; a null period or
      date violates NOT NULL, and the item is skipped. The income columns
      are not named, so they are NULL in the replacing row. */
  function FundamentalOf(ticker: string, p: RatioJson): Option<Fundamental> {
    match (p.period.Get(""), p.date.Get(""))
    case (Some(period), Some(date)) =>
      Some(Fundamental(ticker, period, date, None, None, None,
                       p.priceEarningsRatio.Get(0.0), p.priceToBookRatio.Get(0.0),
                       p.dividendYield.Get(0.0), p.debtToEquity.Get(0.0),
                       p.returnOnAssets.Get(0.0), p.returnOnEquity.Get(0.0),
                       p.grossProfitMargin.Get(0.0), p.operatingProfitMargin.Get(0.0),
                       p.netProfitMargin.Get(0.0), None, Some(FmpSource)))
    case _ => None
  }

  /** `WHERE ticker = ? AND period_end_date = ?`; a null date compares as
      NULL and matches no row. */
  predicate IncomeMatches(ticker: string, item: IncomeJson, f: Fundamental) {
    f.ticker == ticker && item.date.Get("") == Some(f.periodEnd)
  }

  function WithIncome(item: IncomeJson, f: Fundamental): Fundamental {
    f.(revenue := item.revenue.Get(0.0), netIncome := item.netIncome.Get(0.0),
       eps := item.eps.Get(0.0), freeCashFlow := item.freeCashFlow.Get(0.0))
  }

  /** The UPDATE statements of the income step, one per item in turn. */
  function ApplyIncome(rows: seq<Row<Fundamental>>, ticker: string, items: seq<IncomeJson>): (r: seq<Row<Fundamental>>)
    ensures |r| == |rows|
    ensures forall i :: 0 <= i < |r| ==> r[i].id == rows[i].id && FundamentalKeyOf(r[i].data) == FundamentalKeyOf(rows[i].data)
    ensures forall i :: 0 <= i < |r| && (forall j :: 0 <= j < |items| ==> !IncomeMatches(ticker, items[j], rows[i].data)) ==>
      r[i] == rows[i]
    decreases |items|
  {
    if |items| == 0 then rows
    else
      var item := items[0];
      var once := UpdateWhere(rows, (f: Fundamental) => IncomeMatches(ticker, item, f), (f: Fundamental) => WithIncome(item, f));
      UpdateWhereFacts(Table(rows, 0), (f: Fundamental) => IncomeMatches(ticker, item, f),
                       (f: Fundamental) => WithIncome(item, f), FundamentalKeyOf);
      assert forall i :: 0 <= i < |rows| ==> once[i].data.ticker == rows[i].data.ticker && once[i].data.periodEnd == rows[i].data.periodEnd;
      var r := ApplyIncome(once, ticker, items[1..]);
      assert forall j :: 1 <= j < |items| ==> items[j] == items[1..][j - 1];
      r
  }

  /** The row of a period whose date the last matching income item gives
      carries that item's figures; the figures are 0 for a missing key and
      NULL for a JSON null. */
  lemma {:induction false} LastIncomeItemWins(rows: seq<Row<Fundamental>>, ticker: string, items: seq<IncomeJson>,
                                             i: nat, j: nat)
    requires i < |rows| && j < |items| && IncomeMatches(ticker, items[j], rows[i].data)
    requires forall k :: j < k < |items| ==> !IncomeMatches(ticker, items[k], rows[i].data)
    ensures var f := ApplyIncome(rows, ticker, items)[i].data;
      f.revenue == items[j].revenue.Get(0.0) && f.netIncome == items[j].netIncome.Get(0.0)
      && f.eps == items[j].eps.Get(0.0) && f.freeCashFlow == items[j].freeCashFlow.Get(0.0)
    decreases |items|
  {
    var item := items[0];
    var once := UpdateWhere(rows, (f: Fundamental) => IncomeMatches(ticker, item, f), (f: Fundamental) => WithIncome(item, f));
    assert forall k :: 1 <= k < |items| ==> items[k] == items[1..][k - 1];
    assert once[i].data.ticker == rows[i].data.ticker && once[i].data.periodEnd == rows[i].data.periodEnd;
    if j == 0 {
      assert once[i].data == WithIncome(item, rows[i].data);
      assert forall k :: 0 <= k < |items[1..]| ==> !IncomeMatches(ticker, items[1..][k], once[i].data);
    } else {
      LastIncomeItemWins(once, ticker, items[1..], i, j - 1);
    }
  }

  /** Rows keeping their ids and keys position by position keep the table
      well formed and unique. */
  lemma SameShape(t: Table<Fundamental>, r: seq<Row<Fundamental>>)
    requires |r| == |t.rows|
    requires forall i :: 0 <= i < |r| ==> r[i].id == t.rows[i].id && FundamentalKeyOf(r[i].data) == FundamentalKeyOf(t.rows[i].data)
    ensures WellFormed(t) ==> WellFormed(Table(r, t.nextId))
    ensures UniqueOn(t.rows, FundamentalKeyOf) ==> UniqueOn(r, FundamentalKeyOf)
  {
  }

  /** The rows the ratios step writes: the convertible items among the
      first four. */
  function RatioRows(ticker: string, ratios: Option<seq<RatioJson>>): (r: seq<Fundamental>)
    ensures |r| <= FundamentalPeriods
    ensures forall x :: x in r ==> x.ticker == ticker
    ensures ratios.Some? ==> forall p :: p in Take(ratios.value, FundamentalPeriods) && FundamentalOf(ticker, p).Some? ==>
      FundamentalOf(ticker, p).value in r
  {
    if ratios.None? then []
    else
      var items := Take(ratios.value, FundamentalPeriods);
      var rows := Convert(items, (p: RatioJson) => FundamentalOf(ticker, p));
      assert forall x :: x in rows ==> x.ticker == ticker by {
        forall x | x in rows
          ensures x.ticker == ticker
        {
          var i :| 0 <= i < |items| && FundamentalOf(ticker, items[i]) == Some(x);
        }
      }
      assert forall p :: p in items && FundamentalOf(ticker, p).Some? ==> FundamentalOf(ticker, p).value in rows by {
        forall p | p in items && FundamentalOf(ticker, p).Some?
          ensures FundamentalOf(ticker, p).value in rows
        {
          var i :| 0 <= i < |items| && items[i] == p;
        }
      }
      rows
  }

  /** The UPDATE statements of the income step on a table. */
  function IncomeStep(rows: seq<Row<Fundamental>>, ticker: string, income: Option<seq<IncomeJson>>): (r: seq<Row<Fundamental>>)
    ensures |r| == |rows|
    ensures forall i :: 0 <= i < |r| ==> r[i].id == rows[i].id && FundamentalKeyOf(r[i].data) == FundamentalKeyOf(rows[i].data)
    ensures forall i :: 0 <= i < |r| && rows[i].data.ticker != ticker ==> r[i] == rows[i]
  {
    if income.None? then rows else ApplyIncome(rows, ticker, Take(income.value, FundamentalPeriods))
  }

  /** fetch_fundamental_data: the first four ratios items are written with
      INSERT OR REPLACE, then the first four income items update the rows of
      the ticker whose period end date they give. The update runs whatever
      the ratios step did and never inserts. The count is the number of
      ratios rows written. */
  function FetchFundamentals(t: Table<Fundamental>, ticker: string, ratios: Option<seq<RatioJson>>,
                             income: Option<seq<IncomeJson>>): (r: (Table<Fundamental>, nat))
    ensures r.1 <= FundamentalPeriods
    ensures r.1 == |RatioRows(ticker, ratios)|
    ensures ratios.None? ==> r.1 == 0 && |r.0.rows| == |t.rows|
    ensures WellFormed(t) ==> WellFormed(r.0)
    ensures UniqueOn(t.rows, FundamentalKeyOf) ==> UniqueOn(r.0.rows, FundamentalKeyOf)
  {
    var written := RatioRows(ticker, ratios);
    var upserted := UpsertAll(t, written, FundamentalKeyOf);
    var rows := IncomeStep(upserted.rows, ticker, income);
    SameShape(upserted, rows);
    (Table(rows, upserted.nextId), |written|)
  }

  /** Every period the ratios step writes has its row afterwards: the income
      step moves no key. */
  lemma FetchFundamentalsStoresRatios(t: Table<Fundamental>, ticker: string, ratios: Option<seq<RatioJson>>,
                                      income: Option<seq<IncomeJson>>)
    ensures var r := FetchFundamentals(t, ticker, ratios, income).0;
      forall x :: x in RatioRows(ticker, ratios) ==> HasKey(r.rows, FundamentalKeyOf, FundamentalKeyOf(x))
  {
    var written := RatioRows(ticker, ratios);
    var upserted := UpsertAll(t, written, FundamentalKeyOf);
    assert FetchFundamentals(t, ticker, ratios, income).0.rows == IncomeStep(upserted.rows, ticker, income);
    UpsertAllHasKeys(t, written, FundamentalKeyOf);
    IncomeStepKeepsKeys(upserted.rows, ticker, income);
  }

  /** The income step moves no key. */
  lemma IncomeStepKeepsKeys(rows: seq<Row<Fundamental>>, ticker: string, income: Option<seq<IncomeJson>>)
    ensures forall k :: HasKey(rows, FundamentalKeyOf, k) ==> HasKey(IncomeStep(rows, ticker, income), FundamentalKeyOf, k)
  {
    var r := IncomeStep(rows, ticker, income);
    forall k | HasKey(rows, FundamentalKeyOf, k)
      ensures HasKey(r, FundamentalKeyOf, k)
    {
      var i :| 0 <= i < |rows| && FundamentalKeyOf(rows[i].data) == k;
      assert FundamentalKeyOf(r[i].data) == k;
    }
  }

  /** The income step changes no row of another ticker. */
  lemma IncomeStepKeepsOtherTickers(rows: seq<Row<Fundamental>>, ticker: string, income: Option<seq<IncomeJson>>)
    ensures forall x: Fundamental :: x.ticker != ticker ==> (x in Data(IncomeStep(rows, ticker, income)) <==> x in Data(rows))
  {
    var r := IncomeStep(rows, ticker, income);
    forall x: Fundamental | x.ticker != ticker
      ensures x in Data(r) <==> x in Data(rows)
    {
      if x in Data(r) {
        var i :| 0 <= i < |r| && Data(r)[i] == x;
        assert Data(rows)[i] == x;
      }
      if x in Data(rows) {
        var i :| 0 <= i < |rows| && Data(rows)[i] == x;
        assert Data(r)[i] == x;
      }
    }
  }

  /** The rows of other tickers are exactly those before. */
  lemma FetchFundamentalsKeepsOtherTickers(t: Table<Fundamental>, ticker: string, ratios: Option<seq<RatioJson>>,
                                           income: Option<seq<IncomeJson>>)
    ensures var r := FetchFundamentals(t, ticker, ratios, income).0;
      forall x: Fundamental :: x.ticker != ticker ==> (x in Data(r.rows) <==> x in Data(t.rows))
  {
    var written := RatioRows(ticker, ratios);
    var upserted := UpsertAll(t, written, FundamentalKeyOf);
    IncomeStepKeepsOtherTickers(upserted.rows, ticker, income);
    UpsertAllMembers(t, written, FundamentalKeyOf);
    LastsSubset(written, FundamentalKeyOf);
    assert forall k :: k in KeysOf(written, FundamentalKeyOf) ==> k.ticker == ticker;
  }

  /** The loop over the configured tickers that calls fetch_fundamental_data
      for each in turn and sums the counts. */
  function FetchFundamentalsAll(t: Table<Fundamental>, tickers: seq<string>,
                                ratios: string -> Option<seq<RatioJson>>,
                                income: string -> Option<seq<IncomeJson>>): (r: (Table<Fundamental>, nat))
    ensures r.1 <= FundamentalPeriods * |tickers|
    ensures forall x: Fundamental :: x.ticker !in tickers ==> (x in Data(r.0.rows) <==> x in Data(t.rows))
    ensures WellFormed(t) ==> WellFormed(r.0)
    ensures UniqueOn(t.rows, FundamentalKeyOf) ==> UniqueOn(r.0.rows, FundamentalKeyOf)
    decreases |tickers|
  {
    if |tickers| == 0 then (t, 0)
    else
      var last := tickers[|tickers| - 1];
      var front := tickers[..|tickers| - 1];
      assert forall x :: x in tickers <==> x in front || x == last;
      var before := FetchFundamentalsAll(t, front, ratios, income);
      var after := FetchFundamentals(before.0, last, ratios(last), income(last));
      FetchFundamentalsKeepsOtherTickers(before.0, last, ratios(last), income(last));
      (after.0, before.1 + after.1)
  }

  /** Everything a refresh reads from outside the database: one function
      per provider call, the day the history ends, and the timestamp the
      run's writes carry. */
  datatype Providers = Providers(history: (string, int, int) -> seq<HistRow>,
                                 quote: string -> Option<FinhubQuote>,
                                 profile: string -> Option<seq<ProfileJson>>,
                                 news: string -> Option<seq<ArticleJson>>,
                                 ratios: string -> Option<seq<RatioJson>>,
                                 income: string -> Option<seq<IncomeJson>>,
                                 today: int, now: int)
}

=== FILE: indicator_job.dfy ===
/** The batch job that computes and stores the indicators of every
    configured ticker (calculate_all_indicators). */
module IndicatorJob {
  import opened Tables
  import opened Schema
  import opened Indicators
  import opened DataUtils

  /** The look-back the job passes to get_stock_data. */
  const JobDays: int := 60

  /** The source tried first; "all" is the fallback. */
  const PrimarySource: string := "yfinance"

  const NoData: string := "No data available"

  /** The columns of the frame get_stock_data returns once the date has
      become its index. */
  const InputColumns: seq<string> := ["open", "high", "low", "close", "volume"]

  /** One ticker's entry of the job's result dictionary. */
  datatype Outcome = Failed(message: string) | Succeeded(recordsInserted: nat, indicatorsCalculated: nat)

  /** Some bar of the ticker, from any source, lies in the look-back window. */
  predicate HasRecentBars(bars: seq<Bar>, ticker: string, days: int, today: int) {
    exists b :: b in bars && InRange(b, ticker, today - days, today, AllSources)
  }

  /** The bars the job computes from: the primary source's when it has any
      in the window, otherwise every source's. */
  function JobBars(bars: seq<Bar>, ticker: string, days: int, today: int): (r: seq<Bar>)
    ensures |r| == 0 <==> !HasRecentBars(bars, ticker, days, today)
    ensures (exists b :: b in bars && InRange(b, ticker, today - days, today, PrimarySource)) ==>
      forall b :: b in r ==> b.source == PrimarySource
    ensures forall b :: b in r ==> b in bars && InRange(b, ticker, today - days, today, AllSources)
  {
    var primary := StockData(bars, ticker, days, PrimarySource, today);
    if |primary| > 0 then
      assert primary[0] in primary;
      primary
    else
      var all := StockData(bars, ticker, days, AllSources, today);
      assert |all| > 0 ==> all[0] in all;
      assert !(exists b :: b in bars && InRange(b, ticker, today - days, today, PrimarySource));
      all
  }

  /** The number of columns calculate_technical_indicators adds: the width
      of its output frame minus the width of its input frame. */
  function AddedColumns(): (n: nat)
    ensures n == |OutputColumns|
    ensures forall c :: c in OutputColumns ==> c !in InputColumns
  {
    |InputColumns + OutputColumns| - |InputColumns|
  }

  /** One ticker's result, which depends only on the bars. */
  function OutcomeFor(bars: seq<Bar>, ticker: string, days: int, today: int): (r: Outcome)
    ensures r.Failed? <==> !HasRecentBars(bars, ticker, days, today)
    ensures r.Failed? ==> r.message == NoData
    ensures r.Succeeded? ==> r.recordsInserted == |JobBars(bars, ticker, days, today)|
    ensures r.Succeeded? ==> r.indicatorsCalculated == 14
  {
    var src := JobBars(bars, ticker, days, today);
    if |src| == 0 then Failed(NoData)
    else Succeeded(|src|, AddedColumns())
  }

  /** One iteration of the loop: compute and store, or record the failure
      and store nothing. */
  function RunTicker(t: Table<Indicator>, bars: seq<Bar>, ticker: string, days: int, today: int,
                     sqrt: real -> real): (r: (Table<Indicator>, Outcome))
    ensures r.1 == OutcomeFor(bars, ticker, days, today)
    ensures r.1.Failed? ==> r.0 == t
    ensures r.1.Succeeded? ==> forall b :: b in JobBars(bars, ticker, days, today) ==>
      HasKey(r.0.rows, IndicatorKeyOf, IndicatorKey(ticker, b.date))
    ensures forall x :: x in Data(t.rows) && x.ticker != ticker ==> x in Data(r.0.rows)
    ensures WellFormed(t) ==> WellFormed(r.0)
    ensures UniqueOn(t.rows, IndicatorKeyOf) ==> UniqueOn(r.0.rows, IndicatorKeyOf)
  {
    var src := JobBars(bars, ticker, days, today);
    if |src| == 0 then (t, Failed(NoData))
    else
      var frame := FrameOf(src, sqrt);
      var stored := StoreIndicators(t, ticker, frame);
      StoreIndicatorsContents(t, ticker, frame, |frame| - 1);
      assert forall b :: b in src ==> exists i :: 0 <= i < |frame| && frame[i].date == b.date;
      (stored.0, Succeeded(stored.1, AddedColumns()))
  }

  /** The result dictionary of calculate_all_indicators: one entry per
      configured ticker (a repeated ticker writes the same entry twice). */
  function Results(bars: seq<Bar>, tickers: seq<string>, days: int, today: int): (r: map<string, Outcome>)
    ensures r.Keys == set x | x in tickers
    ensures forall x :: x in r ==> r[x] == OutcomeFor(bars, x, days, today)
    decreases |tickers|
  {
    if |tickers| == 0 then map[]
    else
      var last := tickers[|tickers| - 1];
      var front := tickers[..|tickers| - 1];
      assert forall x :: x in tickers <==> x in front || x == last;
      Results(bars, front, days, today)[last := OutcomeFor(bars, last, days, today)]
  }

  /** The indicator table after the loop has run over the tickers, in order. */
  function StoreAll(t: Table<Indicator>, bars: seq<Bar>, tickers: seq<string>, days: int, today: int,
                    sqrt: real -> real): (r: Table<Indicator>)
    ensures WellFormed(t) ==> WellFormed(r)
    ensures UniqueOn(t.rows, IndicatorKeyOf) ==> UniqueOn(r.rows, IndicatorKeyOf)
    ensures forall x :: x in Data(t.rows) && x.ticker !in tickers ==> x in Data(r.rows)
    ensures (forall x :: x in tickers ==> !HasRecentBars(bars, x, days, today)) ==> r == t
    decreases |tickers|
  {
    if |tickers| == 0 then t
    else
      var last := tickers[|tickers| - 1];
      var front := tickers[..|tickers| - 1];
      assert forall x :: x in tickers <==> x in front || x == last;
      RunTicker(StoreAll(t, bars, front, days, today, sqrt), bars, last, days, today, sqrt).0
  }

  /** calculate_all_indicators: the stored table and the result dictionary. */
  function CalculateAll(t: Table<Indicator>, bars: seq<Bar>, tickers: seq<string>, days: int, today: int,
                        sqrt: real -> real): (Table<Indicator>, map<string, Outcome>)
  {
    (StoreAll(t, bars, tickers, days, today, sqrt), Results(bars, tickers, days, today))
  }
}

=== FILE: indicators.dfy ===
/** The technical-indicator engine: calculate_technical_indicators over the
    bars of one ticker, oldest first.

  pandas semantics, with exact reals and `None` for NaN:
  - rolling(window=n).mean() is NaN until n values are available, then the
    mean of the last n;
  - ewm(span=s, adjust=False).mean() starts at the first value and then
    moves a fraction 2/(s+1) of the way towards each new value;
  - close.diff() is NaN on the first row; `where(delta > 0, 0)` turns that
    NaN into 0, so the first row's gain and loss are both 0;
  - the true range of the first row is high - low, because the row-wise
    max skips the two NaN terms that need a previous close;
  - rolling(window=20).std() is the sample standard deviation (ddof = 1).
    The square root is a parameter `sqrt`; the bands are stated through the
    variance it is applied to.
 */
module Indicators {
  import opened Common
  import opened Schema

  // ---------------------------------------------------------------- sums

  function Sum(s: seq<real>): real {
    if |s| == 0 then 0.0 else Sum(s[..|s| - 1]) + s[|s| - 1]
  }

  function Mean(s: seq<real>): real
    requires |s| > 0
  {
    Sum(s) / (|s| as real)
  }

  lemma {:induction false} SumFront(s: seq<real>)
    requires |s| > 0
    ensures Sum(s) == s[0] + Sum(s[1..])
    decreases |s|
  {
    if |s| > 1 {
      var init := s[..|s| - 1];
      SumFront(init);
      assert init[1..] == s[1..][..|s| - 2];
    }
  }

  lemma {:induction false} SumBounds(s: seq<real>, lo: real, hi: real)
    requires forall k :: 0 <= k < |s| ==> lo <= s[k] <= hi
    ensures (|s| as real) * lo <= Sum(s) <= (|s| as real) * hi
    decreases |s|
  {
    if |s| > 0 {
      SumBounds(s[..|s| - 1], lo, hi);
      var m := (|s| - 1) as real;
      assert (|s| as real) * lo == m * lo + lo && (|s| as real) * hi == m * hi + hi;
    }
  }

  /** A sum is monotone in its terms. */
  lemma {:induction false} SumMonotone(a: seq<real>, b: seq<real>)
    requires |a| == |b|
    requires forall k :: 0 <= k < |a| ==> a[k] <= b[k]
    ensures Sum(a) <= Sum(b)
    decreases |a|
  {
    if |a| > 0 {
      SumMonotone(a[..|a| - 1], b[..|b| - 1]);
    }
  }

  /** A sum of non-negative terms is zero only when every term is. */
  lemma {:induction false} SumZero(s: seq<real>)
    requires forall k :: 0 <= k < |s| ==> s[k] >= 0.0
    ensures Sum(s) >= 0.0
    ensures Sum(s) == 0.0 <==> forall k :: 0 <= k < |s| ==> s[k] == 0.0
    decreases |s|
  {
    if |s| > 0 {
      SumZero(s[..|s| - 1]);
      assert forall k :: 0 <= k < |s| - 1 ==> s[..|s| - 1][k] == s[k];
    }
  }

  /** The mean of a window lies between any bounds of its values. */
  lemma MeanBounds(s: seq<real>, lo: real, hi: real)
    requires |s| > 0
    requires forall k :: 0 <= k < |s| ==> lo <= s[k] <= hi
    ensures lo <= Mean(s) <= hi
  {
    SumBounds(s, lo, hi);
    var n := |s| as real;
    assert n * lo <= Sum(s) <= n * hi;
    assert Sum(s) / n >= lo by {
      assert Sum(s) >= n * lo;
    }
    assert Sum(s) / n <= hi by {
      assert Sum(s) <= n * hi;
    }
  }

  // -------------------------------------------------------- rolling mean

  /** The n values ending at row i. */
  function Window(xs: seq<real>, n: nat, i: nat): seq<real>
    requires 0 < n <= i + 1 && i < |xs|
  {
    xs[i + 1 - n..i + 1]
  }

  /** rolling(window=n).mean() at row i. */
  function Rolling(xs: seq<real>, n: nat, i: nat): (r: Option<real>)
    requires n > 0 && i < |xs|
    ensures r.None? <==> i + 1 < n
  {
    if i + 1 < n then None else Some(Mean(Window(xs, n, i)))
  }

  function RollingSeries(xs: seq<real>, n: nat): (r: seq<Option<real>>)
    requires n > 0
    ensures |r| == |xs|
  {
    seq(|xs|, i requires 0 <= i < |xs| => Rolling(xs, n, i))
  }

  /** Start of the window of at most n values that ends just before row i. */
  function WindowStart(i: nat, n: nat): nat {
    if i >= n then i - n else 0
  }

  /** One step of the running sum: add the value entering the window and,
      once the window is full, subtract the one leaving it. */
  function Slide(xs: seq<real>, n: nat, i: nat, acc: real): real
    requires i < |xs|
  {
    if i >= n then acc + xs[i] - xs[i - n] else acc + xs[i]
  }

  /** The streaming output for row i: the running sum over the width once
      the window is full. */
  function Emit(n: nat, i: nat, acc: real): Option<real>
    requires n > 0
  {
    if i + 1 >= n then Some(acc / (n as real)) else None
  }

  lemma RunningSumStep(xs: seq<real>, n: nat, i: nat, acc: real)
    requires n > 0 && i < |xs|
    requires acc == Sum(xs[WindowStart(i, n)..i])
    ensures Slide(xs, n, i, acc) == Sum(xs[WindowStart(i + 1, n)..i + 1])
  {
    var lo := WindowStart(i, n);
    assert xs[lo..i + 1][..i - lo] == xs[lo..i];
    assert Sum(xs[lo..i + 1]) == acc + xs[i];
    if i >= n {
      SumFront(xs[lo..i + 1]);
      assert xs[lo..i + 1][1..] == xs[lo + 1..i + 1];
    }
  }

  /** The running sum of a full window, divided by its width, is the
      rolling mean. */
  lemma RunningMean(xs: seq<real>, n: nat, i: nat, acc: real)
    requires n > 0 && i < |xs|
    requires acc == Sum(xs[WindowStart(i + 1, n)..i + 1])
    ensures Emit(n, i, acc) == Rolling(xs, n, i)
  {
    if i + 1 >= n {
      assert xs[WindowStart(i + 1, n)..i + 1] == Window(xs, n, i);
    }
  }

  /** The rolling mean computed the way a streaming implementation does it:
      one running sum, adding the value that enters the window and
      subtracting the one that leaves. */
  method RollingMeans(xs: seq<real>, n: nat) returns (r: seq<Option<real>>)
    requires n > 0
    ensures |r| == |xs|
    ensures forall i :: 0 <= i < |xs| ==> r[i] == Rolling(xs, n, i)
  {
    r := [];
    var acc := 0.0;
    var i := 0;
    while i < |xs|
      invariant 0 <= i <= |xs| && |r| == i
      invariant forall k :: 0 <= k < i ==> r[k] == Rolling(xs, n, k)
      invariant acc == Sum(xs[WindowStart(i, n)..i])
    {
      RunningSumStep(xs, n, i, acc);
      acc := Slide(xs, n, i, acc);
      RunningMean(xs, n, i, acc);
      r := r + [Emit(n, i, acc)];
      i := i + 1;
    }
  }

  // ----------------------------------------------------------------- EMA

  function Alpha(span: nat): real
    requires span >= 1
  {
    2.0 / ((span + 1) as real)
  }

  lemma AlphaRange(span: nat)
    requires span >= 1
    ensures 0.0 < Alpha(span) <= 1.0
  {
  }

  /** ewm(span=span, adjust=False).mean() at row i. */
  function Ema(xs: seq<real>, span: nat, i: nat): real
    requires span >= 1 && i < |xs|
    decreases i
  {
    if i == 0 then xs[0]
    else Alpha(span) * xs[i] + (1.0 - Alpha(span)) * Ema(xs, span, i - 1)
  }

  function EmaSeries(xs: seq<real>, span: nat): (r: seq<real>)
    requires span >= 1
    ensures |r| == |xs|
  {
    seq(|xs|, i requires 0 <= i < |xs| => Ema(xs, span, i))
  }

  lemma Convex(a: real, x: real, y: real, lo: real, hi: real)
    requires 0.0 <= a <= 1.0 && lo <= x <= hi && lo <= y <= hi
    ensures lo <= a * x + (1.0 - a) * y <= hi
  {
    MulNonNegative(a, x - lo);
    MulNonNegative(a, hi - x);
    MulNonNegative(1.0 - a, y - lo);
    MulNonNegative(1.0 - a, hi - y);
    assert a * x + (1.0 - a) * y - lo == a * (x - lo) + (1.0 - a) * (y - lo);
    assert hi - (a * x + (1.0 - a) * y) == a * (hi - x) + (1.0 - a) * (hi - y);
  }

  lemma MulNonNegative(a: real, b: real)
    requires a >= 0.0 && b >= 0.0
    ensures a * b >= 0.0
  {
  }

  lemma SquareNonNegative(x: real)
    ensures x * x >= 0.0
  {
    if x < 0.0 {
      MulNonNegative(-x, -x);
      assert (-x) * (-x) == x * x;
    } else {
      MulNonNegative(x, x);
    }
  }

  lemma MulCancel(a: real, b: real, c: real)
    requires c != 0.0 && a * c == b * c
    ensures a == b
  {
    assert (a - b) * c == 0.0;
  }

  /** The EMA never leaves the range of the values seen so far. */
  lemma {:induction false} EmaBounds(xs: seq<real>, span: nat, i: nat, lo: real, hi: real)
    requires span >= 1 && i < |xs|
    requires forall k :: 0 <= k <= i ==> lo <= xs[k] <= hi
    ensures lo <= Ema(xs, span, i) <= hi
    decreases i
  {
    if i > 0 {
      EmaBounds(xs, span, i - 1, lo, hi);
      AlphaRange(span);
      Convex(Alpha(span), xs[i], Ema(xs, span, i - 1), lo, hi);
    }
  }

  /** The EMA computed by one pass carrying the previous value. */
  method EmaPass(xs: seq<real>, span: nat) returns (r: seq<real>)
    requires span >= 1
    ensures |r| == |xs|
    ensures forall i :: 0 <= i < |xs| ==> r[i] == Ema(xs, span, i)
  {
    r := [];
    if |xs| == 0 {
      return;
    }
    var prev := xs[0];
    r := [prev];
    var i := 1;
    var a := Alpha(span);
    while i < |xs|
      invariant 1 <= i <= |xs| && |r| == i
      invariant forall k :: 0 <= k < i ==> r[k] == Ema(xs, span, k)
      invariant prev == r[i - 1] == Ema(xs, span, i - 1)
    {
      prev := a * xs[i] + (1.0 - a) * prev;
      assert prev == Ema(xs, span, i);
      ghost var r0 := r;
      r := r + [prev];
      assert forall k :: 0 <= k < i ==> r[k] == r0[k];
      i := i + 1;
    }
  }

  // ----------------------------------------------------------------- RSI

  /** close.diff() with `where(delta > 0, 0)`: the first row's NaN becomes 0. */
  function Gain(xs: seq<real>, i: nat): real
    requires i < |xs|
  {
    if i == 0 then 0.0
    else var d := xs[i] - xs[i - 1]; if d > 0.0 then d else 0.0
  }

  /** -close.diff().where(delta < 0, 0). */
  function Loss(xs: seq<real>, i: nat): real
    requires i < |xs|
  {
    if i == 0 then 0.0
    else var d := xs[i] - xs[i - 1]; if d < 0.0 then -d else 0.0
  }

  function Gains(xs: seq<real>): (r: seq<real>)
    ensures |r| == |xs|
    ensures forall k :: 0 <= k < |xs| ==> r[k] == Gain(xs, k)
  {
    seq(|xs|, k requires 0 <= k < |xs| => Gain(xs, k))
  }

  function Losses(xs: seq<real>): (r: seq<real>)
    ensures |r| == |xs|
    ensures forall k :: 0 <= k < |xs| ==> r[k] == Loss(xs, k)
  {
    seq(|xs|, k requires 0 <= k < |xs| => Loss(xs, k))
  }

  /** 100 - 100 / (1 + avgGain / avgLoss) with IEEE division: a zero
      average loss makes rs infinite (RSI 100) unless the average gain is
      zero too, when rs is NaN. */
  function RsiOf(avgGain: real, avgLoss: real): Option<real>
    requires avgGain >= 0.0 && avgLoss >= 0.0
  {
    if avgLoss == 0.0 then (if avgGain == 0.0 then None else Some(100.0))
    else Some(100.0 - 100.0 / (1.0 + avgGain / avgLoss))
  }

  /** rsi_14 at row i. */
  function Rsi(xs: seq<real>, i: nat): Option<real>
    requires i < |xs|
  {
    match (Rolling(Gains(xs), 14, i), Rolling(Losses(xs), 14, i))
    case (Some(g), Some(l)) =>
      RsiWindows(xs, i);
      RsiOf(g, l)
    case _ => None
  }

  lemma GainLossFacts(xs: seq<real>, i: nat)
    requires i < |xs|
    ensures Gain(xs, i) >= 0.0 && Loss(xs, i) >= 0.0
    ensures Gain(xs, i) == 0.0 || Loss(xs, i) == 0.0
    ensures i > 0 ==> Gain(xs, i) - Loss(xs, i) == xs[i] - xs[i - 1]
  {
  }

  /** The averages are non-negative, so the formula stays in [0, 100] and
      equals 100 * avgGain / (avgGain + avgLoss). */
  lemma RsiOfFacts(g: real, l: real)
    requires g >= 0.0 && l >= 0.0
    ensures RsiOf(g, l).None? <==> g == 0.0 && l == 0.0
    ensures g + l > 0.0 ==> RsiOf(g, l) == Some(100.0 * g / (g + l))
    ensures RsiOf(g, l).Some? ==> 0.0 <= RsiOf(g, l).value <= 100.0
    ensures l == 0.0 < g ==> RsiOf(g, l) == Some(100.0)
  {
    if l > 0.0 {
      var rs := g / l;
      assert rs * l == g;
      var d := 1.0 + rs;
      assert d * l == l + g;
      MulNonNegative(g, 1.0 / l);
      assert d >= 1.0;
      var q := 100.0 / d;
      assert q * d == 100.0;
      var t := 100.0 * g / (g + l);
      assert t * (g + l) == 100.0 * g;
      assert (100.0 - q) * (g + l) == 100.0 * (g + l) - q * d * l;
      MulCancel(100.0 - q, t, g + l);
      assert t <= 100.0 by {
        assert (100.0 - t) * (g + l) == 100.0 * l;
        MulNonNegative(100.0, l);
      }
      MulNonNegative(100.0 * g, 1.0 / (g + l));
    }
  }

  /** The averages behind rsi_14: defined from row 13 on, and the row-13
      window includes the first row's synthetic zero. */
  lemma RsiWindows(xs: seq<real>, i: nat)
    requires i < |xs|
    ensures Rolling(Gains(xs), 14, i).None? <==> i < 13
    ensures Rolling(Losses(xs), 14, i).None? <==> i < 13
    ensures i == 13 ==> Window(Gains(xs), 14, i)[0] == 0.0 && Window(Losses(xs), 14, i)[0] == 0.0
    ensures Rolling(Gains(xs), 14, i).Some? ==> Rolling(Gains(xs), 14, i).value >= 0.0
    ensures Rolling(Losses(xs), 14, i).Some? ==> Rolling(Losses(xs), 14, i).value >= 0.0
  {
    if i >= 13 {
      var gw := Window(Gains(xs), 14, i);
      var lw := Window(Losses(xs), 14, i);
      forall k | 0 <= k < 14
        ensures gw[k] >= 0.0 && lw[k] >= 0.0
      {
        GainLossFacts(xs, i - 13 + k);
      }
      SumZero(gw);
      SumZero(lw);
    }
  }

  /** rsi_14 lies in [0, 100], is 100 * avgGain / (avgGain + avgLoss) when
      either average is positive, and is 100 when the window holds gains but
      no loss. */
  lemma RsiRange(xs: seq<real>, i: nat)
    requires i < |xs|
    ensures Rsi(xs, i).Some? ==> 0.0 <= Rsi(xs, i).value <= 100.0
    ensures i >= 13 ==>
      var g := Rolling(Gains(xs), 14, i).value;
      var l := Rolling(Losses(xs), 14, i).value;
      && (g + l > 0.0 ==> Rsi(xs, i) == Some(100.0 * g / (g + l)))
      && (l == 0.0 < g ==> Rsi(xs, i) == Some(100.0))
  {
    RsiWindows(xs, i);
    if i >= 13 {
      RsiOfFacts(Rolling(Gains(xs), 14, i).value, Rolling(Losses(xs), 14, i).value);
    }
  }

  /** From row 13 on, rsi_14 is NaN exactly when the closes it looks at are
      all equal: rows max(i - 14, 0) .. i. */
  lemma RsiAbsentIffFlat(xs: seq<real>, i: nat)
    requires 13 <= i < |xs|
    ensures Rsi(xs, i).None? <==> forall k :: i - 13 <= k <= i && k >= 1 ==> xs[k] == xs[k - 1]
  {
    RsiAbsentIffNoMoves(xs, i);
    NoMovesIffFlat(xs, i);
  }

  /** rsi_14 is NaN exactly when both 14-row sums are zero. */
  lemma RsiAbsentIffNoMoves(xs: seq<real>, i: nat)
    requires 13 <= i < |xs|
    ensures Rsi(xs, i).None? <==>
      Sum(Window(Gains(xs), 14, i)) == 0.0 && Sum(Window(Losses(xs), 14, i)) == 0.0
  {
    RsiWindows(xs, i);
    var g := Rolling(Gains(xs), 14, i).value;
    var l := Rolling(Losses(xs), 14, i).value;
    assert g == 0.0 <==> Sum(Window(Gains(xs), 14, i)) == 0.0;
    assert l == 0.0 <==> Sum(Window(Losses(xs), 14, i)) == 0.0;
    RsiOfFacts(g, l);
  }

  /** Both 14-row sums are zero exactly when the closes the window looks
      at never move. */
  lemma NoMovesIffFlat(xs: seq<real>, i: nat)
    requires 13 <= i < |xs|
    ensures Sum(Window(Gains(xs), 14, i)) == 0.0 && Sum(Window(Losses(xs), 14, i)) == 0.0 <==>
      forall k :: i - 13 <= k <= i && k >= 1 ==> xs[k] == xs[k - 1]
  {
    var gw := Window(Gains(xs), 14, i);
    var lw := Window(Losses(xs), 14, i);
    forall k | 0 <= k < 14
      ensures gw[k] >= 0.0 && lw[k] >= 0.0
      ensures gw[k] == Gain(xs, i - 13 + k) && lw[k] == Loss(xs, i - 13 + k)
    {
      GainLossFacts(xs, i - 13 + k);
    }
    SumZero(gw);
    SumZero(lw);
    if forall k :: i - 13 <= k <= i && k >= 1 ==> xs[k] == xs[k - 1] {
      forall k | 0 <= k < 14
        ensures gw[k] == 0.0 && lw[k] == 0.0
      {
      }
    }
    if Sum(gw) == 0.0 && Sum(lw) == 0.0 {
      forall k | i - 13 <= k <= i && k >= 1
        ensures xs[k] == xs[k - 1]
      {
        GainLossFacts(xs, k);
        assert gw[k - (i - 13)] == 0.0 && lw[k - (i - 13)] == 0.0;
      }
    }
  }

  // ------------------------------------------------------ Bollinger bands

  function SquaredDeviations(s: seq<real>, m: real): (r: seq<real>)
    ensures |r| == |s|
    ensures forall k :: 0 <= k < |s| ==> r[k] == (s[k] - m) * (s[k] - m)
  {
    seq(|s|, k requires 0 <= k < |s| => (s[k] - m) * (s[k] - m))
  }

  /** Sample variance (ddof = 1). */
  function SampleVariance(s: seq<real>): real
    requires |s| >= 2
  {
    Sum(SquaredDeviations(s, Mean(s))) / ((|s| - 1) as real)
  }

  lemma VarianceNonNegative(s: seq<real>)
    requires |s| >= 2
    ensures SampleVariance(s) >= 0.0
  {
    var d := SquaredDeviations(s, Mean(s));
    forall k | 0 <= k < |d|
      ensures d[k] >= 0.0
    {
      SquareNonNegative(s[k] - Mean(s));
    }
    SumZero(d);
  }

  /** rolling(window=20).std() at row i. */
  function BollingerStd(xs: seq<real>, i: nat, sqrt: real -> real): (r: Option<real>)
    requires i < |xs|
    ensures r.None? <==> i < 19
  {
    if i < 19 then None else Some(sqrt(SampleVariance(Window(xs, 20, i))))
  }

  function AddScaled(a: Option<real>, b: Option<real>, k: real): Option<real> {
    if a.Some? && b.Some? then Some(a.value + k * b.value) else None
  }

  // --------------------------------------------------------- true range

  function Abs(x: real): real {
    if x < 0.0 then -x else x
  }

  function Max3(a: real, b: real, c: real): real {
    if a >= b && a >= c then a else if b >= c then b else c
  }

  /** The row-wise max of high-low, |high - previous close| and
      |low - previous close|; on the first row only high-low is a number. */
  function TrueRange(bars: seq<Bar>, i: nat): real
    requires i < |bars|
  {
    var b := bars[i];
    if i == 0 then b.high - b.low
    else Max3(b.high - b.low, Abs(b.high - bars[i - 1].close), Abs(b.low - bars[i - 1].close))
  }

  function TrueRanges(bars: seq<Bar>): (r: seq<real>)
    ensures |r| == |bars|
    ensures forall k :: 0 <= k < |bars| ==> r[k] == TrueRange(bars, k)
  {
    seq(|bars|, k requires 0 <= k < |bars| => TrueRange(bars, k))
  }

  /** The true range is never below high - low, nor below either gap to the
      previous close, and equals one of those terms. */
  lemma TrueRangeFacts(bars: seq<Bar>, i: nat)
    requires i < |bars|
    ensures TrueRange(bars, i) >= bars[i].high - bars[i].low
    ensures i == 0 ==> TrueRange(bars, i) == bars[i].high - bars[i].low
    ensures i > 0 ==>
      var b, c := bars[i], bars[i - 1].close;
      && TrueRange(bars, i) >= Abs(b.high - c) && TrueRange(bars, i) >= Abs(b.low - c)
      && (TrueRange(bars, i) == b.high - b.low || TrueRange(bars, i) == Abs(b.high - c)
          || TrueRange(bars, i) == Abs(b.low - c))
  {
  }

  /** With high >= low on every bar, the ATR is never negative. */
  lemma AtrNonNegative(bars: seq<Bar>, i: nat)
    requires i < |bars|
    requires forall k :: 0 <= k < |bars| ==> bars[k].high >= bars[k].low
    ensures Rolling(TrueRanges(bars), 14, i).Some? ==> Rolling(TrueRanges(bars), 14, i).value >= 0.0
  {
    if i >= 13 {
      var w := Window(TrueRanges(bars), 14, i);
      forall k | 0 <= k < 14
        ensures w[k] >= 0.0
      {
        TrueRangeFacts(bars, i - 13 + k);
      }
      SumZero(w);
    }
  }

  // ----------------------------------------------------- the whole frame

  /** The fourteen columns calculate_technical_indicators adds, in order. */
  const OutputColumns: seq<string> := [
    "sma_20", "sma_50", "sma_200", "ema_12", "ema_26", "macd", "macd_signal",
    "macd_histogram", "rsi_14", "bollinger_middle", "bollinger_std",
    "bollinger_upper", "bollinger_lower", "atr_14"]

  datatype Values = Values(sma20: Option<real>, sma50: Option<real>, sma200: Option<real>,
                           ema12: Option<real>, ema26: Option<real>, macd: Option<real>,
                           macdSignal: Option<real>, macdHistogram: Option<real>,
                           rsi14: Option<real>, bollingerMiddle: Option<real>,
                           bollingerStd: Option<real>, bollingerUpper: Option<real>,
                           bollingerLower: Option<real>, atr14: Option<real>)

  function Closes(bars: seq<Bar>): (r: seq<real>)
    ensures |r| == |bars|
    ensures forall k :: 0 <= k < |bars| ==> r[k] == bars[k].close
  {
    seq(|bars|, k requires 0 <= k < |bars| => bars[k].close)
  }

  /** MACD = EMA12 - EMA26 of the closes. */
  function MacdLine(xs: seq<real>): (r: seq<real>)
    ensures |r| == |xs|
  {
    seq(|xs|, i requires 0 <= i < |xs| => Ema(xs, 12, i) - Ema(xs, 26, i))
  }

  /** The indicator values of row i. */
  function ValuesAt(bars: seq<Bar>, sqrt: real -> real, i: nat): Values
    requires i < |bars|
  {
    var xs := Closes(bars);
    var macd := MacdLine(xs);
    var signal := Ema(macd, 9, i);
    var middle := Rolling(xs, 20, i);
    var std := BollingerStd(xs, i, sqrt);
    Values(Rolling(xs, 20, i), Rolling(xs, 50, i), Rolling(xs, 200, i),
           Some(Ema(xs, 12, i)), Some(Ema(xs, 26, i)), Some(macd[i]),
           Some(signal), Some(macd[i] - signal), Rsi(xs, i),
           middle, std, AddScaled(middle, std, 2.0), AddScaled(middle, std, -2.0),
           Rolling(TrueRanges(bars), 14, i))
  }

  /** calculate_technical_indicators: one row of values per bar; an empty
      frame comes back empty. */
  function Calculate(bars: seq<Bar>, sqrt: real -> real): (r: seq<Values>)
    ensures |r| == |bars|
  {
    seq(|bars|, i requires 0 <= i < |bars| => ValuesAt(bars, sqrt, i))
  }

  /** Which rows carry each value: the n-row averages from row n-1, RSI and
      ATR from row 13, the bands from row 19, and the EMA family on every row. */
  lemma PresenceByRow(bars: seq<Bar>, sqrt: real -> real, i: nat)
    requires i < |bars|
    ensures var v := Calculate(bars, sqrt)[i];
      && (v.sma20.None? <==> i < 19) && (v.sma50.None? <==> i < 49) && (v.sma200.None? <==> i < 199)
      && v.ema12.Some? && v.ema26.Some? && v.macd.Some? && v.macdSignal.Some? && v.macdHistogram.Some?
      && (i < 13 ==> v.rsi14.None?) && (v.atr14.None? <==> i < 13)
      && (v.bollingerMiddle.None? <==> i < 19) && (v.bollingerStd.None? <==> i < 19)
      && (v.bollingerUpper.None? <==> i < 19) && (v.bollingerLower.None? <==> i < 19)
  {
    RsiWindows(Closes(bars), i);
  }

  /** SMA(n) at row i, once defined, is the mean of the closes of rows
      i-n+1 .. i, and lies between their least and greatest close. */
  lemma SmaIsTrailingMean(bars: seq<Bar>, sqrt: real -> real, i: nat, lo: real, hi: real)
    requires 19 <= i < |bars|
    requires forall k :: i - 19 <= k <= i ==> lo <= bars[k].close <= hi
    ensures var v := Calculate(bars, sqrt)[i];
      && v.sma20 == Some(Sum(Closes(bars)[i - 19..i + 1]) / 20.0)
      && lo <= v.sma20.value <= hi
  {
    Sma20At(bars, sqrt, i);
    TrailingMeanBounds(bars, i, lo, hi);
  }

  lemma Sma20At(bars: seq<Bar>, sqrt: real -> real, i: nat)
    requires i < |bars|
    ensures Calculate(bars, sqrt)[i].sma20 == Rolling(Closes(bars), 20, i)
  {
  }

  lemma TrailingMeanBounds(bars: seq<Bar>, i: nat, lo: real, hi: real)
    requires 19 <= i < |bars|
    requires forall k :: i - 19 <= k <= i ==> lo <= bars[k].close <= hi
    ensures Rolling(Closes(bars), 20, i) == Some(Sum(Closes(bars)[i - 19..i + 1]) / 20.0)
    ensures lo <= Rolling(Closes(bars), 20, i).value <= hi
  {
    var xs := Closes(bars);
    var w := Window(xs, 20, i);
    forall k | 0 <= k < |w|
      ensures lo <= w[k] <= hi
    {
      assert w[k] == bars[i - 19 + k].close;
    }
    MeanBounds(w, lo, hi);
  }

  /** The MACD line, its signal and the histogram all start at 0. */
  lemma MacdStartsAtZero(bars: seq<Bar>, sqrt: real -> real)
    requires |bars| > 0
    ensures var v := Calculate(bars, sqrt)[0];
      v.macd == Some(0.0) && v.macdSignal == Some(0.0) && v.macdHistogram == Some(0.0)
  {
  }

  /** The MACD relations: histogram = MACD - signal, MACD = EMA12 - EMA26,
      and the signal is the 9-span EMA of the MACD column. */
  lemma MacdRelations(bars: seq<Bar>, sqrt: real -> real, i: nat)
    requires i < |bars|
    ensures var r := Calculate(bars, sqrt);
      var v := r[i];
      && v.macd.value == v.ema12.value - v.ema26.value
      && v.macdHistogram.value == v.macd.value - v.macdSignal.value
      && v.macdSignal.value == Ema(seq(|r|, k requires 0 <= k < |r| => r[k].macd.value), 9, i)
  {
    var r := Calculate(bars, sqrt);
    var col := seq(|r|, k requires 0 <= k < |r| => r[k].macd.value);
    assert col == MacdLine(Closes(bars));
  }

  /** The Bollinger middle band is SMA20; the bands sit symmetrically two
      standard deviations away, the deviation is the root of the sample
      variance of the same 20 closes, and with a non-negative root the
      bands are ordered. */
  lemma BollingerFacts(bars: seq<Bar>, sqrt: real -> real, i: nat)
    requires 19 <= i < |bars|
    ensures var v := Calculate(bars, sqrt)[i];
      var w := Closes(bars)[i - 19..i + 1];
      && v.bollingerMiddle == v.sma20
      && v.bollingerStd == Some(sqrt(SampleVariance(w)))
      && SampleVariance(w) >= 0.0
      && v.bollingerUpper.value - v.bollingerMiddle.value == v.bollingerMiddle.value - v.bollingerLower.value
      && v.bollingerUpper.value - v.bollingerMiddle.value == 2.0 * v.bollingerStd.value
      && (v.bollingerStd.value >= 0.0 ==> v.bollingerLower.value <= v.bollingerMiddle.value <= v.bollingerUpper.value)
  {
    VarianceNonNegative(Closes(bars)[i - 19..i + 1]);
  }

  /** The spreads high - low of the bars. */
  function Spreads(bars: seq<Bar>): (r: seq<real>)
    ensures |r| == |bars|
    ensures forall k :: 0 <= k < |bars| ==> r[k] == bars[k].high - bars[k].low
  {
    seq(|bars|, k requires 0 <= k < |bars| => bars[k].high - bars[k].low)
  }

  /** atr_14 is the mean of the last 14 true ranges, the first row's
      high - low included, and is never below the mean spread high - low
      of the same rows. */
  lemma AtrFacts(bars: seq<Bar>, sqrt: real -> real, i: nat)
    requires 13 <= i < |bars|
    ensures var v := Calculate(bars, sqrt)[i];
      && v.atr14 == Some(Sum(TrueRanges(bars)[i - 13..i + 1]) / 14.0)
      && (i == 13 ==> TrueRanges(bars)[i - 13] == bars[0].high - bars[0].low)
      && v.atr14.value >= Sum(Spreads(bars)[i - 13..i + 1]) / 14.0
  {
    assert TrueRanges(bars)[i - 13..i + 1] == Window(TrueRanges(bars), 14, i);
    TrueRangesAboveSpreads(bars, i);
  }

  /** Over any 14 rows the true ranges sum to at least the spreads. */
  lemma TrueRangesAboveSpreads(bars: seq<Bar>, i: nat)
    requires 13 <= i < |bars|
    ensures Sum(Spreads(bars)[i - 13..i + 1]) / 14.0 <= Sum(TrueRanges(bars)[i - 13..i + 1]) / 14.0
  {
    var w := TrueRanges(bars)[i - 13..i + 1];
    var h := Spreads(bars)[i - 13..i + 1];
    forall k | 0 <= k < 14
      ensures h[k] <= w[k]
    {
      TrueRangeFacts(bars, i - 13 + k);
    }
    SumMonotone(h, w);
  }
}

=== FILE: migration.dfy ===
/** Copying the legacy tables of older versions of the program into the
    canonical tables, in its two variants: migrate_data of the database
    manager, run by every create_database, and the stand-alone migration
    script, which records a result per table and survives a failing table.

    A legacy table is copied with INSERT OR IGNORE ... SELECT and a fixed
    source tag, so a canonical row that already holds the key is never
    modified. Canonical tables always exist in the model (CREATE TABLE IF
    NOT EXISTS changes nothing once they do), so the migration is all that
    create_database does to the stored rows.
 */
module Migration {
  import opened Common
  import opened Tables
  import opened Schema

  /** The source tags the migration writes. */
  const AlphavantageTag: string := "alphavantage"
  const PolygonTag: string := "polygon"
  const FinhubTag: string := "finhub"
  const FmpTag: string := "fmp"
  const ManualTag: string := "manual"

  /** The names of the legacy tables. */
  const AlphavantageDaily: string := "alphavantage_daily"
  const PolygonData: string := "polygon_data"
  const FinhubQuotes: string := "finhub_quotes"
  const FmpProfiles: string := "fmp_profiles"
  const TickerInfoTable: string := "ticker_info"

  /** The legacy tables in the order both migrations visit them. */
  const MigrationOrder: seq<string> := [AlphavantageDaily, PolygonData, FinhubQuotes, FmpProfiles, TickerInfoTable]

  /** True when the database holds the legacy table of that name. */
  predicate LegacyExists(db: Db, name: string) {
    if name == AlphavantageDaily then db.alphavantageDaily.Some?
    else if name == PolygonData then db.polygonData.Some?
    else if name == FinhubQuotes then db.finhubQuotes.Some?
    else if name == FmpProfiles then db.fmpProfiles.Some?
    else if name == TickerInfoTable then db.tickerInfo.Some?
    else false
  }

  /** The SELECT list of the bar migrations: every OHLCV column plus the tag. */
  function BarOfLegacy(b: LegacyBar, tag: string): Bar {
    Bar(b.ticker, b.date, b.open, b.high, b.low, b.close, b.volume, tag)
  }

  /** finhub_quotes keeps its own timestamp. */
  function QuoteOfLegacy(q: LegacyQuote): Quote {
    Quote(q.ticker, q.currentPrice, q.change, q.percentChange, q.high, q.low, q.open,
          q.previousClose, FinhubTag, q.timestamp)
  }

  /** fmp_profiles: the columns the old table had; the timestamp takes its
      default, the newer columns stay NULL. */
  function ProfileOfLegacy(p: LegacyProfile, now: int): Profile {
    BlankProfile(p.ticker, FmpTag, now).(companyName := p.companyName, industry := p.industry,
      sector := p.sector, marketCap := p.marketCap, employees := p.employees,
      description := p.description, ceo := p.ceo, website := p.website,
      exchange := p.exchange, ipoDate := p.ipoDate)
  }

  /** ticker_info: symbol, sector and the Spanish-named columns; resena goes
      to description only when withDescription is set (the migration script
      copies it, the database manager does not). */
  function ProfileOfTickerInfo(i: TickerInfo, now: int, withDescription: bool): Profile {
    BlankProfile(i.symbol, ManualTag, now).(sector := i.sector, subsector := i.subsector,
      country := i.pais, founded := i.fundacion, yearsPublic := i.anosEnBolsa, kind := i.tipo,
      description := if withDescription then i.resena else None)
  }

  /** One guarded INSERT OR IGNORE ... SELECT: nothing when the legacy table
      is absent; otherwise the canonical table after the statement and its
      row count. */
  function CopyLegacy<L, V(!new), K(==)>(t: Table<V>, legacy: Option<seq<L>>, f: L -> V, key: V -> K): (r: (Table<V>, nat))
    ensures legacy.None? ==> r == (t, 0)
    ensures t.rows <= r.0.rows && |r.0.rows| == |t.rows| + r.1
    ensures legacy.Some? ==> forall i :: 0 <= i < |legacy.value| ==> HasKey(r.0.rows, key, key(f(legacy.value[i])))
    ensures forall k :: |t.rows| <= k < |r.0.rows| ==> exists i :: 0 <= i < |legacy.value| && r.0.rows[k].data == f(legacy.value[i])
    ensures WellFormed(t) ==> WellFormed(r.0)
    ensures UniqueOn(t.rows, key) ==> UniqueOn(r.0.rows, key)
  {
    if legacy.None? then (t, 0)
    else
      var vs := Map(legacy.value, f);
      var r := InsertAllOrIgnore(t, vs, key);
      assert forall i :: 0 <= i < |legacy.value| ==> key(f(legacy.value[i])) == key(vs[i]);
      assert forall k :: |t.rows| <= k < |r.0.rows| ==> exists i :: 0 <= i < |legacy.value| && r.0.rows[k].data == f(legacy.value[i]) by {
        forall k | |t.rows| <= k < |r.0.rows|
          ensures exists i :: 0 <= i < |legacy.value| && r.0.rows[k].data == f(legacy.value[i])
        {
          var i :| 0 <= i < |vs| && vs[i] == r.0.rows[k].data;
          assert r.0.rows[k].data == f(legacy.value[i]);
        }
      }
      r
  }

  /** A key already held before the copy is still held, by the same row. */
  lemma CopyKeepsKeys<L, V(!new), K>(t: Table<V>, legacy: Option<seq<L>>, f: L -> V, key: V -> K, k: K)
    requires HasKey(t.rows, key, k)
    ensures HasKey(CopyLegacy(t, legacy, f, key).0.rows, key, k)
  {
    var r := CopyLegacy(t, legacy, f, key).0;
    var i :| 0 <= i < |t.rows| && key(t.rows[i].data) == k;
    assert r.rows[i] == t.rows[i];
  }

  /** Copying again, once every legacy key is present, inserts nothing. */
  lemma CopyAgainIsNoop<L, V(!new), K>(t: Table<V>, legacy: Option<seq<L>>, f: L -> V, key: V -> K)
    requires legacy.Some? ==> forall i :: 0 <= i < |legacy.value| ==> HasKey(t.rows, key, key(f(legacy.value[i])))
    ensures CopyLegacy(t, legacy, f, key) == (t, 0)
  {
    if legacy.Some? {
      var vs := Map(legacy.value, f);
      assert forall i :: 0 <= i < |vs| ==> vs[i] == f(legacy.value[i]);
      InsertAllOrIgnoreNoop(t, vs, key);
    }
  }

  /** A legacy row's key is present after its copy, and stays present
      through a later copy into the same table. */
  lemma CopiedKeysPresent<L, M, V(!new), K>(t: Table<V>, first: Option<seq<L>>, f: L -> V,
                                            second: Option<seq<M>>, g: M -> V, key: V -> K)
    ensures var r := CopyLegacy(CopyLegacy(t, first, f, key).0, second, g, key).0;
      && (first.Some? ==> forall x :: x in first.value ==> HasKey(r.rows, key, key(f(x))))
      && (second.Some? ==> forall x :: x in second.value ==> HasKey(r.rows, key, key(g(x))))
  {
    var t1 := CopyLegacy(t, first, f, key).0;
    var r := CopyLegacy(t1, second, g, key).0;
    if first.Some? {
      forall x | x in first.value
        ensures HasKey(r.rows, key, key(f(x)))
      {
        var i :| 0 <= i < |first.value| && first.value[i] == x;
        CopyKeepsKeys(t1, second, g, key, key(f(x)));
      }
    }
    if second.Some? {
      forall x | x in second.value
        ensures HasKey(r.rows, key, key(g(x)))
      {
        var i :| 0 <= i < |second.value| && second.value[i] == x;
      }
    }
  }

  /** Two consecutive copies into one table, run a second time over their
      own result, insert nothing. Key functions that ignore a parameter
      (the profile timestamp) let the second run use other converters. */
  lemma TwoCopiesIdempotent<L, M, V(!new), K>(t: Table<V>, first: Option<seq<L>>, f: L -> V, f2: L -> V,
                                              second: Option<seq<M>>, g: M -> V, g2: M -> V, key: V -> K)
    requires forall x :: key(f2(x)) == key(f(x))
    requires forall x :: key(g2(x)) == key(g(x))
    ensures var r := CopyLegacy(CopyLegacy(t, first, f, key).0, second, g, key).0;
      CopyLegacy(CopyLegacy(r, first, f2, key).0, second, g2, key).0 == r
  {
    var r := CopyLegacy(CopyLegacy(t, first, f, key).0, second, g, key).0;
    CopiedKeysPresent(t, first, f, second, g, key);
    if first.Some? {
      assert forall i :: 0 <= i < |first.value| ==> first.value[i] in first.value;
    }
    CopyAgainIsNoop(r, first, f2, key);
    if second.Some? {
      assert forall i :: 0 <= i < |second.value| ==> second.value[i] in second.value;
    }
    CopyAgainIsNoop(r, second, g2, key);
  }

  // ---------------------------------------------------------------------
  // The per-table copies

  function AlphavantageBar(b: LegacyBar): Bar {
    BarOfLegacy(b, AlphavantageTag)
  }

  function PolygonBar(b: LegacyBar): Bar {
    BarOfLegacy(b, PolygonTag)
  }

  /** stock_daily_data after the alphavantage_daily copy and then the
      polygon_data copy. */
  function MigrateBars(t: Table<Bar>, alphavantage: Option<seq<LegacyBar>>, polygon: Option<seq<LegacyBar>>): (r: Table<Bar>)
    ensures t.rows <= r.rows
    ensures WellFormed(t) ==> WellFormed(r)
    ensures UniqueOn(t.rows, BarKeyOf) ==> UniqueOn(r.rows, BarKeyOf)
  {
    CopyLegacy(CopyLegacy(t, alphavantage, AlphavantageBar, BarKeyOf).0, polygon, PolygonBar, BarKeyOf).0
  }

  /** market_quotes after the finhub_quotes copy. */
  function MigrateQuotes(t: Table<Quote>, finhub: Option<seq<LegacyQuote>>): (r: Table<Quote>)
    ensures t.rows <= r.rows
    ensures WellFormed(t) ==> WellFormed(r)
    ensures UniqueOn(t.rows, QuoteKeyOf) ==> UniqueOn(r.rows, QuoteKeyOf)
  {
    CopyLegacy(t, finhub, QuoteOfLegacy, QuoteKeyOf).0
  }

  /** company_profiles after the fmp_profiles copy and then the ticker_info
      copy. */
  function MigrateProfiles(t: Table<Profile>, fmp: Option<seq<LegacyProfile>>, info: Option<seq<TickerInfo>>,
                           now: int, withDescription: bool): (r: Table<Profile>)
    ensures t.rows <= r.rows
    ensures WellFormed(t) ==> WellFormed(r)
    ensures UniqueOn(t.rows, ProfileKeyOf) ==> UniqueOn(r.rows, ProfileKeyOf)
  {
    CopyLegacy(CopyLegacy(t, fmp, (p: LegacyProfile) => ProfileOfLegacy(p, now), ProfileKeyOf).0,
               info, (i: TickerInfo) => ProfileOfTickerInfo(i, now, withDescription), ProfileKeyOf).0
  }

  // ---------------------------------------------------------------------
  // The database manager's migrate_data

  /** migrate_data of the database manager: the five guarded copies in
      order. Only bars, quotes and profiles change, and only by appending. */
  function MigrateData(db: Db, now: int): (r: Db)
    ensures r == db.(bars := r.bars, quotes := r.quotes, profiles := r.profiles)
    ensures db.bars.rows <= r.bars.rows && db.quotes.rows <= r.quotes.rows && db.profiles.rows <= r.profiles.rows
    ensures Consistent(db) ==> Consistent(r)
  {
    db.(bars := MigrateBars(db.bars, db.alphavantageDaily, db.polygonData),
        quotes := MigrateQuotes(db.quotes, db.finhubQuotes),
        profiles := MigrateProfiles(db.profiles, db.fmpProfiles, db.tickerInfo, now, false))
  }

  /** With no legacy table present the migration changes nothing. */
  lemma MissingLegacyTablesChangeNothing(db: Db, now: int)
    requires db.alphavantageDaily.None? && db.polygonData.None? && db.finhubQuotes.None?
    requires db.fmpProfiles.None? && db.tickerInfo.None?
    ensures MigrateData(db, now) == db
  {
  }

  /** Every legacy row's key is present after the migration, under the
      table's tag. */
  lemma MigratedKeysPresent(db: Db, now: int)
    ensures var r := MigrateData(db, now);
      && (db.alphavantageDaily.Some? ==> forall b :: b in db.alphavantageDaily.value ==>
            HasKey(r.bars.rows, BarKeyOf, BarKey(b.ticker, b.date, AlphavantageTag)))
      && (db.polygonData.Some? ==> forall b :: b in db.polygonData.value ==>
            HasKey(r.bars.rows, BarKeyOf, BarKey(b.ticker, b.date, PolygonTag)))
      && (db.finhubQuotes.Some? ==> forall q :: q in db.finhubQuotes.value ==>
            HasKey(r.quotes.rows, QuoteKeyOf, QuoteKey(q.ticker, q.timestamp, FinhubTag)))
      && (db.fmpProfiles.Some? ==> forall p :: p in db.fmpProfiles.value ==>
            HasKey(r.profiles.rows, ProfileKeyOf, ProfileKey(p.ticker, FmpTag)))
      && (db.tickerInfo.Some? ==> forall i :: i in db.tickerInfo.value ==>
            HasKey(r.profiles.rows, ProfileKeyOf, ProfileKey(i.symbol, ManualTag)))
  {
    CopiedKeysPresent(db.bars, db.alphavantageDaily, AlphavantageBar, db.polygonData, PolygonBar, BarKeyOf);
    CopiedKeysPresent(db.profiles, db.fmpProfiles, (p: LegacyProfile) => ProfileOfLegacy(p, now),
                      db.tickerInfo, (i: TickerInfo) => ProfileOfTickerInfo(i, now, false), ProfileKeyOf);
    if db.finhubQuotes.Some? {
      forall q | q in db.finhubQuotes.value
        ensures HasKey(MigrateData(db, now).quotes.rows, QuoteKeyOf, QuoteKey(q.ticker, q.timestamp, FinhubTag))
      {
        var i :| 0 <= i < |db.finhubQuotes.value| && db.finhubQuotes.value[i] == q;
        assert QuoteKeyOf(QuoteOfLegacy(db.finhubQuotes.value[i])) == QuoteKey(q.ticker, q.timestamp, FinhubTag);
      }
    }
  }

  /** A second run, at any later time, inserts nothing. */
  lemma MigrateDataIdempotent(db: Db, now: int, later: int)
    ensures MigrateData(MigrateData(db, now), later) == MigrateData(db, now)
  {
    var r := MigrateData(db, now);
    TwoCopiesIdempotent(db.bars, db.alphavantageDaily, AlphavantageBar, AlphavantageBar,
                        db.polygonData, PolygonBar, PolygonBar, BarKeyOf);
    TwoCopiesIdempotent(db.profiles, db.fmpProfiles, (p: LegacyProfile) => ProfileOfLegacy(p, now),
                        (p: LegacyProfile) => ProfileOfLegacy(p, later),
                        db.tickerInfo, (i: TickerInfo) => ProfileOfTickerInfo(i, now, false),
                        (i: TickerInfo) => ProfileOfTickerInfo(i, later, false), ProfileKeyOf);
    if db.finhubQuotes.Some? {
      assert forall i :: 0 <= i < |db.finhubQuotes.value| ==> db.finhubQuotes.value[i] in db.finhubQuotes.value;
      assert forall i :: 0 <= i < |db.finhubQuotes.value| ==>
        HasKey(r.quotes.rows, QuoteKeyOf, QuoteKeyOf(QuoteOfLegacy(db.finhubQuotes.value[i])));
    }
    CopyAgainIsNoop(r.quotes, r.finhubQuotes, QuoteOfLegacy, QuoteKeyOf);
  }

  /** An alphavantage bar whose key the canonical table did not hold, and
      which is the first of its key in the legacy table, arrives with its
      OHLCV values unchanged and the tag 'alphavantage'. */
  lemma MigratedBarKeepsValues(db: Db, now: int, i: nat)
    requires db.alphavantageDaily.Some? && i < |db.alphavantageDaily.value|
    requires var b := db.alphavantageDaily.value[i];
      !HasKey(db.bars.rows, BarKeyOf, BarKey(b.ticker, b.date, AlphavantageTag))
    requires var ls := db.alphavantageDaily.value;
      forall j :: 0 <= j < i ==> (ls[j].ticker, ls[j].date) != (ls[i].ticker, ls[i].date)
    ensures var b := db.alphavantageDaily.value[i];
      exists x :: x in MigrateData(db, now).bars.rows &&
        x.data == Bar(b.ticker, b.date, b.open, b.high, b.low, b.close, b.volume, AlphavantageTag)
  {
    var ls := db.alphavantageDaily.value;
    var vs := Map(ls, AlphavantageBar);
    assert forall j :: 0 <= j < i ==> BarKeyOf(vs[j]) != BarKeyOf(vs[i]);
    InsertAllOrIgnoreCopies(db.bars, vs, BarKeyOf, i);
    assert CopyLegacy(db.bars, db.alphavantageDaily, AlphavantageBar, BarKeyOf).0 == InsertAllOrIgnore(db.bars, vs, BarKeyOf).0;
    var bars1 := CopyLegacy(db.bars, db.alphavantageDaily, AlphavantageBar, BarKeyOf).0;
    assert bars1.rows <= MigrateData(db, now).bars.rows;
  }

  /** The ticker_info mapping of the database manager: symbol to ticker,
      pais to country, fundacion to founded, anos_en_bolsa to years_public,
      tipo to type, the tag 'manual', and no description. */
  lemma MigratedTickerInfoFields(db: Db, now: int, i: nat)
    requires db.tickerInfo.Some? && i < |db.tickerInfo.value|
    requires !HasKey(MigrateData(db.(tickerInfo := None), now).profiles.rows, ProfileKeyOf,
                     ProfileKey(db.tickerInfo.value[i].symbol, ManualTag))
    requires var ls := db.tickerInfo.value;
      forall j :: 0 <= j < i ==> ls[j].symbol != ls[i].symbol
    ensures var t := db.tickerInfo.value[i];
      exists x :: x in MigrateData(db, now).profiles.rows
        && x.data.ticker == t.symbol && x.data.source == ManualTag
        && x.data.sector == t.sector && x.data.subsector == t.subsector
        && x.data.country == t.pais && x.data.founded == t.fundacion
        && x.data.yearsPublic == t.anosEnBolsa && x.data.kind == t.tipo
        && x.data.description.None?
  {
    var ls := db.tickerInfo.value;
    var manual := (t: TickerInfo) => ProfileOfTickerInfo(t, now, false);
    var vs := Map(ls, manual);
    var prof1 := MigrateData(db.(tickerInfo := None), now).profiles;
    assert forall j :: 0 <= j < i ==> ProfileKeyOf(vs[j]) != ProfileKeyOf(vs[i]);
    InsertAllOrIgnoreCopies(prof1, vs, ProfileKeyOf, i);
  }

  // ---------------------------------------------------------------------
  // The migration script's migrate_data

  /** The value the script records for one table: the statement's row
      count, or the text "Error: ..." when the table's try block raised. */
  datatype MigrationResult = Count(n: nat) | Error

  /** What a copy sees of a legacy table. A statement that raises inserts
      nothing, so a table whose migration fails acts as an absent one. */
  function Surviving<L>(legacy: Option<seq<L>>, name: string, failing: set<string>): Option<seq<L>> {
    if name in failing then None else legacy
  }

  /** The number a result records, 0 for an error or no entry. */
  function CountOf(results: map<string, MigrationResult>, name: string): nat {
    if name in results && results[name].Count? then results[name].n else 0
  }

  /** The result dictionary after the try blocks for `names`, in order,
      given each statement's row count: an error for a failing table, the
      count for an existing one, no entry otherwise. */
  function ScriptResults(db: Db, failing: set<string>, names: seq<string>, counts: seq<nat>): (r: map<string, MigrationResult>)
    requires |counts| == |names|
    ensures r.Keys == set n | n in names && (LegacyExists(db, n) || n in failing)
    ensures forall n :: n in r ==> (r[n].Error? <==> n in failing)
    decreases |names|
  {
    if |names| == 0 then map[]
    else
      var n := names[|names| - 1];
      var rest := ScriptResults(db, failing, names[..|names| - 1], counts[..|counts| - 1]);
      var front := names[..|names| - 1];
      assert forall x :: x in names <==> x in front || x == n;
      if n in failing then rest[n := Error]
      else if LegacyExists(db, n) then rest[n := Count(counts[|counts| - 1])]
      else rest
  }

  /** The entry of a table that exists and did not fail is the row count
      of its own statement. */
  lemma {:induction false} ScriptResultsCount(db: Db, failing: set<string>, names: seq<string>, counts: seq<nat>, k: nat)
    requires |counts| == |names| && k < |names|
    requires names[k] !in failing && LegacyExists(db, names[k])
    requires forall j :: k < j < |names| ==> names[j] != names[k]
    ensures names[k] in ScriptResults(db, failing, names, counts)
    ensures ScriptResults(db, failing, names, counts)[names[k]] == Count(counts[k])
    decreases |names|
  {
    if k < |names| - 1 {
      ScriptResultsCount(db, failing, names[..|names| - 1], counts[..|counts| - 1], k);
    }
  }

  /** The five statements of the script, each over the legacy table when
      it exists and did not fail, with their row counts in MigrationOrder. */
  function ScriptCopies(db: Db, now: int, failing: set<string>): (r: (Db, seq<nat>))
    ensures r.0 == db.(bars := r.0.bars, quotes := r.0.quotes, profiles := r.0.profiles)
    ensures |r.1| == |MigrationOrder|
    ensures |r.0.bars.rows| == |db.bars.rows| + r.1[0] + r.1[1]
    ensures |r.0.quotes.rows| == |db.quotes.rows| + r.1[2]
    ensures |r.0.profiles.rows| == |db.profiles.rows| + r.1[3] + r.1[4]
    ensures Consistent(db) ==> Consistent(r.0)
  {
    var a := CopyLegacy(db.bars, Surviving(db.alphavantageDaily, AlphavantageDaily, failing), AlphavantageBar, BarKeyOf);
    var p := CopyLegacy(a.0, Surviving(db.polygonData, PolygonData, failing), PolygonBar, BarKeyOf);
    var q := CopyLegacy(db.quotes, Surviving(db.finhubQuotes, FinhubQuotes, failing), QuoteOfLegacy, QuoteKeyOf);
    var f := CopyLegacy(db.profiles, Surviving(db.fmpProfiles, FmpProfiles, failing),
                        (x: LegacyProfile) => ProfileOfLegacy(x, now), ProfileKeyOf);
    var m := CopyLegacy(f.0, Surviving(db.tickerInfo, TickerInfoTable, failing),
                        (x: TickerInfo) => ProfileOfTickerInfo(x, now, true), ProfileKeyOf);
    (db.(bars := p.0, quotes := q.0, profiles := m.0), [a.1, p.1, q.1, f.1, m.1])
  }

  /** A statement over a missing or failing table adds no row. */
  lemma ScriptCopiesSkip(db: Db, now: int, failing: set<string>)
    ensures var c := ScriptCopies(db, now, failing).1;
      && (AlphavantageDaily in failing || db.alphavantageDaily.None? ==> c[0] == 0)
      && (PolygonData in failing || db.polygonData.None? ==> c[1] == 0)
      && (FinhubQuotes in failing || db.finhubQuotes.None? ==> c[2] == 0)
      && (FmpProfiles in failing || db.fmpProfiles.None? ==> c[3] == 0)
      && (TickerInfoTable in failing || db.tickerInfo.None? ==> c[4] == 0)
  {
  }

  /** migrate_data of the migration script. `failing` names the tables
      whose try block raises. Each table is copied as in the database
      manager, except that ticker_info also carries resena into
      description; the result has an entry for every table that exists or
      failed. */
  function MigrateDatabase(db: Db, now: int, failing: set<string>): (r: (Db, map<string, MigrationResult>))
    ensures r.0 == db.(bars := r.0.bars, quotes := r.0.quotes, profiles := r.0.profiles)
    ensures r.1.Keys == set n | n in MigrationOrder && (LegacyExists(db, n) || n in failing)
    ensures forall n :: n in r.1 ==> (r.1[n].Error? <==> n in failing)
    ensures Consistent(db) ==> Consistent(r.0)
  {
    var c := ScriptCopies(db, now, failing);
    (c.0, ScriptResults(db, failing, MigrationOrder, c.1))
  }

  /** The tables the script leaves are those of the per-table copies over
      the legacy tables that did not fail: a failing table acts as absent. */
  lemma MigrateDatabaseTables(db: Db, now: int, failing: set<string>)
    ensures var r := MigrateDatabase(db, now, failing).0;
      && r.bars == MigrateBars(db.bars, Surviving(db.alphavantageDaily, AlphavantageDaily, failing),
                               Surviving(db.polygonData, PolygonData, failing))
      && r.quotes == MigrateQuotes(db.quotes, Surviving(db.finhubQuotes, FinhubQuotes, failing))
      && r.profiles == MigrateProfiles(db.profiles, Surviving(db.fmpProfiles, FmpProfiles, failing),
                                       Surviving(db.tickerInfo, TickerInfoTable, failing), now, true)
  {
  }

  /** When nothing fails, the script copies bars and quotes exactly as the
      database manager does, and profiles too when there is no ticker_info. */
  lemma MigrateDatabaseAgrees(db: Db, now: int)
    ensures var r := MigrateDatabase(db, now, {}).0;
      && r.bars == MigrateData(db, now).bars
      && r.quotes == MigrateData(db, now).quotes
      && (db.tickerInfo.None? ==> r == MigrateData(db, now))
  {
    MigrateDatabaseTables(db, now, {});
  }

  /** A legacy row whose key is new to the table and to the rows before it
      is inserted as converted. */
  lemma CopyLegacyCopies<L, V(!new), K>(t: Table<V>, ls: seq<L>, f: L -> V, key: V -> K, i: nat)
    requires i < |ls|
    requires !HasKey(t.rows, key, key(f(ls[i])))
    requires forall j :: 0 <= j < i ==> key(f(ls[j])) != key(f(ls[i]))
    ensures exists x :: x in CopyLegacy(t, Some(ls), f, key).0.rows && x.data == f(ls[i])
  {
    var vs := Map(ls, f);
    assert forall j :: 0 <= j < i ==> key(vs[j]) != key(vs[i]);
    InsertAllOrIgnoreCopies(t, vs, key, i);
  }

  /** The ticker_info mapping of the script differs from the database
      manager's in one column: resena is copied into description. */
  lemma ScriptTickerInfoFields(db: Db, now: int, failing: set<string>, i: nat)
    requires TickerInfoTable !in failing
    requires db.tickerInfo.Some? && i < |db.tickerInfo.value|
    requires !HasKey(MigrateDatabase(db.(tickerInfo := None), now, failing).0.profiles.rows, ProfileKeyOf,
                     ProfileKey(db.tickerInfo.value[i].symbol, ManualTag))
    requires var ls := db.tickerInfo.value;
      forall j :: 0 <= j < i ==> ls[j].symbol != ls[i].symbol
    ensures var t := db.tickerInfo.value[i];
      exists x :: x in MigrateDatabase(db, now, failing).0.profiles.rows
        && x.data.ticker == t.symbol && x.data.source == ManualTag
        && x.data.country == t.pais && x.data.founded == t.fundacion
        && x.data.yearsPublic == t.anosEnBolsa && x.data.kind == t.tipo
        && x.data.description == t.resena
  {
    var ls := db.tickerInfo.value;
    var manual := (t: TickerInfo) => ProfileOfTickerInfo(t, now, true);
    var fmp := Surviving(db.fmpProfiles, FmpProfiles, failing);
    var prof1 := CopyLegacy(db.profiles, fmp, (x: LegacyProfile) => ProfileOfLegacy(x, now), ProfileKeyOf).0;
    MigrateDatabaseTables(db, now, failing);
    MigrateDatabaseTables(db.(tickerInfo := None), now, failing);
    assert MigrateDatabase(db.(tickerInfo := None), now, failing).0.profiles == prof1;
    var r := CopyLegacy(prof1, Some(ls), manual, ProfileKeyOf).0;
    assert MigrateDatabase(db, now, failing).0.profiles == r;
    CopyLegacyCopies(prof1, ls, manual, ProfileKeyOf, i);
    var x :| x in r.rows && x.data == manual(ls[i]);
    assert x.data == ProfileOfTickerInfo(ls[i], now, true);
  }

  /** Each recorded count is the number of rows its statement added to the
      canonical table: an error or an absent table adds none. */
  lemma MigrateDatabaseCounts(db: Db, now: int, failing: set<string>)
    ensures var (r, results) := MigrateDatabase(db, now, failing);
      && |r.bars.rows| == |db.bars.rows| + CountOf(results, AlphavantageDaily) + CountOf(results, PolygonData)
      && |r.quotes.rows| == |db.quotes.rows| + CountOf(results, FinhubQuotes)
      && |r.profiles.rows| == |db.profiles.rows| + CountOf(results, FmpProfiles) + CountOf(results, TickerInfoTable)
  {
    var c := ScriptCopies(db, now, failing);
    ScriptCopiesSkip(db, now, failing);
    ScriptCounts(db, failing, c.1);
  }

  /** The five entries of the result dictionary, table by table. */
  lemma ScriptCounts(db: Db, failing: set<string>, counts: seq<nat>)
    requires |counts| == |MigrationOrder|
    ensures var results := ScriptResults(db, failing, MigrationOrder, counts);
      && CountOf(results, AlphavantageDaily) == (if AlphavantageDaily !in failing && db.alphavantageDaily.Some? then counts[0] else 0)
      && CountOf(results, PolygonData) == (if PolygonData !in failing && db.polygonData.Some? then counts[1] else 0)
      && CountOf(results, FinhubQuotes) == (if FinhubQuotes !in failing && db.finhubQuotes.Some? then counts[2] else 0)
      && CountOf(results, FmpProfiles) == (if FmpProfiles !in failing && db.fmpProfiles.Some? then counts[3] else 0)
      && CountOf(results, TickerInfoTable) == (if TickerInfoTable !in failing && db.tickerInfo.Some? then counts[4] else 0)
  {
    ScriptCount(db, failing, counts, 0);
    ScriptCount(db, failing, counts, 1);
    ScriptCount(db, failing, counts, 2);
    ScriptCount(db, failing, counts, 3);
    ScriptCount(db, failing, counts, 4);
  }

  /** The number the script records for the k-th legacy table: its
      statement's row count when it exists and did not fail, else none. */
  lemma ScriptCount(db: Db, failing: set<string>, counts: seq<nat>, k: nat)
    requires |counts| == |MigrationOrder| && k < |MigrationOrder|
    ensures var n := MigrationOrder[k];
      CountOf(ScriptResults(db, failing, MigrationOrder, counts), n) ==
        if n !in failing && LegacyExists(db, n) then counts[k] else 0
  {
    var n := MigrationOrder[k];
    if n !in failing && LegacyExists(db, n) {
      assert forall j :: k < j < |MigrationOrder| ==> MigrationOrder[j] != n;
      ScriptResultsCount(db, failing, MigrationOrder, counts, k);
    }
  }

  /** The database with one legacy table removed. */
  function WithoutLegacy(db: Db, name: string): (r: Db)
    ensures !LegacyExists(r, name)
    ensures forall n :: n != name ==> LegacyExists(r, n) == LegacyExists(db, n)
  {
    if name == AlphavantageDaily then db.(alphavantageDaily := None)
    else if name == PolygonData then db.(polygonData := None)
    else if name == FinhubQuotes then db.(finhubQuotes := None)
    else if name == FmpProfiles then db.(fmpProfiles := None)
    else if name == TickerInfoTable then db.(tickerInfo := None)
    else db
  }

  /** In the result dictionary, a failing table differs from an absent one
      only by its own error entry. */
  lemma {:induction false} ScriptResultsIsolated(db: Db, failing: set<string>, name: string,
                                                 names: seq<string>, counts: seq<nat>)
    requires |counts| == |names| && name in failing
    ensures var r := ScriptResults(db, failing, names, counts);
      var s := ScriptResults(WithoutLegacy(db, name), failing - {name}, names, counts);
      r == if name in names then s[name := Error] else s
    decreases |names|
  {
    if |names| > 0 {
      ScriptResultsIsolated(db, failing, name, names[..|names| - 1], counts[..|counts| - 1]);
      assert forall x :: x in names <==> x in names[..|names| - 1] || x == names[|names| - 1];
    }
  }

  /** A failing table does not stop the others: the script's tables and
      every other entry of its result are those of a run in which that
      table did not exist. */
  lemma FailureIsolated(db: Db, now: int, failing: set<string>, name: string)
    requires name in failing && name in MigrationOrder
    ensures var r := MigrateDatabase(db, now, failing);
      var s := MigrateDatabase(WithoutLegacy(db, name), now, failing - {name});
      && r.0.bars == s.0.bars && r.0.quotes == s.0.quotes && r.0.profiles == s.0.profiles
      && r.1 == s.1[name := Error]
  {
    var c := ScriptCopies(db, now, failing);
    CopiesIsolated(db, now, failing, name);
    ScriptResultsIsolated(db, failing, name, MigrationOrder, c.1);
  }

  /** With a failing table removed from both the database and the failing
      set, every statement sees the same rows. */
  lemma CopiesIsolated(db: Db, now: int, failing: set<string>, name: string)
    requires name in failing
    ensures var c := ScriptCopies(db, now, failing);
      var d := ScriptCopies(WithoutLegacy(db, name), now, failing - {name});
      c.0.bars == d.0.bars && c.0.quotes == d.0.quotes && c.0.profiles == d.0.profiles && c.1 == d.1
  {
    var db' := WithoutLegacy(db, name);
    var failing' := failing - {name};
    assert db'.bars == db.bars && db'.quotes == db.quotes && db'.profiles == db.profiles;
    assert Surviving(db.alphavantageDaily, AlphavantageDaily, failing) == Surviving(db'.alphavantageDaily, AlphavantageDaily, failing');
    assert Surviving(db.polygonData, PolygonData, failing) == Surviving(db'.polygonData, PolygonData, failing');
    assert Surviving(db.finhubQuotes, FinhubQuotes, failing) == Surviving(db'.finhubQuotes, FinhubQuotes, failing');
    assert Surviving(db.fmpProfiles, FmpProfiles, failing) == Surviving(db'.fmpProfiles, FmpProfiles, failing');
    assert Surviving(db.tickerInfo, TickerInfoTable, failing) == Surviving(db'.tickerInfo, TickerInfoTable, failing');
  }
}

=== FILE: ordering.dfy ===
/** ORDER BY ... [ASC|DESC] [LIMIT n] over rows held in a sequence.

  A sort key is a stored SQLite value; SQLite orders NULL before numbers
  and numbers before text, and text byte-wise. Rows whose keys are equal
  come back in an order SQLite does not specify; the model fixes one
  (a stable insertion sort), and no contract below depends on it.
 */
module Ordering {
  import opened Common
  import opened Text

  datatype SortKey = KNull | KInt(i: int) | KText(t: string)

  predicate Lt(a: SortKey, b: SortKey) {
    match (a, b)
    case (KNull, KNull) => false
    case (KNull, _) => true
    case (KInt(x), KInt(y)) => x < y
    case (KInt(_), KText(_)) => true
    case (KText(x), KText(y)) => TextLt(x, y)
    case _ => false
  }

  predicate Le(a: SortKey, b: SortKey) {
    !Lt(b, a)
  }

  lemma LtIrreflexive(a: SortKey)
    ensures !Lt(a, a)
  {
    if a.KText? {
      TextLtIrreflexive(a.t);
    }
  }

  lemma LtTransitive(a: SortKey, b: SortKey, c: SortKey)
    requires Lt(a, b) && Lt(b, c)
    ensures Lt(a, c)
  {
    if a.KText? && b.KText? && c.KText? {
      TextLtTransitive(a.t, b.t, c.t);
    }
  }

  lemma LtTotal(a: SortKey, b: SortKey)
    ensures a == b || Lt(a, b) || Lt(b, a)
  {
    if a.KText? && b.KText? && a != b {
      TextLtTotal(a.t, b.t);
    }
  }

  lemma LeTotal(a: SortKey, b: SortKey)
    ensures Le(a, b) || Le(b, a)
  {
    LtTotal(a, b);
    if a == b {
      LtIrreflexive(a);
    } else if Lt(a, b) && Lt(b, a) {
      LtTransitive(a, b, a);
      LtIrreflexive(a);
    }
  }

  lemma LeTransitive(a: SortKey, b: SortKey, c: SortKey)
    requires Le(a, b) && Le(b, c)
    ensures Le(a, c)
  {
    if Lt(c, a) {
      LtTotal(a, b);
      if a == b {
      } else if Lt(a, b) {
        LtTransitive(c, a, b);
      }
    }
  }

  /** a may precede b in a result ordered ascending (desc == false) or
      descending (desc == true). */
  predicate InOrder(a: SortKey, b: SortKey, desc: bool) {
    if desc then Le(b, a) else Le(a, b)
  }

  predicate Sorted<T>(s: seq<T>, rank: T -> SortKey, desc: bool) {
    forall i, j :: 0 <= i < j < |s| ==> InOrder(rank(s[i]), rank(s[j]), desc)
  }

  lemma InOrderTransitive(a: SortKey, b: SortKey, c: SortKey, desc: bool)
    requires InOrder(a, b, desc) && InOrder(b, c, desc)
    ensures InOrder(a, c, desc)
  {
    if desc {
      LeTransitive(c, b, a);
    } else {
      LeTransitive(a, b, c);
    }
  }

  /** A sorted sequence stays sorted under a head that precedes all of it. */
  lemma PrependSorted<T>(x: T, s: seq<T>, rank: T -> SortKey, desc: bool)
    requires Sorted(s, rank, desc)
    requires forall j :: 0 <= j < |s| ==> InOrder(rank(x), rank(s[j]), desc)
    ensures Sorted([x] + s, rank, desc)
  {
    var r := [x] + s;
    forall i, j | 0 <= i < j < |r|
      ensures InOrder(rank(r[i]), rank(r[j]), desc)
    {
      assert r[j] == s[j - 1];
      if i > 0 {
        assert r[i] == s[i - 1];
      }
    }
  }

  /** What precedes the head of a sorted sequence precedes all of it. */
  lemma PrecedesAll<T>(x: T, s: seq<T>, rank: T -> SortKey, desc: bool)
    requires Sorted(s, rank, desc) && |s| > 0
    requires InOrder(rank(x), rank(s[0]), desc)
    ensures forall j :: 0 <= j < |s| ==> InOrder(rank(x), rank(s[j]), desc)
  {
    forall j | 0 < j < |s|
      ensures InOrder(rank(x), rank(s[j]), desc)
    {
      InOrderTransitive(rank(x), rank(s[0]), rank(s[j]), desc);
    }
  }

  /** The head of a sorted sequence precedes x inserted into its tail. */
  lemma HeadPrecedesInsertion<T>(x: T, s: seq<T>, tail: seq<T>, rank: T -> SortKey, desc: bool)
    requires Sorted(s, rank, desc) && |s| > 0
    requires InOrder(rank(s[0]), rank(x), desc)
    requires multiset(tail) == multiset(s[1..]) + multiset{x}
    ensures forall j :: 0 <= j < |tail| ==> InOrder(rank(s[0]), rank(tail[j]), desc)
  {
    forall j | 0 <= j < |tail|
      ensures InOrder(rank(s[0]), rank(tail[j]), desc)
    {
      assert tail[j] in multiset(tail);
      if tail[j] != x {
        assert tail[j] in multiset(s[1..]);
        assert tail[j] in s[1..];
        var k :| 0 <= k < |s[1..]| && s[1..][k] == tail[j];
        assert s[k + 1] == tail[j];
      }
    }
  }

  function Insert<T>(x: T, s: seq<T>, rank: T -> SortKey, desc: bool): (r: seq<T>)
    requires Sorted(s, rank, desc)
    ensures Sorted(r, rank, desc)
    ensures multiset(r) == multiset(s) + multiset{x}
    decreases |s|
  {
    if |s| == 0 then [x]
    else if InOrder(rank(x), rank(s[0]), desc) then
      PrecedesAll(x, s, rank, desc);
      PrependSorted(x, s, rank, desc);
      [x] + s
    else
      LeTotal(rank(x), rank(s[0]));
      assert Sorted(s[1..], rank, desc);
      var tail := Insert(x, s[1..], rank, desc);
      HeadPrecedesInsertion(x, s, tail, rank, desc);
      PrependSorted(s[0], tail, rank, desc);
      assert s == [s[0]] + s[1..];
      [s[0]] + tail
  }

  /** ORDER BY rank ASC (desc == false) or DESC (desc == true). */
  function Sort<T>(s: seq<T>, rank: T -> SortKey, desc: bool): (r: seq<T>)
    ensures Sorted(r, rank, desc)
    ensures multiset(r) == multiset(s)
    ensures |r| == |s|
    decreases |s|
  {
    if |s| == 0 then []
    else
      assert s == [s[0]] + s[1..];
      Insert(s[0], Sort(s[1..], rank, desc), rank, desc)
  }

  function Min(a: nat, b: nat): nat {
    if a <= b then a else b
  }

  /** In a descending sequence, everything after position m ranks at most
      as high as everything before it. */
  lemma SortedPrefixDominates<T>(sorted: seq<T>, rank: T -> SortKey, m: nat)
    requires Sorted(sorted, rank, true) && m <= |sorted|
    ensures forall x, y :: x in multiset(sorted[m..]) && y in sorted[..m] ==> Le(rank(x), rank(y))
  {
    forall x, y | x in multiset(sorted[m..]) && y in sorted[..m]
      ensures Le(rank(x), rank(y))
    {
      var i :| 0 <= i < m && sorted[i] == y;
      var j :| 0 <= j < |sorted| - m && sorted[m..][j] == x;
      assert sorted[m + j] == x;
    }
  }

  /** ORDER BY rank DESC LIMIT n: the n rows with the greatest keys, greatest first. */
  function Top<T>(s: seq<T>, rank: T -> SortKey, n: nat): (r: seq<T>)
    ensures |r| == Min(n, |s|)
    ensures Sorted(r, rank, true)
    ensures multiset(r) <= multiset(s)
    ensures forall x, y :: x in multiset(s) - multiset(r) && y in r ==> Le(rank(x), rank(y))
  {
    var sorted := Sort(s, rank, true);
    var m := Min(n, |s|);
    assert sorted == sorted[..m] + sorted[m..];
    assert multiset(s) - multiset(sorted[..m]) == multiset(sorted[m..]);
    SortedPrefixDominates(sorted, rank, m);
    sorted[..m]
  }

  /** What Top keeps comes from the input, and nothing it leaves out
      ranks above anything it keeps. */
  lemma TopMembers<T>(s: seq<T>, rank: T -> SortKey, n: nat)
    ensures forall x :: x in Top(s, rank, n) ==> x in s
    ensures forall x, y :: x in s && x !in Top(s, rank, n) && y in Top(s, rank, n) ==> Le(rank(x), rank(y))
  {
    var r := Top(s, rank, n);
    forall x | x in r
      ensures x in s
    {
      assert x in multiset(r);
    }
    forall x, y | x in s && x !in r && y in r
      ensures Le(rank(x), rank(y))
    {
      assert multiset(r)[x] == 0;
      assert x in multiset(s) - multiset(r);
    }
  }

  /** ORDER BY rank DESC LIMIT 1, or nothing when there is no row: the
      first of the greatest elements, as the stable descending sort puts it
      in front. */
  function Latest<T>(s: seq<T>, rank: T -> SortKey): (r: Option<T>)
    ensures r.None? <==> |s| == 0
    ensures r.Some? ==> r.value in s && forall y :: y in s ==> Le(rank(y), rank(r.value))
    decreases |s|
  {
    if |s| == 0 then None
    else
      var rest := Latest(s[1..], rank);
      LeTotal(rank(s[0]), rank(s[0]));
      if rest.None? then
        assert s == [s[0]];
        Some(s[0])
      else
        assert forall y :: y in s ==> y == s[0] || y in s[1..];
        if Le(rank(rest.value), rank(s[0])) then
          assert forall y :: y in s[1..] ==> Le(rank(y), rank(s[0])) by {
            forall y | y in s[1..]
              ensures Le(rank(y), rank(s[0]))
            {
              LeTransitive(rank(y), rank(rest.value), rank(s[0]));
            }
          }
          Some(s[0])
        else
          LeTotal(rank(rest.value), rank(s[0]));
          Some(rest.value)
  }

  /** SELECT ... WHERE p: the elements satisfying p, in order. */
  function Filter<T(!new)>(s: seq<T>, p: T -> bool): (r: seq<T>)
    ensures forall x :: x in r <==> x in s && p(x)
    ensures multiset(r) <= multiset(s)
    ensures |r| <= |s|
    decreases |s|
  {
    if |s| == 0 then []
    else
      var rest := Filter(s[1..], p);
      assert s == [s[0]] + s[1..];
      if p(s[0]) then [s[0]] + rest else rest
  }


  lemma SortMembers<T>(s: seq<T>, rank: T -> SortKey, desc: bool)
    ensures forall x :: x in Sort(s, rank, desc) <==> x in s
  {
    var r := Sort(s, rank, desc);
    assert forall x :: x in r <==> x in multiset(r);
    assert forall x :: x in s <==> x in multiset(s);
  }

  /** ORDER BY rank ASC LIMIT 1, or nothing when there is no row: the
      first of the least elements, as the stable ascending sort puts it in
      front. */
  function First<T>(s: seq<T>, rank: T -> SortKey): (r: Option<T>)
    ensures r.None? <==> |s| == 0
    ensures r.Some? ==> r.value in s
    ensures r.Some? ==> forall y :: y in s ==> Le(rank(r.value), rank(y))
    decreases |s|
  {
    if |s| == 0 then None
    else
      var rest := First(s[1..], rank);
      LeTotal(rank(s[0]), rank(s[0]));
      if rest.None? then
        assert s == [s[0]];
        Some(s[0])
      else
        assert forall y :: y in s ==> y == s[0] || y in s[1..];
        if Le(rank(s[0]), rank(rest.value)) then
          assert forall y :: y in s[1..] ==> Le(rank(s[0]), rank(y)) by {
            forall y | y in s[1..]
              ensures Le(rank(s[0]), rank(y))
            {
              LeTransitive(rank(s[0]), rank(rest.value), rank(y));
            }
          }
          Some(s[0])
        else
          LeTotal(rank(s[0]), rank(rest.value));
          Some(rest.value)
  }
}

=== FILE: returns.dfy ===
/** Trailing returns of a ticker (calculate_returns) and the per-field
    fallback from Alpha Vantage bars to Yahoo Finance bars
    (get_ticker_returns).

  A calendar date is stored as ISO `YYYY-MM-DD` text; the model counts
  days from 0001-01-01 in the proleptic Gregorian calendar, and
  IsoOrderIsDayOrder shows that comparing the texts and comparing the day
  numbers agree.
 */
module Returns {
  import opened Common
  import opened Ordering
  import opened Schema
  import DataUtils

  // ------------------------------------------------------------ calendar

  datatype Date = Date(year: int, month: int, day: int)

  predicate IsLeap(y: int) {
    y % 4 == 0 && (y % 100 != 0 || y % 400 == 0)
  }

  function DaysInYear(y: int): int {
    if IsLeap(y) then 366 else 365
  }

  function DaysInMonth(y: int, m: int): int {
    if m == 2 then (if IsLeap(y) then 29 else 28)
    else if m == 4 || m == 6 || m == 9 || m == 11 then 30
    else 31
  }

  predicate Valid(d: Date) {
    1 <= d.month <= 12 && 1 <= d.day <= DaysInMonth(d.year, d.month)
  }

  /** Days of the year before the first of month m (m = 13: the whole year). */
  function DaysBeforeMonth(y: int, m: int): int
    requires 1 <= m <= 13
  {
    [0, 31, 59, 90, 120, 151, 181, 212, 243, 273, 304, 334, 365][m - 1]
      + (if m > 2 && IsLeap(y) then 1 else 0)
  }

  function DaysBeforeYear(y: int): int {
    var p := y - 1;
    365 * p + p / 4 - p / 100 + p / 400
  }

  /** Days since 0001-01-01. */
  function DayNumber(d: Date): int
    requires Valid(d)
  {
    DaysBeforeYear(d.year) + DaysBeforeMonth(d.year, d.month) + d.day - 1
  }

  /** Year, then month, then day: the order of the ISO texts. */
  predicate DateLt(a: Date, b: Date) {
    a.year < b.year
    || (a.year == b.year && a.month < b.month)
    || (a.year == b.year && a.month == b.month && a.day < b.day)
  }

  lemma MonthStep(y: int, m: int)
    requires 1 <= m <= 12
    ensures DaysBeforeMonth(y, m + 1) == DaysBeforeMonth(y, m) + DaysInMonth(y, m)
    ensures DaysBeforeMonth(y, 13) == DaysInYear(y)
  {
  }

  lemma {:induction false} MonthsIncrease(y: int, m: int, n: int)
    requires 1 <= m <= n <= 13
    ensures DaysBeforeMonth(y, m) <= DaysBeforeMonth(y, n)
    decreases n - m
  {
    if m < n {
      MonthStep(y, m);
      MonthsIncrease(y, m + 1, n);
    }
  }

  /** One more year adds that year's length: y/k - (y-1)/k is 1 exactly
      when k divides y. */
  lemma YearStep(y: int)
    ensures DaysBeforeYear(y + 1) == DaysBeforeYear(y) + DaysInYear(y)
  {
    var p := y - 1;
    assert y / 4 - p / 4 == if y % 4 == 0 then 1 else 0;
    assert y / 100 - p / 100 == if y % 100 == 0 then 1 else 0;
    assert y / 400 - p / 400 == if y % 400 == 0 then 1 else 0;
  }

  lemma {:induction false} YearsIncrease(a: int, b: int)
    requires a < b
    ensures DaysBeforeYear(a) + DaysInYear(a) <= DaysBeforeYear(b)
    decreases b - a
  {
    YearStep(a);
    if a + 1 < b {
      YearsIncrease(a + 1, b);
    }
  }

  /** The day of the year, counted from 0, is below the length of the year. */
  lemma DayOfYearRange(d: Date)
    requires Valid(d)
    ensures 0 <= DayNumber(d) - DaysBeforeYear(d.year) < DaysInYear(d.year)
  {
    MonthStep(d.year, d.month);
    MonthsIncrease(d.year, d.month + 1, 13);
  }

  /** Comparing two valid dates as ISO texts and comparing their day
      numbers give the same answer. */
  lemma IsoOrderIsDayOrder(a: Date, b: Date)
    requires Valid(a) && Valid(b)
    ensures DateLt(a, b) <==> DayNumber(a) < DayNumber(b)
    ensures a == b <==> DayNumber(a) == DayNumber(b)
  {
    if DateLt(a, b) {
      DayNumberIncreases(a, b);
    } else if DateLt(b, a) {
      DayNumberIncreases(b, a);
    } else {
      assert a == b;
    }
  }

  lemma DayNumberIncreases(a: Date, b: Date)
    requires Valid(a) && Valid(b) && DateLt(a, b)
    ensures DayNumber(a) < DayNumber(b)
  {
    DayOfYearRange(a);
    DayOfYearRange(b);
    if a.year < b.year {
      YearsIncrease(a.year, b.year);
    } else if a.month < b.month {
      MonthStep(a.year, a.month);
      MonthsIncrease(a.year, a.month + 1, b.month);
    }
  }

  // ------------------------------------------------------------- windows

  datatype Period = Ytd | Quarter | Year

  /** The first day of each window: January 1 of this year, 90 days back,
      365 days back. */
  function WindowStart(p: Period, today: Date): int
    requires Valid(today)
  {
    match p
    case Ytd => DayNumber(Date(today.year, 1, 1))
    case Quarter => DayNumber(today) - 90
    case Year => DayNumber(today) - 365
  }

  /** Every window ends today, and the year window contains the other two. */
  lemma WindowsNest(today: Date)
    requires Valid(today)
    ensures forall p :: WindowStart(p, today) <= DayNumber(today)
    ensures WindowStart(Year, today) <= WindowStart(Quarter, today)
    ensures WindowStart(Year, today) <= WindowStart(Ytd, today)
  {
    DayOfYearRange(today);
    assert DayNumber(Date(today.year, 1, 1)) == DaysBeforeYear(today.year);
  }

  // ------------------------------------------------------------- returns

  predicate OfSource(b: Bar, ticker: string, source: string) {
    b.ticker == ticker && b.source == source
  }

  /** The newest bar of the ticker from the source, whatever its date. */
  predicate IsLatest(bars: seq<Bar>, ticker: string, source: string, l: Bar) {
    l in bars && OfSource(l, ticker, source)
    && forall b :: b in bars && OfSource(b, ticker, source) ==> b.date <= l.date
  }

  /** The oldest bar of the ticker from the source dated on or after start. */
  predicate IsEarliestFrom(bars: seq<Bar>, ticker: string, source: string, start: int, e: Bar) {
    e in bars && OfSource(e, ticker, source) && e.date >= start
    && forall b :: b in bars && OfSource(b, ticker, source) && b.date >= start ==> e.date <= b.date
  }

  predicate WindowEmpty(bars: seq<Bar>, ticker: string, source: string, start: int) {
    forall b :: b in bars && OfSource(b, ticker, source) ==> b.date < start
  }

  /** v is the newest close over the window's oldest (non-zero) close, minus 1. */
  ghost predicate ReturnFrom(bars: seq<Bar>, ticker: string, source: string, start: int, v: real) {
    exists l, e :: IsLatest(bars, ticker, source, l) && IsEarliestFrom(bars, ticker, source, start, e)
      && e.close != 0.0 && v == l.close / e.close - 1.0
  }

  /** The window's oldest bar closed at 0. */
  ghost predicate ZeroBase(bars: seq<Bar>, ticker: string, source: string, start: int) {
    exists e :: IsEarliestFrom(bars, ticker, source, start, e) && e.close == 0.0
  }

  /** The ticker's bars from the source. */
  function SourceBars(bars: seq<Bar>, ticker: string, source: string): (r: seq<Bar>)
    ensures forall x :: x in r <==> x in bars && OfSource(x, ticker, source)
    decreases |bars|
  {
    if |bars| == 0 then []
    else
      var rest := SourceBars(bars[1..], ticker, source);
      assert forall x :: x in bars <==> x == bars[0] || x in bars[1..];
      if OfSource(bars[0], ticker, source) then [bars[0]] + rest else rest
  }

  /** The bars dated on or after start. */
  function DatedFrom(s: seq<Bar>, start: int): (r: seq<Bar>)
    ensures forall x :: x in r <==> x in s && x.date >= start
    decreases |s|
  {
    if |s| == 0 then []
    else
      var rest := DatedFrom(s[1..], start);
      assert forall x :: x in s <==> x == s[0] || x in s[1..];
      if s[0].date >= start then [s[0]] + rest else rest
  }

  lemma WindowEmptyIff(bars: seq<Bar>, ticker: string, source: string, start: int)
    ensures WindowEmpty(bars, ticker, source, start) <==> |DatedFrom(SourceBars(bars, ticker, source), start)| == 0
  {
    var window := DatedFrom(SourceBars(bars, ticker, source), start);
    if |window| > 0 {
      assert window[0] in window;
    }
  }

  lemma NewestIsLatest(bars: seq<Bar>, ticker: string, source: string)
    requires |SourceBars(bars, ticker, source)| > 0
    ensures Latest(SourceBars(bars, ticker, source), DataUtils.ByDate).Some?
    ensures IsLatest(bars, ticker, source, Latest(SourceBars(bars, ticker, source), DataUtils.ByDate).value)
  {
    var mine := SourceBars(bars, ticker, source);
    var l := Latest(mine, DataUtils.ByDate).value;
    forall b | b in bars && OfSource(b, ticker, source)
      ensures b.date <= l.date
    {
      assert Le(DataUtils.ByDate(b), DataUtils.ByDate(l));
    }
  }

  lemma OldestIsEarliest(bars: seq<Bar>, ticker: string, source: string, start: int)
    requires |DatedFrom(SourceBars(bars, ticker, source), start)| > 0
    ensures First(DatedFrom(SourceBars(bars, ticker, source), start), DataUtils.ByDate).Some?
    ensures IsEarliestFrom(bars, ticker, source, start,
                           First(DatedFrom(SourceBars(bars, ticker, source), start), DataUtils.ByDate).value)
  {
    var window := DatedFrom(SourceBars(bars, ticker, source), start);
    var e := First(window, DataUtils.ByDate).value;
    forall b | b in bars && OfSource(b, ticker, source) && b.date >= start
      ensures e.date <= b.date
    {
      assert b in window;
      assert Le(DataUtils.ByDate(e), DataUtils.ByDate(b));
    }
  }

  /** One window's return: when a bar of the source falls in the window,
      the newest close of the source (over all dates) over the oldest close
      in the window, minus 1; SQL NULL (None) when no bar falls in the
      window or the divisor is 0. */
  function WindowReturn(bars: seq<Bar>, ticker: string, source: string, start: int): (r: Option<real>)
    ensures WindowEmpty(bars, ticker, source, start) ==> r.None?
    ensures r.Some? ==> ReturnFrom(bars, ticker, source, start, r.value)
    ensures r.None? ==> WindowEmpty(bars, ticker, source, start) || ZeroBase(bars, ticker, source, start)
  {
    var mine := SourceBars(bars, ticker, source);
    var window := DatedFrom(mine, start);
    WindowEmptyIff(bars, ticker, source, start);
    if |window| == 0 then None
    else
      assert window[0] in mine;
      NewestIsLatest(bars, ticker, source);
      OldestIsEarliest(bars, ticker, source, start);
      var latest := Latest(mine, DataUtils.ByDate).value;
      var earliest := First(window, DataUtils.ByDate).value;
      if earliest.close == 0.0 then
        assert ZeroBase(bars, ticker, source, start);
        None
      else
        assert ReturnFrom(bars, ticker, source, start, latest.close / earliest.close - 1.0);
        Some(latest.close / earliest.close - 1.0)
  }

  /** The count guard makes the newest bar fall inside the window. */
  lemma LatestInsideWindow(bars: seq<Bar>, ticker: string, source: string, start: int, l: Bar)
    requires !WindowEmpty(bars, ticker, source, start)
    requires IsLatest(bars, ticker, source, l)
    ensures l.date >= start
  {
  }

  /** A window holding exactly one bar, with a non-zero close, yields 0. */
  lemma SingleBarWindow(bars: seq<Bar>, ticker: string, source: string, start: int, b: Bar)
    requires b in bars && OfSource(b, ticker, source) && b.date >= start && b.close != 0.0
    requires forall x :: x in bars && OfSource(x, ticker, source) && x.date >= start ==> x == b
    ensures WindowReturn(bars, ticker, source, start) == Some(0.0)
  {
    var r := WindowReturn(bars, ticker, source, start);
    if r.Some? {
      assert ReturnFrom(bars, ticker, source, start, r.value);
      var l, e :| IsLatest(bars, ticker, source, l) && IsEarliestFrom(bars, ticker, source, start, e)
        && e.close != 0.0 && r.value == l.close / e.close - 1.0;
      assert l.date >= b.date;
      assert l == b && e == b;
      assert b.close / b.close == 1.0;
    }
  }

  /** A window whose oldest bar, alone on its date, closed at 0 has no
      return. */
  lemma ZeroBaseYieldsNone(bars: seq<Bar>, ticker: string, source: string, start: int, e: Bar)
    requires IsEarliestFrom(bars, ticker, source, start, e) && e.close == 0.0
    requires forall x :: x in bars && OfSource(x, ticker, source) && x.date == e.date ==> x == e
    ensures WindowReturn(bars, ticker, source, start) == None
  {
  }

  /** Every bar in the quarter or year-to-date window is in the year
      window, so those windows have bars only if the year window has. */
  lemma YearWindowCovers(bars: seq<Bar>, ticker: string, source: string, today: Date)
    requires Valid(today)
    ensures WindowEmpty(bars, ticker, source, WindowStart(Year, today)) ==>
      WindowEmpty(bars, ticker, source, WindowStart(Quarter, today))
      && WindowEmpty(bars, ticker, source, WindowStart(Ytd, today))
  {
    WindowsNest(today);
  }

  /** A defined quarter return does not imply a defined year return: the
      year window can start on a bar whose close is 0 while the quarter
      window does not. */
  lemma QuarterDefinedYearAbsent(today: Date, ticker: string, source: string)
    requires Valid(today)
    ensures var t := DayNumber(today);
      var first := Bar(ticker, t - 300, 1.0, 1.0, 1.0, 0.0, 0, source);
      var recent := Bar(ticker, t - 10, 1.0, 1.0, 1.0, 10.0, 0, source);
      WindowReturn([first, recent], ticker, source, WindowStart(Quarter, today)) == Some(0.0)
      && WindowReturn([first, recent], ticker, source, WindowStart(Year, today)) == None
  {
    var t := DayNumber(today);
    var first := Bar(ticker, t - 300, 1.0, 1.0, 1.0, 0.0, 0, source);
    var recent := Bar(ticker, t - 10, 1.0, 1.0, 1.0, 10.0, 0, source);
    var bars := [first, recent];
    assert forall x :: x in bars <==> x == first || x == recent;
    var quarter, year := WindowStart(Quarter, today), WindowStart(Year, today);
    assert quarter == t - 90 && year == t - 365;
    assert forall x :: x in bars && OfSource(x, ticker, source) && x.date >= quarter ==> x == recent;
    SingleBarWindow(bars, ticker, source, quarter, recent);
    assert IsEarliestFrom(bars, ticker, source, year, first);
    assert forall x :: x in bars && OfSource(x, ticker, source) && x.date == first.date ==> x == first;
    ZeroBaseYieldsNone(bars, ticker, source, year, first);
  }

  /** The three returns; each is None when its query failed. */
  datatype Returns = Returns(ytd: Option<real>, quarter: Option<real>, year: Option<real>)

  function Get(r: Returns, p: Period): Option<real> {
    match p
    case Ytd => r.ytd
    case Quarter => r.quarter
    case Year => r.year
  }

  /** One window's entry: None when its query raised. */
  function PeriodReturn(bars: seq<Bar>, ticker: string, source: string, today: Date,
                        failing: set<Period>, p: Period): Option<real>
    requires Valid(today)
  {
    if p in failing then None else WindowReturn(bars, ticker, source, WindowStart(p, today))
  }

  /** calculate_returns: the three windows are queried one after another,
      each in its own error handler. */
  function CalculateReturns(bars: seq<Bar>, ticker: string, source: string, today: Date,
                            failing: set<Period>): Returns
    requires Valid(today)
  {
    Returns(PeriodReturn(bars, ticker, source, today, failing, Ytd),
            PeriodReturn(bars, ticker, source, today, failing, Quarter),
            PeriodReturn(bars, ticker, source, today, failing, Year))
  }

  /** A window whose query raised is None; every other window holds its
      window's return. */
  lemma CalculateReturnsFields(bars: seq<Bar>, ticker: string, source: string, today: Date,
                               failing: set<Period>)
    requires Valid(today)
    ensures forall p :: p in failing ==> Get(CalculateReturns(bars, ticker, source, today, failing), p).None?
    ensures forall p :: p !in failing ==>
      Get(CalculateReturns(bars, ticker, source, today, failing), p)
      == WindowReturn(bars, ticker, source, WindowStart(p, today))
  {
    var r := CalculateReturns(bars, ticker, source, today, failing);
    forall p
      ensures Get(r, p) == PeriodReturn(bars, ticker, source, today, failing, p)
    {
      match p
      case Ytd =>
      case Quarter =>
      case Year =>
    }
  }

  /** A failing query affects no other window. */
  lemma FailureIsolation(bars: seq<Bar>, ticker: string, source: string, today: Date,
                         failing: set<Period>, p: Period)
    requires Valid(today)
    ensures forall q :: q != p ==>
      Get(CalculateReturns(bars, ticker, source, today, failing + {p}), q)
      == Get(CalculateReturns(bars, ticker, source, today, failing - {p}), q)
  {
    CalculateReturnsFields(bars, ticker, source, today, failing + {p});
    CalculateReturnsFields(bars, ticker, source, today, failing - {p});
  }

  /** Fill each missing field of `primary` from `backup`. */
  function FillMissing(primary: Returns, backup: Returns): (r: Returns)
    ensures forall p :: Get(primary, p).Some? ==> Get(r, p) == Get(primary, p)
    ensures forall p :: Get(primary, p).None? ==> Get(r, p) == Get(backup, p)
  {
    Returns(if primary.ytd.Some? then primary.ytd else backup.ytd,
            if primary.quarter.Some? then primary.quarter else backup.quarter,
            if primary.year.Some? then primary.year else backup.year)
  }

  const Primary: string := "alphavantage"
  const Secondary: string := "yfinance"

  /** The fallback step of get_ticker_returns: the backup returns are
      consulted (the flag) only when some primary return is missing, and
      then only fill the missing fields. */
  function Fallback(primary: Returns, backup: Returns): (r: (Returns, bool))
    ensures r.1 <==> exists p :: Get(primary, p).None?
    ensures !r.1 ==> r.0 == primary
    ensures forall p :: Get(primary, p).Some? ==> Get(r.0, p) == Get(primary, p)
    ensures forall p :: Get(r.0, p).None? <==> Get(primary, p).None? && Get(backup, p).None?
  {
    if primary.ytd.None? || primary.quarter.None? || primary.year.None? then
      assert Get(primary, Ytd).None? || Get(primary, Quarter).None? || Get(primary, Year).None?;
      (FillMissing(primary, backup), true)
    else
      assert forall p :: Get(primary, p).Some?;
      (primary, false)
  }

  /** get_ticker_returns: Alpha Vantage bars first, Yahoo Finance bars for
      the windows they leave missing. */
  function TickerReturns(bars: seq<Bar>, ticker: string, today: Date,
                         failPrimary: set<Period>, failSecondary: set<Period>): (Returns, bool)
    requires Valid(today)
  {
    Fallback(CalculateReturns(bars, ticker, Primary, today, failPrimary),
             CalculateReturns(bars, ticker, Secondary, today, failSecondary))
  }
}

=== FILE: schema.dfy ===
/** The canonical tables of the database, their UNIQUE key tuples, and the
    legacy tables older versions of the program created.

  Dates are day numbers, so comparing two dates compares the ISO
  `YYYY-MM-DD` texts SQLite stores. Timestamps are integers. The columns
  of quotes, profiles, news and fundamentals that the code fills from JSON
  are `Option`, with `None` for SQL NULL. The prices and volume of a bar
  are plain values: the model takes them as never NULL, although the
  stock_daily_data columns allow it.
 */
module Schema {
  import opened Common
  import opened Tables

  /** The names of the canonical tables. */
  const BarsTable: string := "stock_daily_data"
  const QuotesTable: string := "market_quotes"
  const ProfilesTable: string := "company_profiles"
  const NewsTable: string := "news_articles"
  const IndicatorsTable: string := "technical_indicators"
  const FundamentalsTable: string := "fundamental_data"

  /** A row of stock_daily_data: one OHLCV bar of one ticker on one day from
      one provider. */
  datatype Bar = Bar(ticker: string, date: int, open: real, high: real, low: real,
                     close: real, volume: int, source: string)

  datatype BarKey = BarKey(ticker: string, date: int, source: string)

  function BarKeyOf(b: Bar): BarKey {
    BarKey(b.ticker, b.date, b.source)
  }

  /** A row of market_quotes. */
  datatype Quote = Quote(ticker: string, currentPrice: Option<real>, change: Option<real>,
                         percentChange: Option<real>, high: Option<real>, low: Option<real>,
                         open: Option<real>, previousClose: Option<real>,
                         source: string, timestamp: int)

  datatype QuoteKey = QuoteKey(ticker: string, timestamp: int, source: string)

  function QuoteKeyOf(q: Quote): QuoteKey {
    QuoteKey(q.ticker, q.timestamp, q.source)
  }

  /** A row of company_profiles; `kind` is the `type` column. */
  datatype Profile = Profile(ticker: string, companyName: Option<string>, industry: Option<string>,
                             sector: Option<string>, subsector: Option<string>,
                             marketCap: Option<real>, employees: Option<int>,
                             description: Option<string>, ceo: Option<string>,
                             website: Option<string>, exchange: Option<string>,
                             ipoDate: Option<string>, country: Option<string>,
                             founded: Option<string>, yearsPublic: Option<string>,
                             kind: Option<string>, source: string, timestamp: int)

  datatype ProfileKey = ProfileKey(ticker: string, source: string)

  function ProfileKeyOf(p: Profile): ProfileKey {
    ProfileKey(p.ticker, p.source)
  }

  /** A profile row in which only the NOT NULL columns and the timestamp
      default are set; every writer names the other columns it fills. */
  function BlankProfile(ticker: string, source: string, now: int): Profile {
    Profile(ticker, None, None, None, None, None, None, None, None, None, None,
            None, None, None, None, None, source, now)
  }

  /** A row of news_articles. */
  datatype News = News(ticker: string, title: Option<string>, source: Option<string>,
                       url: Option<string>, publishedAt: Option<string>, content: Option<string>)

  /** A row of technical_indicators; it has no source column. */
  datatype Indicator = Indicator(ticker: string, date: int,
                                 sma20: Option<real>, sma50: Option<real>, sma200: Option<real>,
                                 ema12: Option<real>, ema26: Option<real>,
                                 macd: Option<real>, macdSignal: Option<real>, macdHistogram: Option<real>,
                                 rsi14: Option<real>,
                                 bollingerUpper: Option<real>, bollingerMiddle: Option<real>,
                                 bollingerLower: Option<real>, atr14: Option<real>)

  datatype IndicatorKey = IndicatorKey(ticker: string, date: int)

  function IndicatorKeyOf(r: Indicator): IndicatorKey {
    IndicatorKey(r.ticker, r.date)
  }

  /** A row of fundamental_data; periodEnd is the period_end_date text. */
  datatype Fundamental = Fundamental(ticker: string, period: string, periodEnd: string,
                                     revenue: Option<real>, netIncome: Option<real>, eps: Option<real>,
                                     peRatio: Option<real>, pbRatio: Option<real>,
                                     dividendYield: Option<real>, debtToEquity: Option<real>,
                                     roa: Option<real>, roe: Option<real>,
                                     grossMargin: Option<real>, operatingMargin: Option<real>,
                                     netMargin: Option<real>, freeCashFlow: Option<real>,
                                     dataSource: Option<string>)

  datatype FundamentalKey = FundamentalKey(ticker: string, period: string, periodEnd: string)

  function FundamentalKeyOf(f: Fundamental): FundamentalKey {
    FundamentalKey(f.ticker, f.period, f.periodEnd)
  }

  /** Rows of portfolio and watchlist; no operation of the program writes them. */
  datatype Holding = Holding(portfolioName: string, ticker: string, shares: real,
                             purchasePrice: real, purchaseDate: int, notes: Option<string>)

  function HoldingKeyOf(h: Holding): (string, string, int) {
    (h.portfolioName, h.ticker, h.purchaseDate)
  }

  datatype Watch = Watch(watchlistName: string, ticker: string, addedDate: int, notes: Option<string>)

  function WatchKeyOf(w: Watch): (string, string) {
    (w.watchlistName, w.ticker)
  }

  /** Rows of the legacy tables, with the columns the migration selects. */
  datatype LegacyBar = LegacyBar(ticker: string, date: int, open: real, high: real, low: real,
                                 close: real, volume: int)

  datatype LegacyQuote = LegacyQuote(ticker: string, currentPrice: Option<real>, change: Option<real>,
                                     percentChange: Option<real>, high: Option<real>, low: Option<real>,
                                     open: Option<real>, previousClose: Option<real>, timestamp: int)

  datatype LegacyProfile = LegacyProfile(ticker: string, companyName: Option<string>,
                                         industry: Option<string>, sector: Option<string>,
                                         marketCap: Option<real>, employees: Option<int>,
                                         description: Option<string>, ceo: Option<string>,
                                         website: Option<string>, exchange: Option<string>,
                                         ipoDate: Option<string>)

  /** A row of ticker_info, whose columns carry Spanish names: pais,
      fundacion, anos_en_bolsa, tipo and resena. */
  datatype TickerInfo = TickerInfo(symbol: string, sector: Option<string>, subsector: Option<string>,
                                   pais: Option<string>, fundacion: Option<string>,
                                   anosEnBolsa: Option<string>, tipo: Option<string>,
                                   resena: Option<string>)

  /** The database: the canonical tables, and each legacy table, None when
      it does not exist. */
  datatype Db = Db(bars: Table<Bar>, quotes: Table<Quote>, profiles: Table<Profile>,
                   news: Table<News>, indicators: Table<Indicator>,
                   fundamentals: Table<Fundamental>,
                   alphavantageDaily: Option<seq<LegacyBar>>,
                   polygonData: Option<seq<LegacyBar>>,
                   finhubQuotes: Option<seq<LegacyQuote>>,
                   fmpProfiles: Option<seq<LegacyProfile>>,
                   tickerInfo: Option<seq<TickerInfo>>)

  /** UNIQUE(url) on a nullable column: two rows may both have a NULL url,
      but no two rows share a non-NULL one. */
  predicate UrlsUnique(rows: seq<Row<News>>) {
    forall i, j :: 0 <= i < j < |rows| && rows[i].data.url.Some? ==> rows[i].data.url != rows[j].data.url
  }

  predicate HasUrl(rows: seq<Row<News>>, u: string) {
    exists i :: 0 <= i < |rows| && rows[i].data.url == Some(u)
  }

  /** Every table has distinct ids below its counter and satisfies its
      UNIQUE constraint. */
  predicate Consistent(db: Db) {
    && WellFormed(db.bars) && UniqueOn(db.bars.rows, BarKeyOf)
    && WellFormed(db.quotes) && UniqueOn(db.quotes.rows, QuoteKeyOf)
    && WellFormed(db.profiles) && UniqueOn(db.profiles.rows, ProfileKeyOf)
    && WellFormed(db.news) && UrlsUnique(db.news.rows)
    && WellFormed(db.indicators) && UniqueOn(db.indicators.rows, IndicatorKeyOf)
    && WellFormed(db.fundamentals) && UniqueOn(db.fundamentals.rows, FundamentalKeyOf)
  }

  /** INSERT OR IGNORE INTO news_articles: a NULL url never conflicts, a
      non-NULL url conflicts with the row already holding it. The flag
      tells whether a row was inserted. */
  function InsertNewsOrIgnore(t: Table<News>, n: News): (r: (Table<News>, bool))
    ensures r.1 <==> n.url.None? || !HasUrl(t.rows, n.url.value)
    ensures r.1 ==> r.0 == Table(t.rows + [Row(t.nextId, n)], t.nextId + 1)
    ensures !r.1 ==> r.0 == t
    ensures WellFormed(t) ==> WellFormed(r.0)
    ensures UrlsUnique(t.rows) ==> UrlsUnique(r.0.rows)
  {
    if n.url.Some? && HasUrl(t.rows, n.url.value) then (t, false)
    else
      var rows := t.rows + [Row(t.nextId, n)];
      assert WellFormed(t) ==> WellFormed(Table(rows, t.nextId + 1)) by {
        if WellFormed(t) {
          SnocDistinct(t.rows, Row(t.nextId, n), (v: News) => v.url);
        }
      }
      (Table(rows, t.nextId + 1), true)
  }

  /** Bars of one day from two providers are both kept: the source is part of
      the bar key. */
  lemma BarsOfTwoSourcesCoexist(t: Table<Bar>, a: Bar, b: Bar)
    requires a.ticker == b.ticker && a.date == b.date && a.source != b.source
    ensures var r := InsertOrReplace(InsertOrReplace(t, a, BarKeyOf), b, BarKeyOf);
      Row(t.nextId, a) in r.rows && Row(t.nextId + 1, b) in r.rows
  {
  }

  /** An indicator row has no source column, so a second write for the same
      ticker and day replaces the first, whatever bars either came from. */
  lemma IndicatorRowsOverwrite(t: Table<Indicator>, a: Indicator, b: Indicator)
    requires IndicatorKeyOf(a) == IndicatorKeyOf(b)
    ensures var r := InsertOrReplace(InsertOrReplace(t, a, IndicatorKeyOf), b, IndicatorKeyOf);
      (forall x :: x in r.rows && IndicatorKeyOf(x.data) == IndicatorKeyOf(a) ==> x == Row(t.nextId + 1, b))
      && Row(t.nextId + 1, b) in r.rows
  {
  }

  /** Any number of articles without a url are all stored. */
  lemma NullUrlNewsCoexist(t: Table<News>, a: News, b: News)
    requires a.url.None? && b.url.None?
    ensures var r := InsertNewsOrIgnore(InsertNewsOrIgnore(t, a).0, b).0;
      r.rows == t.rows + [Row(t.nextId, a), Row(t.nextId + 1, b)]
  {
  }

  /** The url is unique across all tickers: an article already stored for
      one ticker blocks the same url for any other ticker. */
  lemma NewsUrlIsGlobal(t: Table<News>, a: News, b: News)
    requires WellFormed(t)
    requires a.url.Some? && b.url == a.url && a.ticker != b.ticker
    ensures var r := InsertNewsOrIgnore(InsertNewsOrIgnore(t, a).0, b);
      !r.1 && Row(t.nextId + 1, b) !in r.0.rows
  {
    var first := InsertNewsOrIgnore(t, a).0;
    assert HasUrl(first.rows, a.url.value) by {
      if !HasUrl(t.rows, a.url.value) {
        assert first.rows[|t.rows|].data == a;
      }
    }
  }
}

=== FILE: settings.dfy ===
/** The configuration constants the core uses and the loader of the tickers
    file (load_tickers_from_json).

  The file is given already decoded. Each text field of an entry is a
  `Field<string>`: `Missing` when the key is absent, `Null` when the key
  holds JSON null or any other value that is not a string, `Val` for a
  string.
 */
module Settings {
  import opened Common
  import opened Text
  import opened Ordering

  /** The tickers used when the file yields none. */
  const DefaultTickers: seq<string> := ["AMZN", "AAPL", "NVDA"]

  /** The number of news articles kept per ticker and fetch. */
  const NewsArticleLimit: nat := 10

  /** The type the module-level ticker list is filtered by. */
  const StockType: string := "Stock"

  /** A dict entry of the "tickers" list. */
  datatype TickerJson = TickerJson(symbol: Field<string>, tipo: Field<string>, sector: Field<string>,
                                   subsector: Field<string>, pais: Field<string>, fundacion: Field<string>,
                                   anosEnBolsa: Field<string>, resena: Field<string>)

  /** An element of the "tickers" list: a dict, a bare symbol string (the
      old format), or any other JSON value. */
  datatype Entry = Object(info: TickerJson) | Str(text: string) | OtherValue

  /** The value under the "tickers" key. */
  datatype TickersValue = KeyMissing | NotAList | List(entries: seq<Entry>)

  /** The tickers file: absent, unreadable or not JSON, decoded to something
      other than an object, or decoded to an object. */
  datatype TickerFile = NoFile | Unreadable | NotAnObject | Decoded(tickers: TickersValue)

  /** The metadata recorded for a bare symbol: {'symbol': symbol}. */
  function SymbolOnly(symbol: string): TickerJson {
    TickerJson(Val(symbol), Missing, Missing, Missing, Missing, Missing, Missing, Missing)
  }

  /** symbol.strip().upper() */
  function Normalize(s: string): string {
    Upper(Strip(s))
  }

  /** Normalising a normalised symbol changes nothing. */
  lemma NormalizeIdempotent(s: string)
    ensures Normalize(Normalize(s)) == Normalize(s)
  {
    var n := Normalize(s);
    var t := Strip(s);
    StripShape(s);
    if |n| > 0 {
      UpperCharFacts(t[0]);
      UpperCharFacts(t[|t| - 1]);
    }
    StripOfStripped(n);
    forall k | 0 <= k < |n|
      ensures UpperChar(n[k]) == n[k]
    {
      UpperCharFacts(t[k]);
    }
    assert Upper(n) == n;
  }

  /** `if filter_type:` — a filter is given and is not the empty text. */
  predicate FilterActive(filter: Option<string>) {
    filter.Some? && filter.value != ""
  }

  /** A dict whose 'symbol' is not text: calling .strip() on it raises. */
  predicate Raises(e: Entry) {
    e.Object? && e.info.symbol.Null?
  }

  /** The entry contributes a symbol. */
  predicate HasSymbol(e: Entry) {
    (e.Object? && e.info.symbol.Val?) || (e.Str? && Strip(e.text) != "")
  }

  function SymbolOf(e: Entry): string
    requires HasSymbol(e)
  {
    if e.Object? then Normalize(e.info.symbol.value) else Normalize(e.text)
  }

  function MetaOf(e: Entry): TickerJson
    requires HasSymbol(e)
  {
    if e.Object? then e.info else SymbolOnly(SymbolOf(e))
  }

  /** The entry goes to the filtered list: a dict of the requested type. */
  predicate Kept(e: Entry, filter: Option<string>) {
    e.Object? && e.info.symbol.Val? && FilterActive(filter) && e.info.tipo == Val(filter.value)
  }

  /** The entry goes to the unfiltered list: a non-blank string always, a
      dict only when no filter is active. */
  predicate Listed(e: Entry, filter: Option<string>) {
    (e.Str? && Strip(e.text) != "") || (e.Object? && e.info.symbol.Val? && !FilterActive(filter))
  }

  /** The symbols the entries give, as a set. */
  function SymbolSet(entries: seq<Entry>): set<string> {
    set i | 0 <= i < |entries| && HasSymbol(entries[i]) :: SymbolOf(entries[i])
  }

  /** ticker_data as the loop leaves it: each symbol mapped to the metadata
      of the last entry giving it. */
  function TickerData(entries: seq<Entry>): (r: map<string, TickerJson>)
    ensures r.Keys == SymbolSet(entries)
    decreases |entries|
  {
    if |entries| == 0 then map[]
    else
      var init := entries[..|entries| - 1];
      var e := entries[|entries| - 1];
      var before := TickerData(init);
      assert forall i :: 0 <= i < |init| ==> init[i] == entries[i];
      if HasSymbol(e) then
        assert SymbolSet(entries) == SymbolSet(init) + {SymbolOf(e)} by {
          assert forall i :: 0 <= i < |entries| ==> i < |init| || entries[i] == e;
        }
        before[SymbolOf(e) := MetaOf(e)]
      else
        assert SymbolSet(entries) == SymbolSet(init) by {
          assert forall i :: 0 <= i < |entries| && HasSymbol(entries[i]) ==> i < |init|;
        }
        before
  }

  /** For a symbol given by several entries, ticker_data holds the last one. */
  lemma {:induction false} LaterEntryOverwrites(entries: seq<Entry>, i: nat)
    requires i < |entries| && HasSymbol(entries[i])
    requires forall j :: i < j < |entries| && HasSymbol(entries[j]) ==> SymbolOf(entries[j]) != SymbolOf(entries[i])
    ensures SymbolOf(entries[i]) in TickerData(entries)
    ensures TickerData(entries)[SymbolOf(entries[i])] == MetaOf(entries[i])
    decreases |entries|
  {
    var init := entries[..|entries| - 1];
    var e := entries[|entries| - 1];
    var x := SymbolOf(entries[i]);
    assert forall k :: 0 <= k < |init| ==> init[k] == entries[k];
    if i == |entries| - 1 {
      assert TickerData(entries) == TickerData(init)[x := MetaOf(e)];
    } else {
      assert init[i] == entries[i];
      LaterEntryOverwrites(init, i);
      if HasSymbol(e) {
        assert SymbolOf(e) != x;
        assert TickerData(entries) == TickerData(init)[SymbolOf(e) := MetaOf(e)];
      } else {
        assert TickerData(entries) == TickerData(init);
      }
    }
  }

  /** The two lists of the loop: the symbols of the entries that go to each,
      in file order. */
  function ListedSymbols(entries: seq<Entry>, filter: Option<string>): seq<string>
    decreases |entries|
  {
    if |entries| == 0 then []
    else
      (if Listed(entries[0], filter) then [SymbolOf(entries[0])] else [])
      + ListedSymbols(entries[1..], filter)
  }

  function KeptSymbols(entries: seq<Entry>, filter: Option<string>): seq<string>
    decreases |entries|
  {
    if |entries| == 0 then []
    else
      (if Kept(entries[0], filter) then [SymbolOf(entries[0])] else [])
      + KeptSymbols(entries[1..], filter)
  }

  /** A symbol is on the unfiltered list exactly when a non-blank string or,
      without an active filter, a dict gives it. */
  lemma {:induction false} ListedMembers(entries: seq<Entry>, filter: Option<string>, x: string)
    ensures x in ListedSymbols(entries, filter) <==>
      exists i :: 0 <= i < |entries| && Listed(entries[i], filter) && SymbolOf(entries[i]) == x
    decreases |entries|
  {
    if |entries| > 0 {
      var t := entries[1..];
      ListedMembers(t, filter, x);
      if exists i :: 0 <= i < |t| && Listed(t[i], filter) && SymbolOf(t[i]) == x {
        var i :| 0 <= i < |t| && Listed(t[i], filter) && SymbolOf(t[i]) == x;
        assert entries[i + 1] == t[i];
      }
      if exists i :: 0 <= i < |entries| && Listed(entries[i], filter) && SymbolOf(entries[i]) == x {
        var i :| 0 <= i < |entries| && Listed(entries[i], filter) && SymbolOf(entries[i]) == x;
        if i > 0 {
          assert t[i - 1] == entries[i];
        }
      }
    }
  }

  /** A symbol is on the filtered list exactly when a dict of the requested
      type gives it; bare strings never do. */
  lemma {:induction false} KeptMembers(entries: seq<Entry>, filter: Option<string>, x: string)
    ensures x in KeptSymbols(entries, filter) <==>
      exists i :: 0 <= i < |entries| && Kept(entries[i], filter) && SymbolOf(entries[i]) == x
    decreases |entries|
  {
    if |entries| > 0 {
      var t := entries[1..];
      KeptMembers(t, filter, x);
      if exists i :: 0 <= i < |t| && Kept(t[i], filter) && SymbolOf(t[i]) == x {
        var i :| 0 <= i < |t| && Kept(t[i], filter) && SymbolOf(t[i]) == x;
        assert entries[i + 1] == t[i];
      }
      if exists i :: 0 <= i < |entries| && Kept(entries[i], filter) && SymbolOf(entries[i]) == x {
        var i :| 0 <= i < |entries| && Kept(entries[i], filter) && SymbolOf(entries[i]) == x;
        if i > 0 {
          assert t[i - 1] == entries[i];
        }
      }
    }
  }

  /** Without an active filter the filtered list stays empty. */
  lemma KeptNeedsFilter(entries: seq<Entry>, filter: Option<string>)
    ensures !FilterActive(filter) ==> KeptSymbols(entries, filter) == []
    decreases |entries|
  {
    if |entries| > 0 {
      KeptNeedsFilter(entries[1..], filter);
    }
  }

  /** A symbol on either list is recorded in ticker_data. */
  lemma ListsInData(entries: seq<Entry>, filter: Option<string>)
    ensures forall x :: x in ListedSymbols(entries, filter) ==> x in TickerData(entries)
    ensures forall x :: x in KeptSymbols(entries, filter) ==> x in TickerData(entries)
  {
    forall x | x in ListedSymbols(entries, filter)
      ensures x in TickerData(entries)
    {
      ListedMembers(entries, filter, x);
    }
    forall x | x in KeptSymbols(entries, filter)
      ensures x in TickerData(entries)
    {
      KeptMembers(entries, filter, x);
      var i :| 0 <= i < |entries| && Kept(entries[i], filter) && SymbolOf(entries[i]) == x;
      assert HasSymbol(entries[i]);
    }
  }

  /** Entries none of which gives a symbol leave both lists empty. */
  lemma {:induction false} NoSymbolsNoLists(entries: seq<Entry>, filter: Option<string>)
    ensures (forall i :: 0 <= i < |entries| ==> !HasSymbol(entries[i])) ==>
      ListedSymbols(entries, filter) == [] && KeptSymbols(entries, filter) == []
    decreases |entries|
  {
    if |entries| > 0 && forall i :: 0 <= i < |entries| ==> !HasSymbol(entries[i]) {
      var tail := entries[1..];
      assert forall i :: 0 <= i < |tail| ==> tail[i] == entries[i + 1];
      NoSymbolsNoLists(tail, filter);
      assert !HasSymbol(entries[0]);
      assert !Listed(entries[0], filter) && !Kept(entries[0], filter);
    }
  }

  /** The list the loop's end returns once every entry has been read: the
      filtered list when a filter is active and matched, the defaults when
      both lists are empty, the unfiltered list otherwise. */
  function Choose(entries: seq<Entry>, filter: Option<string>): (r: (seq<string>, map<string, TickerJson>))
    ensures |r.0| > 0
    ensures r.1 == map[] ==> r.0 == DefaultTickers
    ensures r.1 != map[] ==> r.1 == TickerData(entries)
    ensures (forall i :: 0 <= i < |entries| ==> !HasSymbol(entries[i])) ==> r == (DefaultTickers, map[])
  {
    var listed, kept := ListedSymbols(entries, filter), KeptSymbols(entries, filter);
    ListsInData(entries, filter);
    KeptNeedsFilter(entries, filter);
    NoSymbolsNoLists(entries, filter);
    if FilterActive(filter) && |kept| > 0 then
      assert kept[0] in TickerData(entries);
      (kept, TickerData(entries))
    else if |listed| == 0 && |kept| == 0 then (DefaultTickers, map[])
    else
      assert listed[0] in TickerData(entries);
      (listed, TickerData(entries))
  }

  /** load_tickers_from_json: the ticker list and ticker_data. A dict whose
      symbol is not text raises, and the defaults are returned. */
  function LoadTickers(file: TickerFile, filter: Option<string>): (r: (seq<string>, map<string, TickerJson>))
    ensures |r.0| > 0
    ensures r.1 == map[] ==> r.0 == DefaultTickers
    ensures !(file.Decoded? && file.tickers.List? && |file.tickers.entries| > 0) ==> r == (DefaultTickers, map[])
    ensures file.Decoded? && file.tickers.List? && (exists i :: 0 <= i < |file.tickers.entries| && Raises(file.tickers.entries[i])) ==>
      r == (DefaultTickers, map[])
    ensures file.Decoded? && file.tickers.List? && (forall i :: 0 <= i < |file.tickers.entries| ==> !HasSymbol(file.tickers.entries[i])) ==>
      r == (DefaultTickers, map[])
    ensures r.1 != map[] ==> file.Decoded? && file.tickers.List? && r.1 == TickerData(file.tickers.entries)
  {
    if file.Decoded? && file.tickers.List? && |file.tickers.entries| > 0 then
      var entries := file.tickers.entries;
      if exists i :: 0 <= i < |entries| && Raises(entries[i]) then (DefaultTickers, map[])
      else Choose(entries, filter)
    else (DefaultTickers, map[])
  }

  /** The default symbols are in normal form. */
  lemma DefaultsNormalized()
    ensures forall x :: x in DefaultTickers ==> Normalize(x) == x
  {
    forall x | x in DefaultTickers
      ensures Normalize(x) == x
    {
      StripOfStripped(x);
      assert Strip(x) == x;
      forall k | 0 <= k < |x|
        ensures UpperChar(x[k]) == x[k]
      {
        UpperCharFacts(x[k]);
      }
      assert Upper(x) == x;
    }
  }

  /** Every symbol the loader returns is in normal form. */
  lemma LoadedSymbolsNormalized(file: TickerFile, filter: Option<string>)
    ensures forall x :: x in LoadTickers(file, filter).0 ==> Normalize(x) == x
  {
    var r := LoadTickers(file, filter);
    DefaultsNormalized();
    if r.1 != map[] {
      var entries := file.tickers.entries;
      forall x | x in r.0
        ensures Normalize(x) == x
      {
        ListedMembers(entries, filter, x);
        KeptMembers(entries, filter, x);
        assert x in ListedSymbols(entries, filter) || x in KeptSymbols(entries, filter);
        var i :| 0 <= i < |entries| && HasSymbol(entries[i]) && SymbolOf(entries[i]) == x;
        if entries[i].Object? {
          NormalizeIdempotent(entries[i].info.symbol.value);
        } else {
          NormalizeIdempotent(entries[i].text);
        }
      }
    }
  }

  /** With an active filter that some dict matches, exactly the symbols of
      the dicts of that type are returned; bare strings never are. */
  lemma FilterSelectsByType(entries: seq<Entry>, filter: Option<string>, x: string)
    requires |entries| > 0 && FilterActive(filter)
    requires forall i :: 0 <= i < |entries| ==> !Raises(entries[i])
    requires |KeptSymbols(entries, filter)| > 0
    ensures x in LoadTickers(Decoded(List(entries)), filter).0 <==>
      exists i :: 0 <= i < |entries| && entries[i].Object? && entries[i].info.symbol.Val?
        && entries[i].info.tipo == Val(filter.value) && SymbolOf(entries[i]) == x
  {
    KeptMembers(entries, filter, x);
  }

  /** With an active filter that no dict matches, the bare strings are
      returned when there are any. */
  lemma UnmatchedFilterFallsBackToStrings(entries: seq<Entry>, filter: Option<string>, x: string)
    requires |entries| > 0 && FilterActive(filter)
    requires forall i :: 0 <= i < |entries| ==> !Raises(entries[i])
    requires |KeptSymbols(entries, filter)| == 0
    requires exists i :: 0 <= i < |entries| && entries[i].Str? && Strip(entries[i].text) != ""
    ensures x in LoadTickers(Decoded(List(entries)), filter).0 <==>
      exists i :: 0 <= i < |entries| && entries[i].Str? && Strip(entries[i].text) != "" && SymbolOf(entries[i]) == x
  {
    var i :| 0 <= i < |entries| && entries[i].Str? && Strip(entries[i].text) != "";
    ListedMembers(entries, filter, SymbolOf(entries[i]));
    ListedMembers(entries, filter, x);
  }

  /** Without an active filter every dict with a symbol and every non-blank
      string gives a returned symbol. */
  lemma UnfilteredListsEverything(entries: seq<Entry>, filter: Option<string>, i: nat)
    requires !FilterActive(filter)
    requires forall j :: 0 <= j < |entries| ==> !Raises(entries[j])
    requires i < |entries| && HasSymbol(entries[i])
    ensures SymbolOf(entries[i]) in LoadTickers(Decoded(List(entries)), filter).0
  {
    ListedMembers(entries, filter, SymbolOf(entries[i]));
  }
}

=== FILE: tables.dfy ===
/** A SQLite table with an `id INTEGER PRIMARY KEY AUTOINCREMENT` column and
    one UNIQUE constraint, modelled as its rows in insertion order.

  The UNIQUE constraint is a key function `key: V -> K` over the row data.
  The write statements the repository issues are modelled once here:
  INSERT OR REPLACE (delete the row holding the key, then append a row
  with a newRow id), INSERT OR IGNORE (append only when the key is new),
  DELETE ... WHERE, UPDATE ... WHERE, and the keep-minimum-id
  deduplication `DELETE ... WHERE id NOT IN (SELECT MIN(id) ... GROUP BY key)`.
 */
module Tables {

  datatype Row<V> = Row(id: nat, data: V)

  /** The rows, oldest first, and the id AUTOINCREMENT hands out next. */
  datatype Table<V> = Table(rows: seq<Row<V>>, nextId: nat)

  function Empty<V(!new)>(): Table<V> {
    Table([], 1)
  }

  predicate IdsDistinct<V(!new)>(rows: seq<Row<V>>) {
    forall i, j :: 0 <= i < j < |rows| ==> rows[i].id != rows[j].id
  }

  /** Every id is below the AUTOINCREMENT counter and no two rows share one. */
  predicate WellFormed<V(!new)>(t: Table<V>) {
    && (forall i :: 0 <= i < |t.rows| ==> t.rows[i].id < t.nextId)
    && IdsDistinct(t.rows)
  }

  /** The UNIQUE constraint: no two rows carry the same key. */
  predicate UniqueOn<V(!new), K(==)>(rows: seq<Row<V>>, key: V -> K) {
    forall i, j :: 0 <= i < j < |rows| ==> key(rows[i].data) != key(rows[j].data)
  }

  predicate HasKey<V(!new), K(==)>(rows: seq<Row<V>>, key: V -> K, k: K) {
    exists i :: 0 <= i < |rows| && key(rows[i].data) == k
  }

  /** The stored values without their ids. */
  function Data<V(!new)>(rows: seq<Row<V>>): (r: seq<V>)
    ensures |r| == |rows|
    ensures forall i :: 0 <= i < |rows| ==> r[i] == rows[i].data
  {
    seq(|rows|, i requires 0 <= i < |rows| => rows[i].data)
  }

  lemma DataAppend<V(!new)>(a: seq<Row<V>>, b: seq<Row<V>>)
    ensures Data(a + b) == Data(a) + Data(b)
  {
  }

  function KeysOf<V(!new), K(==)>(vs: seq<V>, key: V -> K): set<K> {
    set i | 0 <= i < |vs| :: key(vs[i])
  }

  /** The values whose key is not in ks, in order. */
  function Without<V(!new), K(==)>(s: seq<V>, key: V -> K, ks: set<K>): (r: seq<V>)
    decreases |s|
  {
    if |s| == 0 then []
    else (if key(s[0]) in ks then [] else [s[0]]) + Without(s[1..], key, ks)
  }

  lemma {:induction false} WithoutMembers<V(!new), K>(s: seq<V>, key: V -> K, ks: set<K>)
    ensures forall x :: x in Without(s, key, ks) <==> x in s && key(x) !in ks
    decreases |s|
  {
    if |s| > 0 {
      WithoutMembers(s[1..], key, ks);
      assert s == [s[0]] + s[1..];
    }
  }

  lemma {:induction false} WithoutAppend<V(!new), K>(a: seq<V>, b: seq<V>, key: V -> K, ks: set<K>)
    ensures Without(a + b, key, ks) == Without(a, key, ks) + Without(b, key, ks)
    decreases |a|
  {
    if |a| > 0 {
      assert (a + b)[1..] == a[1..] + b;
      WithoutAppend(a[1..], b, key, ks);
    } else {
      assert a + b == b;
    }
  }

  lemma {:induction false} WithoutWithout<V(!new), K>(s: seq<V>, key: V -> K, ks: set<K>, ls: set<K>)
    ensures Without(Without(s, key, ks), key, ls) == Without(s, key, ks + ls)
    decreases |s|
  {
    if |s| > 0 {
      WithoutWithout(s[1..], key, ks, ls);
      var rest := Without(s[1..], key, ks);
      if key(s[0]) !in ks {
        assert Without(s, key, ks) == [s[0]] + rest;
        assert ([s[0]] + rest)[1..] == rest;
        if key(s[0]) in ls {
          assert Without(s, key, ks + ls) == [] + Without(s[1..], key, ks + ls);
        }
      } else {
        assert Without(s, key, ks) == [] + rest == rest;
        assert Without(s, key, ks + ls) == [] + Without(s[1..], key, ks + ls);
      }
    }
  }

  lemma {:induction false} WithoutCovered<V(!new), K>(s: seq<V>, key: V -> K, ks: set<K>)
    requires forall i :: 0 <= i < |s| ==> key(s[i]) in ks
    ensures Without(s, key, ks) == []
    decreases |s|
  {
    if |s| > 0 {
      WithoutCovered(s[1..], key, ks);
    }
  }

  /** Prepending a row whose id (key) no later row shares keeps ids (keys) distinct. */
  lemma ConsDistinct<V(!new)>(x: Row<V>, rest: seq<Row<V>>)
    requires IdsDistinct(rest) && forall y :: y in rest ==> y.id != x.id
    ensures IdsDistinct([x] + rest)
  {
    var s := [x] + rest;
    forall i, j | 0 <= i < j < |s|
      ensures s[i].id != s[j].id
    {
      if i == 0 {
        assert s[j] == rest[j - 1];
      } else {
        assert s[i] == rest[i - 1] && s[j] == rest[j - 1];
      }
    }
  }

  lemma ConsUnique<V(!new), K>(x: Row<V>, rest: seq<Row<V>>, key: V -> K)
    requires UniqueOn(rest, key) && forall y :: y in rest ==> key(y.data) != key(x.data)
    ensures UniqueOn([x] + rest, key)
  {
    var s := [x] + rest;
    forall i, j | 0 <= i < j < |s|
      ensures key(s[i].data) != key(s[j].data)
    {
      if i == 0 {
        assert s[j] == rest[j - 1];
      } else {
        assert s[i] == rest[i - 1] && s[j] == rest[j - 1];
      }
    }
  }

  /** What a sequence with distinct ids (keys) says about its head and its tail. */
  lemma HeadTail<V(!new), K>(s: seq<Row<V>>, key: V -> K)
    requires |s| > 0
    ensures IdsDistinct(s) ==> IdsDistinct(s[1..]) && forall y :: y in s[1..] ==> y.id != s[0].id
    ensures UniqueOn(s, key) ==> UniqueOn(s[1..], key) && forall y :: y in s[1..] ==> key(y.data) != key(s[0].data)
  {
    forall y | y in s[1..]
      ensures exists j :: 0 < j < |s| && s[j] == y
    {
      var k :| 0 <= k < |s| - 1 && s[1..][k] == y;
      assert s[k + 1] == y;
    }
  }

  /** The rows whose key differs from k, in order: what INSERT OR REPLACE
      leaves of a table before it appends the new row. */
  function DropKey<V(!new), K(==)>(rows: seq<Row<V>>, key: V -> K, k: K): (r: seq<Row<V>>)
    ensures forall x :: x in r <==> x in rows && key(x.data) != k
    decreases |rows|
  {
    if |rows| == 0 then []
    else (if key(rows[0].data) == k then [] else [rows[0]]) + DropKey(rows[1..], key, k)
  }

  lemma {:induction false} DropKeyData<V(!new), K>(rows: seq<Row<V>>, key: V -> K, k: K)
    ensures Data(DropKey(rows, key, k)) == Without(Data(rows), key, {k})
    decreases |rows|
  {
    if |rows| > 0 {
      var rest := DropKey(rows[1..], key, k);
      DropKeyData(rows[1..], key, k);
      assert Data(rows)[1..] == Data(rows[1..]);
      if key(rows[0].data) != k {
        DataAppend([rows[0]], rest);
      }
    }
  }

  lemma {:induction false} DropKeyDistinct<V(!new), K>(rows: seq<Row<V>>, key: V -> K, k: K)
    ensures IdsDistinct(rows) ==> IdsDistinct(DropKey(rows, key, k))
    ensures UniqueOn(rows, key) ==> UniqueOn(DropKey(rows, key, k), key)
    decreases |rows|
  {
    if |rows| > 0 {
      var rest := DropKey(rows[1..], key, k);
      DropKeyDistinct(rows[1..], key, k);
      HeadTail(rows, key);
      if key(rows[0].data) != k {
        if IdsDistinct(rows) {
          ConsDistinct(rows[0], rest);
        }
        if UniqueOn(rows, key) {
          ConsUnique(rows[0], rest, key);
        }
      }
    }
  }

  /** Appending a row whose id (key) no earlier row shares keeps ids (keys) distinct. */
  lemma SnocDistinct<V(!new), K>(rest: seq<Row<V>>, x: Row<V>, key: V -> K)
    ensures IdsDistinct(rest) && (forall y :: y in rest ==> y.id != x.id) ==> IdsDistinct(rest + [x])
    ensures UniqueOn(rest, key) && (forall y :: y in rest ==> key(y.data) != key(x.data)) ==> UniqueOn(rest + [x], key)
  {
    var s := rest + [x];
    assert forall i :: 0 <= i < |rest| ==> s[i] == rest[i] && s[i] in rest;
  }

  /** INSERT OR REPLACE: any row holding the key of v is deleted, and v is
      appended under a newRow id, so the key stays unique. */
  function InsertOrReplace<V(!new), K(==)>(t: Table<V>, v: V, key: V -> K): (r: Table<V>)
    ensures r.nextId == t.nextId + 1
    ensures forall x :: x in r.rows <==> x == Row(t.nextId, v) || (x in t.rows && key(x.data) != key(v))
    ensures |r.rows| > 0 && r.rows[|r.rows| - 1] == Row(t.nextId, v)
    ensures Data(r.rows) == Without(Data(t.rows), key, {key(v)}) + [v]
    ensures WellFormed(t) ==> WellFormed(r)
    ensures UniqueOn(t.rows, key) ==> UniqueOn(r.rows, key)
  {
    var kept := DropKey(t.rows, key, key(v));
    var newRow := Row(t.nextId, v);
    var rows := kept + [newRow];
    assert Data(rows) == Without(Data(t.rows), key, {key(v)}) + [v] by {
      DropKeyData(t.rows, key, key(v));
      DataAppend(kept, [newRow]);
    }
    assert UniqueOn(t.rows, key) ==> UniqueOn(rows, key) by {
      DropKeyDistinct(t.rows, key, key(v));
      SnocDistinct(kept, newRow, key);
    }
    assert WellFormed(t) ==> WellFormed(Table(rows, t.nextId + 1)) by {
      if WellFormed(t) {
        DropKeyDistinct(t.rows, key, key(v));
        forall x | x in kept
          ensures x.id < t.nextId
        {
          var i :| 0 <= i < |t.rows| && t.rows[i] == x;
        }
        SnocDistinct(kept, newRow, key);
        assert forall i :: 0 <= i < |rows| ==> rows[i] in kept || rows[i] == newRow;
      }
    }
    Table(rows, t.nextId + 1)
  }

  /** INSERT OR IGNORE: v is appended under a newRow id exactly when its key is
      new; the flag is the statement's row count (1 or 0). Existing rows are
      never touched. */
  function InsertOrIgnore<V(!new), K(==)>(t: Table<V>, v: V, key: V -> K): (r: (Table<V>, bool))
    ensures r.1 <==> !HasKey(t.rows, key, key(v))
    ensures r.1 ==> r.0.rows == t.rows + [Row(t.nextId, v)] && r.0.nextId == t.nextId + 1
    ensures !r.1 ==> r.0 == t
    ensures HasKey(r.0.rows, key, key(v))
    ensures WellFormed(t) ==> WellFormed(r.0)
    ensures UniqueOn(t.rows, key) ==> UniqueOn(r.0.rows, key)
  {
    if HasKey(t.rows, key, key(v)) then (t, false)
    else
      var newRow := Row(t.nextId, v);
      var rows := t.rows + [newRow];
      assert key(rows[|t.rows|].data) == key(v);
      assert forall y :: y in t.rows ==> key(y.data) != key(v);
      assert WellFormed(t) ==> forall y :: y in t.rows ==> y.id != newRow.id;
      SnocDistinct(t.rows, newRow, key);
      (Table(rows, t.nextId + 1), true)
  }

  /** INSERT OR IGNORE of each value in turn (also `INSERT OR IGNORE ... SELECT`);
      the count is the number of rows actually inserted. */
  function InsertAllOrIgnore<V(!new), K(==)>(t: Table<V>, vs: seq<V>, key: V -> K): (r: (Table<V>, nat))
    ensures t.rows <= r.0.rows
    ensures r.1 == |r.0.rows| - |t.rows|
    ensures r.0.nextId == t.nextId + r.1
    ensures forall i :: 0 <= i < |vs| ==> HasKey(r.0.rows, key, key(vs[i]))
    ensures forall k :: |t.rows| <= k < |r.0.rows| ==> r.0.rows[k].data in vs
    ensures WellFormed(t) ==> WellFormed(r.0)
    ensures UniqueOn(t.rows, key) ==> UniqueOn(r.0.rows, key)
    decreases |vs|
  {
    if |vs| == 0 then (t, 0)
    else
      var (t1, added) := InsertOrIgnore(t, vs[0], key);
      var (t2, n) := InsertAllOrIgnore(t1, vs[1..], key);
      assert forall i :: 1 <= i < |vs| ==> vs[i] == vs[1..][i - 1];
      assert HasKey(t2.rows, key, key(vs[0])) by {
        var i :| 0 <= i < |t1.rows| && key(t1.rows[i].data) == key(vs[0]);
        assert t2.rows[i] == t1.rows[i];
      }
      (t2, n + if added then 1 else 0)
  }

  /** Once every key of vs is present, inserting vs again changes nothing. */
  lemma {:induction false} InsertAllOrIgnoreNoop<V(!new), K>(t: Table<V>, vs: seq<V>, key: V -> K)
    requires forall i :: 0 <= i < |vs| ==> HasKey(t.rows, key, key(vs[i]))
    ensures InsertAllOrIgnore(t, vs, key) == (t, 0)
    decreases |vs|
  {
    if |vs| > 0 {
      InsertAllOrIgnoreNoop(t, vs[1..], key);
    }
  }

  /** A second run of the same INSERT OR IGNORE batch inserts nothing. */
  lemma InsertAllOrIgnoreIdempotent<V(!new), K>(t: Table<V>, vs: seq<V>, key: V -> K)
    ensures var r := InsertAllOrIgnore(t, vs, key).0;
      InsertAllOrIgnore(r, vs, key) == (r, 0)
  {
    InsertAllOrIgnoreNoop(InsertAllOrIgnore(t, vs, key).0, vs, key);
  }

  /** The first value of a batch carrying a key the table did not hold is
      stored exactly as given. */
  lemma {:induction false} InsertAllOrIgnoreCopies<V(!new), K>(t: Table<V>, vs: seq<V>, key: V -> K, i: nat)
    requires i < |vs|
    requires !HasKey(t.rows, key, key(vs[i]))
    requires forall j :: 0 <= j < i ==> key(vs[j]) != key(vs[i])
    ensures exists x :: x in InsertAllOrIgnore(t, vs, key).0.rows && x.data == vs[i]
    decreases |vs|
  {
    var (t1, added) := InsertOrIgnore(t, vs[0], key);
    var t2 := InsertAllOrIgnore(t1, vs[1..], key).0;
    if i == 0 {
      assert t1.rows[|t.rows|].data == vs[0];
      assert t2.rows[|t.rows|] == t1.rows[|t.rows|];
    } else {
      assert vs[1..][i - 1] == vs[i];
      assert !HasKey(t1.rows, key, key(vs[i])) by {
        if added {
          assert t1.rows == t.rows + [Row(t.nextId, vs[0])];
        }
      }
      InsertAllOrIgnoreCopies(t1, vs[1..], key, i - 1);
    }
  }

  /** The values of vs that survive repeated INSERT OR REPLACE: the last one
      for each key, in the order of those last occurrences. */
  function Lasts<V(!new), K(==)>(vs: seq<V>, key: V -> K): (r: seq<V>)
    ensures forall i :: 0 <= i < |r| ==> key(r[i]) in KeysOf(vs, key)
    decreases |vs|
  {
    if |vs| == 0 then []
    else
      var init := vs[..|vs| - 1];
      var v := vs[|vs| - 1];
      var r := Without(Lasts(init, key), key, {key(v)}) + [v];
      assert forall i :: 0 <= i < |r| ==> key(r[i]) in KeysOf(vs, key) by {
        assert forall i :: 0 <= i < |init| ==> init[i] == vs[i];
        WithoutMembers(Lasts(init, key), key, {key(v)});
        forall i | 0 <= i < |r|
          ensures key(r[i]) in KeysOf(vs, key)
        {
          if i < |r| - 1 {
            assert r[i] in Lasts(init, key);
          }
        }
      }
      r
  }

  /** INSERT OR REPLACE of each value in turn. */
  function UpsertAll<V(!new), K(==)>(t: Table<V>, vs: seq<V>, key: V -> K): (r: Table<V>)
    ensures r.nextId == t.nextId + |vs|
    ensures forall i :: 0 <= i < |vs| ==> HasKey(r.rows, key, key(vs[i]))
    ensures WellFormed(t) ==> WellFormed(r)
    ensures UniqueOn(t.rows, key) ==> UniqueOn(r.rows, key)
    decreases |vs|
  {
    if |vs| == 0 then t
    else
      var init := vs[..|vs| - 1];
      var v := vs[|vs| - 1];
      var before := UpsertAll(t, init, key);
      var r := InsertOrReplace(before, v, key);
      assert forall i :: 0 <= i < |vs| - 1 ==> vs[i] == init[i];
      assert forall i :: 0 <= i < |vs| - 1 ==> HasKey(r.rows, key, key(vs[i])) by {
        forall i | 0 <= i < |vs| - 1
          ensures HasKey(r.rows, key, key(vs[i]))
        {
          if key(vs[i]) != key(v) {
            var j :| 0 <= j < |before.rows| && key(before.rows[j].data) == key(vs[i]);
            assert before.rows[j] in r.rows;
          }
        }
      }
      r
  }

  /** INSERT OR REPLACE never makes a key disappear: the key of a deleted
      row is the key of the row appended. */
  lemma InsertOrReplaceKeepsKey<V(!new), K>(t: Table<V>, v: V, key: V -> K, k: K)
    requires HasKey(t.rows, key, k)
    ensures HasKey(InsertOrReplace(t, v, key).rows, key, k)
  {
    var r := InsertOrReplace(t, v, key);
    if k == key(v) {
      assert key(r.rows[|r.rows| - 1].data) == k;
    } else {
      var j :| 0 <= j < |t.rows| && key(t.rows[j].data) == k;
      assert t.rows[j] in r.rows;
      var m :| 0 <= m < |r.rows| && r.rows[m] == t.rows[j];
    }
  }

  /** A sequence of INSERT OR REPLACE keeps every key already stored. */
  lemma {:induction false} UpsertAllKeepsKeys<V(!new), K>(t: Table<V>, vs: seq<V>, key: V -> K, k: K)
    requires HasKey(t.rows, key, k)
    ensures HasKey(UpsertAll(t, vs, key).rows, key, k)
    decreases |vs|
  {
    if |vs| > 0 {
      var init := vs[..|vs| - 1];
      UpsertAllKeepsKeys(t, init, key, k);
      InsertOrReplaceKeepsKey(UpsertAll(t, init, key), vs[|vs| - 1], key, k);
    }
  }

  lemma UpsertAllHasKeys<V(!new), K>(t: Table<V>, vs: seq<V>, key: V -> K)
    ensures forall v :: v in vs ==> HasKey(UpsertAll(t, vs, key).rows, key, key(v))
  {
    forall v | v in vs
      ensures HasKey(UpsertAll(t, vs, key).rows, key, key(v))
    {
      var i :| 0 <= i < |vs| && vs[i] == v;
    }
  }

  lemma UpsertAllStep<V(!new), K>(t: Table<V>, vs: seq<V>, key: V -> K)
    requires |vs| > 0
    ensures UpsertAll(t, vs, key) == InsertOrReplace(UpsertAll(t, vs[..|vs| - 1], key), vs[|vs| - 1], key)
  {
  }

  lemma LastsStep<V(!new), K>(vs: seq<V>, key: V -> K)
    requires |vs| > 0
    ensures Lasts(vs, key) == Without(Lasts(vs[..|vs| - 1], key), key, {key(vs[|vs| - 1])}) + [vs[|vs| - 1]]
  {
  }

  lemma KeysOfSnoc<V(!new), K>(vs: seq<V>, key: V -> K)
    requires |vs| > 0
    ensures KeysOf(vs, key) == KeysOf(vs[..|vs| - 1], key) + {key(vs[|vs| - 1])}
  {
    var init := vs[..|vs| - 1];
    assert forall i :: 0 <= i < |init| ==> init[i] == vs[i];
  }

  /** What a batch of INSERT OR REPLACE leaves behind, ids aside: the old
      values whose keys the batch does not mention, then the last value of
      the batch for each key it mentions. */
  lemma {:induction false} UpsertAllData<V(!new), K>(t: Table<V>, vs: seq<V>, key: V -> K)
    ensures Data(UpsertAll(t, vs, key).rows) == Without(Data(t.rows), key, KeysOf(vs, key)) + Lasts(vs, key)
    decreases |vs|
  {
    var prior := Data(t.rows);
    if |vs| == 0 {
      assert KeysOf(vs, key) == {};
      WithoutNone(prior, key);
    } else {
      var init := vs[..|vs| - 1];
      var v := vs[|vs| - 1];
      var before := UpsertAll(t, init, key);
      var kInit := KeysOf(init, key);
      var lInit := Lasts(init, key);
      UpsertAllStep(t, vs, key);
      LastsStep(vs, key);
      KeysOfSnoc(vs, key);
      UpsertAllData(t, init, key);
      assert Data(before.rows) == Without(prior, key, kInit) + lInit;
      WithoutAppend(Without(prior, key, kInit), lInit, key, {key(v)});
      WithoutWithout(prior, key, kInit, {key(v)});
    }
  }

  lemma {:induction false} WithoutNone<V(!new), K>(s: seq<V>, key: V -> K)
    ensures Without(s, key, {}) == s
    decreases |s|
  {
    if |s| > 0 {
      WithoutNone(s[1..], key);
      assert s == [s[0]] + s[1..];
    }
  }

  /** Running the same INSERT OR REPLACE batch twice stores the same values
      as running it once (only the ids move on). */
  lemma UpsertAllIdempotent<V(!new), K>(t: Table<V>, vs: seq<V>, key: V -> K)
    ensures Data(UpsertAll(UpsertAll(t, vs, key), vs, key).rows) == Data(UpsertAll(t, vs, key).rows)
  {
    UpsertAllData(t, vs, key);
    UpsertAgain(t, UpsertAll(t, vs, key), vs, key);
  }

  /** A table holding what the batch left behind is a fixed point of the
      batch. */
  lemma UpsertAgain<V(!new), K>(t: Table<V>, once: Table<V>, vs: seq<V>, key: V -> K)
    requires Data(once.rows) == Without(Data(t.rows), key, KeysOf(vs, key)) + Lasts(vs, key)
    ensures Data(UpsertAll(once, vs, key).rows) == Data(once.rows)
  {
    var ks := KeysOf(vs, key);
    var kept := Without(Data(t.rows), key, ks);
    var lasts := Lasts(vs, key);
    UpsertAllData(once, vs, key);
    assert Without(kept + lasts, key, ks) == kept by {
      WithoutAppend(kept, lasts, key, ks);
      WithoutWithout(Data(t.rows), key, ks, ks);
      assert ks + ks == ks;
      WithoutCovered(lasts, key, ks);
    }
    assert Without(Data(once.rows), key, ks) == kept;
    assert Data(UpsertAll(once, vs, key).rows) == Data(once.rows);
  }

  /** Every value the batch leaves behind comes from the batch. */
  lemma {:induction false} LastsSubset<V(!new), K>(vs: seq<V>, key: V -> K)
    ensures forall x :: x in Lasts(vs, key) ==> x in vs
    decreases |vs|
  {
    if |vs| > 0 {
      var init := vs[..|vs| - 1];
      LastsStep(vs, key);
      LastsSubset(init, key);
      WithoutMembers(Lasts(init, key), key, {key(vs[|vs| - 1])});
      assert forall x :: x in init ==> x in vs;
    }
  }

  /** A value is stored after a batch of INSERT OR REPLACE exactly when it
      was stored before under a key the batch does not mention, or it is
      the batch's last value for its key. */
  lemma UpsertAllMembers<V(!new), K>(t: Table<V>, vs: seq<V>, key: V -> K)
    ensures forall x :: x in Data(UpsertAll(t, vs, key).rows) <==>
      (x in Data(t.rows) && key(x) !in KeysOf(vs, key)) || x in Lasts(vs, key)
    ensures forall x :: x in Data(UpsertAll(t, vs, key).rows) ==> x in Data(t.rows) || x in vs
  {
    UpsertAllData(t, vs, key);
    WithoutMembers(Data(t.rows), key, KeysOf(vs, key));
    LastsSubset(vs, key);
  }

  /** DELETE ... WHERE p: the rows failing p, in order. */
  function DeleteWhere<V(!new)>(rows: seq<Row<V>>, p: V -> bool): (r: seq<Row<V>>)
    ensures forall x :: x in r <==> x in rows && !p(x.data)
    ensures IdsDistinct(rows) ==> IdsDistinct(r)
    decreases |rows|
  {
    if |rows| == 0 then []
    else
      var rest := DeleteWhere(rows[1..], p);
      assert forall x :: x in rest ==> x in rows[1..];
      if p(rows[0].data) then rest else [rows[0]] + rest
  }

  lemma {:induction false} DeleteWhereUnique<V(!new), K>(rows: seq<Row<V>>, p: V -> bool, key: V -> K)
    ensures UniqueOn(rows, key) ==> UniqueOn(DeleteWhere(rows, p), key)
    decreases |rows|
  {
    if |rows| > 0 {
      DeleteWhereUnique(rows[1..], p, key);
      HeadTail(rows, key);
      if !p(rows[0].data) && UniqueOn(rows, key) {
        ConsUnique(rows[0], DeleteWhere(rows[1..], p), key);
      }
    }
  }

  /** DELETE ... WHERE p on a whole table: the counter does not move back, so
      the table stays well formed and keeps its UNIQUE constraint. */
  function Purge<V(!new)>(t: Table<V>, p: V -> bool): (r: Table<V>)
    ensures r.nextId == t.nextId
    ensures forall x :: x in Data(r.rows) <==> x in Data(t.rows) && !p(x)
    ensures WellFormed(t) ==> WellFormed(r)
  {
    var rows := DeleteWhere(t.rows, p);
    assert forall x :: x in Data(rows) <==> x in Data(t.rows) && !p(x) by {
      forall x | x in Data(rows)
        ensures x in Data(t.rows) && !p(x)
      {
        var i :| 0 <= i < |rows| && Data(rows)[i] == x;
        assert rows[i] in t.rows;
        var j :| 0 <= j < |t.rows| && t.rows[j] == rows[i];
        assert Data(t.rows)[j] == x;
      }
      forall x | x in Data(t.rows) && !p(x)
        ensures x in Data(rows)
      {
        var j :| 0 <= j < |t.rows| && Data(t.rows)[j] == x;
        assert t.rows[j] in rows;
        var i :| 0 <= i < |rows| && rows[i] == t.rows[j];
        assert Data(rows)[i] == x;
      }
    }
    assert WellFormed(t) ==> forall i :: 0 <= i < |rows| ==> rows[i].id < t.nextId by {
      if WellFormed(t) {
        forall i | 0 <= i < |rows|
          ensures rows[i].id < t.nextId
        {
          assert rows[i] in t.rows;
        }
      }
    }
    Table(rows, t.nextId)
  }

  lemma PurgeUnique<V(!new), K>(t: Table<V>, p: V -> bool, key: V -> K)
    ensures UniqueOn(t.rows, key) ==> UniqueOn(Purge(t, p).rows, key)
  {
    DeleteWhereUnique(t.rows, p, key);
  }

  /** A row survives keep-minimum-id deduplication when no row with the same
      key has a smaller id. */
  predicate IsGroupMin<V(!new), K(==)>(rows: seq<Row<V>>, x: Row<V>, key: V -> K) {
    forall j :: 0 <= j < |rows| && key(rows[j].data) == key(x.data) ==> x.id <= rows[j].id
  }

  function KeepGroupMins<V(!new), K(==)>(all: seq<Row<V>>, s: seq<Row<V>>, key: V -> K): (r: seq<Row<V>>)
    ensures forall x :: x in r <==> x in s && IsGroupMin(all, x, key)
    ensures IdsDistinct(s) ==> IdsDistinct(r)
    decreases |s|
  {
    if |s| == 0 then []
    else
      var rest := KeepGroupMins(all, s[1..], key);
      HeadTail(s, key);
      assert IdsDistinct(s) && IsGroupMin(all, s[0], key) ==> IdsDistinct([s[0]] + rest) by {
        if IdsDistinct(s) && IsGroupMin(all, s[0], key) {
          ConsDistinct(s[0], rest);
        }
      }
      if IsGroupMin(all, s[0], key) then [s[0]] + rest else rest
  }

  /** DELETE FROM t WHERE id NOT IN (SELECT MIN(id) FROM t GROUP BY key). */
  function Dedup<V(!new), K(==)>(rows: seq<Row<V>>, key: V -> K): (r: seq<Row<V>>)
    ensures forall x :: x in r <==> x in rows && IsGroupMin(rows, x, key)
    ensures IdsDistinct(rows) ==> IdsDistinct(r) && UniqueOn(r, key)
  {
    var r := KeepGroupMins(rows, rows, key);
    assert IdsDistinct(rows) ==> UniqueOn(r, key) by {
      if IdsDistinct(rows) {
        GroupMinsUnique(rows, r, key);
      }
    }
    r
  }

  /** Two distinct survivors never share a key: each would have the smaller id. */
  lemma GroupMinsUnique<V(!new), K>(rows: seq<Row<V>>, r: seq<Row<V>>, key: V -> K)
    requires IdsDistinct(r)
    requires forall x :: x in r ==> x in rows && IsGroupMin(rows, x, key)
    ensures UniqueOn(r, key)
  {
    forall i, j | 0 <= i < j < |r|
      ensures key(r[i].data) != key(r[j].data)
    {
      assert r[i] in r && r[j] in r;
      var x, y := r[i], r[j];
      var a :| 0 <= a < |rows| && rows[a] == x;
      var b :| 0 <= b < |rows| && rows[b] == y;
      assert IsGroupMin(rows, x, key) && IsGroupMin(rows, y, key);
      assert key(x.data) == key(y.data) ==> x.id <= y.id && y.id <= x.id;
    }
  }

  /** Every key group has a member of minimum id. */
  lemma {:induction false} GroupMinExists<V(!new), K>(rows: seq<Row<V>>, key: V -> K, k: K)
    requires HasKey(rows, key, k)
    ensures exists x :: x in rows && key(x.data) == k && IsGroupMin(rows, x, key)
    decreases |rows|
  {
    var head := rows[0];
    var tail := rows[1..];
    if HasKey(tail, key, k) {
      GroupMinExists(tail, key, k);
      var m :| m in tail && key(m.data) == k && IsGroupMin(tail, m, key);
      var x := if key(head.data) == k && head.id < m.id then head else m;
      forall j | 0 <= j < |rows| && key(rows[j].data) == key(x.data)
        ensures x.id <= rows[j].id
      {
        if j > 0 {
          assert rows[j] == tail[j - 1];
        }
      }
    } else {
      assert forall j :: 0 < j < |rows| ==> rows[j] == tail[j - 1];
      assert IsGroupMin(rows, head, key);
    }
  }

  /** Deduplication removes only extra copies: the set of keys present is
      the same before and after. */
  lemma DedupKeepsKeys<V(!new), K>(rows: seq<Row<V>>, key: V -> K)
    ensures KeysOf(Data(Dedup(rows, key)), key) == KeysOf(Data(rows), key)
  {
    var r := Dedup(rows, key);
    forall k | k in KeysOf(Data(rows), key)
      ensures k in KeysOf(Data(r), key)
    {
      var i :| 0 <= i < |rows| && key(Data(rows)[i]) == k;
      GroupMinExists(rows, key, k);
      var x :| x in rows && key(x.data) == k && IsGroupMin(rows, x, key);
      var j :| 0 <= j < |r| && r[j] == x;
      assert key(Data(r)[j]) == k;
    }
    forall k | k in KeysOf(Data(r), key)
      ensures k in KeysOf(Data(rows), key)
    {
      var j :| 0 <= j < |r| && key(Data(r)[j]) == k;
      assert r[j] in rows;
      var i :| 0 <= i < |rows| && rows[i] == r[j];
      assert key(Data(rows)[i]) == k;
    }
  }

  lemma {:induction false} KeepAllGroupMins<V(!new), K>(all: seq<Row<V>>, s: seq<Row<V>>, key: V -> K)
    requires forall i :: 0 <= i < |s| ==> IsGroupMin(all, s[i], key)
    ensures KeepGroupMins(all, s, key) == s
    decreases |s|
  {
    if |s| > 0 {
      KeepAllGroupMins(all, s[1..], key);
    }
  }

  /** On a table that already satisfies its UNIQUE constraint, deduplication
      deletes nothing. */
  lemma DedupOfUnique<V(!new), K>(rows: seq<Row<V>>, key: V -> K)
    requires UniqueOn(rows, key)
    ensures Dedup(rows, key) == rows
  {
    forall i | 0 <= i < |rows|
      ensures IsGroupMin(rows, rows[i], key)
    {
      forall j | 0 <= j < |rows| && key(rows[j].data) == key(rows[i].data)
        ensures rows[i].id <= rows[j].id
      {
        assert i == j;
      }
    }
    KeepAllGroupMins(rows, rows, key);
  }

  /** A second deduplication deletes zero rows. */
  lemma DedupIdempotent<V(!new), K>(rows: seq<Row<V>>, key: V -> K)
    requires IdsDistinct(rows)
    ensures Dedup(Dedup(rows, key), key) == Dedup(rows, key)
  {
    DedupOfUnique(Dedup(rows, key), key);
  }

  /** A row whose key no other row shares survives deduplication. */
  lemma DedupKeepsLoneRows<V(!new), K>(rows: seq<Row<V>>, key: V -> K, i: nat)
    requires i < |rows|
    requires forall j :: 0 <= j < |rows| && j != i ==> key(rows[j].data) != key(rows[i].data)
    ensures rows[i] in Dedup(rows, key)
  {
  }

  /** UPDATE ... SET ... WHERE p: each matching row's data is rewritten by f;
      ids, order and every other row stay as they were. */
  function UpdateWhere<V(!new)>(rows: seq<Row<V>>, p: V -> bool, f: V -> V): (r: seq<Row<V>>)
  {
    seq(|rows|, i requires 0 <= i < |rows| =>
      if p(rows[i].data) then Row(rows[i].id, f(rows[i].data)) else rows[i])
  }

  /** UPDATE never inserts or deletes: it keeps the ids, leaves the rows
      failing p untouched, and keeps the UNIQUE constraint when it does not
      rewrite key columns. */
  lemma UpdateWhereFacts<V(!new), K>(t: Table<V>, p: V -> bool, f: V -> V, key: V -> K)
    requires forall v :: p(v) ==> key(f(v)) == key(v)
    ensures var r := UpdateWhere(t.rows, p, f);
      && |r| == |t.rows|
      && (forall i :: 0 <= i < |r| ==> r[i].id == t.rows[i].id && key(r[i].data) == key(t.rows[i].data))
      && (forall i :: 0 <= i < |r| && !p(t.rows[i].data) ==> r[i] == t.rows[i])
      && (forall i :: 0 <= i < |r| && p(t.rows[i].data) ==> r[i].data == f(t.rows[i].data))
      && (WellFormed(t) ==> WellFormed(Table(r, t.nextId)))
      && (UniqueOn(t.rows, key) ==> UniqueOn(r, key))
  {
  }

  /** A value no later value of the batch shares a key with is among the
      values the batch leaves behind. */
  lemma {:induction false} LastsContains<V(!new), K>(vs: seq<V>, key: V -> K, i: nat)
    requires i < |vs|
    requires forall j :: i < j < |vs| ==> key(vs[j]) != key(vs[i])
    ensures vs[i] in Lasts(vs, key)
    decreases |vs|
  {
    var init := vs[..|vs| - 1];
    var v := vs[|vs| - 1];
    LastsStep(vs, key);
    if i < |vs| - 1 {
      LastsContains(init, key, i);
      WithoutMembers(Lasts(init, key), key, {key(v)});
    }
  }

  /** Under a UNIQUE constraint no value is stored twice. */
  lemma {:induction false} UniqueCount<V(!new), K>(rows: seq<Row<V>>, key: V -> K, x: V)
    requires UniqueOn(rows, key)
    ensures multiset(Data(rows))[x] <= 1
    decreases |rows|
  {
    if |rows| > 0 {
      var tail := rows[1..];
      assert UniqueOn(tail, key) by {
        forall i, j | 0 <= i < j < |tail|
          ensures key(tail[i].data) != key(tail[j].data)
        {
          assert tail[i] == rows[i + 1] && tail[j] == rows[j + 1];
        }
      }
      UniqueCount(tail, key, x);
      assert Data(rows) == [rows[0].data] + Data(tail);
      if x == rows[0].data {
        forall j | 0 <= j < |tail|
          ensures Data(tail)[j] != x
        {
          assert tail[j] == rows[j + 1];
        }
        assert x !in Data(tail);
      }
    }
  }
}

=== FILE: text.dfy ===
/** Text helpers the store and the loaders rely on: Python's str.strip()
    and str.upper() on ticker symbols, ", ".join, and the byte-wise
    ordering SQLite uses to compare TEXT values. */
module Text {

  /** The characters Python's str.strip() removes when called without
      arguments (str.isspace()). */
  predicate IsSpace(c: char) {
    c == ' ' || ('\t' <= c <= '\r') || ('\U{1c}' <= c <= '\U{1f}')
    || c == '\U{85}' || c == '\U{a0}' || c == '\U{1680}'
    || ('\U{2000}' <= c <= '\U{200a}') || c == '\U{2028}' || c == '\U{2029}'
    || c == '\U{202f}' || c == '\U{205f}' || c == '\U{3000}'
  }

  function TrimLeft(s: string): string {
    if |s| > 0 && IsSpace(s[0]) then TrimLeft(s[1..]) else s
  }

  function TrimRight(s: string): string {
    if |s| > 0 && IsSpace(s[|s| - 1]) then TrimRight(s[..|s| - 1]) else s
  }

  predicate AllSpace(t: string) {
    forall k :: 0 <= k < |t| ==> IsSpace(t[k])
  }

  /** Python's s.strip(): the text between the leading and the trailing
      whitespace. */
  function Strip(s: string): string {
    TrimRight(TrimLeft(s))
  }

  /** Strip removes whitespace only, and only at the two ends. */
  lemma StripShape(s: string)
    ensures exists pre, post :: s == pre + Strip(s) + post && AllSpace(pre) && AllSpace(post)
    ensures |Strip(s)| > 0 ==> !IsSpace(Strip(s)[0]) && !IsSpace(Strip(s)[|Strip(s)| - 1])
  {
    var l := TrimLeft(s);
    TrimLeftShape(s);
    TrimRightShape(l);
    var r := TrimRight(l);
    var pre, post := s[..|s| - |l|], l[|r|..];
    assert s == pre + l && l == r + post;
  }

  lemma {:induction false} TrimLeftShape(s: string)
    ensures var r := TrimLeft(s);
      |r| <= |s| && r == s[|s| - |r|..]
      && AllSpace(s[..|s| - |r|])
      && (|r| > 0 ==> !IsSpace(r[0]))
    decreases |s|
  {
    if |s| > 0 && IsSpace(s[0]) {
      TrimLeftShape(s[1..]);
    }
  }

  lemma {:induction false} TrimRightShape(s: string)
    ensures var r := TrimRight(s);
      |r| <= |s| && r == s[..|r|]
      && AllSpace(s[|r|..])
      && (|r| > 0 ==> !IsSpace(r[|r| - 1]))
    decreases |s|
  {
    if |s| > 0 && IsSpace(s[|s| - 1]) {
      TrimRightShape(s[..|s| - 1]);
    }
  }

  /** The ASCII subset of str.upper(): only a-z change, one character for
      one. */
  function UpperChar(c: char): char {
    if 'a' <= c <= 'z' then (c as int - 32) as char else c
  }

  function Upper(s: string): (r: string)
    ensures |r| == |s|
    ensures forall k :: 0 <= k < |s| ==> r[k] == UpperChar(s[k])
    decreases |s|
  {
    if |s| == 0 then "" else [UpperChar(s[0])] + Upper(s[1..])
  }

  /** Upper-casing keeps every character on the same side of IsSpace and
      has no lower-case ASCII letter left to change. */
  lemma UpperCharFacts(c: char)
    ensures IsSpace(UpperChar(c)) <==> IsSpace(c)
    ensures !('a' <= UpperChar(c) <= 'z')
    ensures UpperChar(UpperChar(c)) == UpperChar(c)
  {
  }

  /** A text with no whitespace at either end is its own strip. */
  lemma StripOfStripped(t: string)
    requires |t| > 0 ==> !IsSpace(t[0]) && !IsSpace(t[|t| - 1])
    ensures Strip(t) == t
  {
  }

  /** ", ".join(parts) and its kin. */
  function Join(sep: string, parts: seq<string>): string
    decreases |parts|
  {
    if |parts| == 0 then ""
    else if |parts| == 1 then parts[0]
    else parts[0] + sep + Join(sep, parts[1..])
  }

  /** Strict lexicographic order of two texts, compared code point by code
      point: SQLite's BINARY collation on ASCII text, and the order in which
      ISO 8601 date and time texts sort. */
  predicate TextLt(a: string, b: string)
    decreases |a|
  {
    if |a| == 0 then |b| > 0
    else if |b| == 0 then false
    else if a[0] != b[0] then a[0] < b[0]
    else TextLt(a[1..], b[1..])
  }

  lemma {:induction false} TextLtIrreflexive(a: string)
    ensures !TextLt(a, a)
    decreases |a|
  {
    if |a| > 0 {
      TextLtIrreflexive(a[1..]);
    }
  }

  lemma {:induction false} TextLtTransitive(a: string, b: string, c: string)
    requires TextLt(a, b) && TextLt(b, c)
    ensures TextLt(a, c)
    decreases |a|
  {
    if |a| > 0 && |b| > 0 && |c| > 0 && a[0] == b[0] && b[0] == c[0] {
      TextLtTransitive(a[1..], b[1..], c[1..]);
    }
  }

  lemma {:induction false} TextLtTotal(a: string, b: string)
    requires a != b
    ensures TextLt(a, b) || TextLt(b, a)
    decreases |a|
  {
    if |a| > 0 && |b| > 0 && a[0] == b[0] {
      assert a == [a[0]] + a[1..] && b == [b[0]] + b[1..];
      TextLtTotal(a[1..], b[1..]);
    }
  }
}

=== FILE: web_api.dfy ===
/** The web application's data routes: the per-ticker endpoint, the
    admin form that refreshes the selected tables, and the cleanup button.

  Flask's request and redirect become parameters and results; the
  providers, the clock and the square root come in as parameters.
 */
module WebApi {
  import opened Common
  import opened Tables
  import opened Schema
  import opened Ordering
  import opened Fetchers
  import DataUtils
  import Migration
  import DbManager
  import Cleanup

  // ------------------------------------------------------- ticker endpoint

  /** Daily bars in the endpoint's answer. */
  const BarLimit: nat := 30

  /** News items in the endpoint's answer. */
  const NewsLimit: nat := 5

  /** The bars of `ticker` from every source, for ORDER BY date DESC LIMIT 30. */
  function TickerBarsOf(t: Table<Bar>, ticker: string): (r: seq<Bar>)
    ensures forall x :: x in r <==> x in Data(t.rows) && x.ticker == ticker
  {
    Filter(Data(t.rows), (b: Bar) => b.ticker == ticker)
  }

  /** The endpoint's daily data: at most 30 bars of the ticker, whatever
      their source. */
  function TickerBars(t: Table<Bar>, ticker: string): (r: seq<Bar>)
    ensures |r| == Min(BarLimit, |TickerBarsOf(t, ticker)|)
    ensures forall x :: x in r ==> x in Data(t.rows) && x.ticker == ticker
  {
    var mine := TickerBarsOf(t, ticker);
    var r := Top(mine, DataUtils.ByDate, BarLimit);
    TopMembers(mine, DataUtils.ByDate, BarLimit);
    r
  }

  /** The bars come newest first, and no bar of the ticker left out is
      newer than a bar returned. */
  lemma TickerBarsNewestFirst(t: Table<Bar>, ticker: string)
    ensures var r := TickerBars(t, ticker);
      && (forall i, j :: 0 <= i < j < |r| ==> r[j].date <= r[i].date)
      && (forall x, y :: x in Data(t.rows) && x.ticker == ticker && x !in r && y in r ==> x.date <= y.date)
  {
    var mine := TickerBarsOf(t, ticker);
    var r := TickerBars(t, ticker);
    forall i, j | 0 <= i < j < |r|
      ensures r[j].date <= r[i].date
    {
      assert InOrder(DataUtils.ByDate(r[i]), DataUtils.ByDate(r[j]), true);
    }
    LeftOutNoNewer(mine, r);
  }

  lemma LeftOutNoNewer(mine: seq<Bar>, r: seq<Bar>)
    requires forall x, y :: x in multiset(mine) - multiset(r) && y in r ==> Le(DataUtils.ByDate(x), DataUtils.ByDate(y))
    ensures forall x, y :: x in mine && x !in r && y in r ==> x.date <= y.date
  {
    forall x, y | x in mine && x !in r && y in r
      ensures x.date <= y.date
    {
      assert multiset(r)[x] == 0;
      assert x in multiset(mine) - multiset(r);
      assert Le(DataUtils.ByDate(x), DataUtils.ByDate(y));
    }
  }

  /** With at most 30 bars for the ticker, every one of them is returned. */
  lemma FewBarsAllShown(t: Table<Bar>, ticker: string)
    requires |TickerBarsOf(t, ticker)| <= BarLimit
    ensures forall x :: x in Data(t.rows) && x.ticker == ticker ==> x in TickerBars(t, ticker)
  {
    var mine := TickerBarsOf(t, ticker);
    var r := TickerBars(t, ticker);
    assert multiset(r) <= multiset(mine);
    assert |multiset(r)| == |multiset(mine)|;
    MultisetSubsetSameSize(multiset(r), multiset(mine));
    forall x | x in Data(t.rows) && x.ticker == ticker
      ensures x in r
    {
      assert x in multiset(mine);
    }
  }

  lemma MultisetSubsetSameSize<T>(a: multiset<T>, b: multiset<T>)
    requires a <= b && |a| == |b|
    ensures a == b
  {
    var d := b - a;
    assert b == a + d;
    assert |d| == 0;
  }

  /** There is no source filter: the bars of two providers for one date
      both appear, so a date can occur twice in the answer. */
  lemma SameDateFromTwoSources()
    ensures var a := Bar("AAPL", 20000, 1.0, 1.0, 1.0, 1.0, 100, "yfinance");
      var b := Bar("AAPL", 20000, 2.0, 2.0, 2.0, 2.0, 200, "alphavantage");
      var r := TickerBars(Table([Row(1, a), Row(2, b)], 3), "AAPL");
      a in r && b in r && a.date == b.date
  {
    var a := Bar("AAPL", 20000, 1.0, 1.0, 1.0, 1.0, 100, "yfinance");
    var b := Bar("AAPL", 20000, 2.0, 2.0, 2.0, 2.0, 200, "alphavantage");
    var t := Table([Row(1, a), Row(2, b)], 3);
    assert Data(t.rows) == [a, b];
    assert |TickerBarsOf(t, "AAPL")| <= 2 by {
      assert forall x :: x in TickerBarsOf(t, "AAPL") ==> x in [a, b];
      assert TickerBarsOf(t, "AAPL") == Filter([a, b], (x: Bar) => x.ticker == "AAPL");
    }
    FewBarsAllShown(t, "AAPL");
  }

  /** The endpoint's JSON object; None stands for an empty dict. */
  datatype TickerView = TickerView(daily: seq<Bar>, profile: Option<Profile>, quote: Option<Quote>,
                                   news: seq<News>)

  /** get_ticker_data: everything returned belongs to the ticker, within
      the endpoint's limits. */
  function TickerData(db: Db, ticker: string): (r: TickerView)
    ensures |r.daily| <= BarLimit && |r.news| <= NewsLimit
    ensures forall x :: x in r.daily ==> x in Data(db.bars.rows) && x.ticker == ticker
    ensures forall x :: x in r.news ==> x in Data(db.news.rows) && x.ticker == ticker
    ensures r.profile.None? <==> forall x :: x in Data(db.profiles.rows) ==> x.ticker != ticker
    ensures r.quote.None? <==> forall x :: x in Data(db.quotes.rows) ==> x.ticker != ticker
    ensures r.profile.Some? ==> r.profile.value in Data(db.profiles.rows) && r.profile.value.ticker == ticker
    ensures r.quote.Some? ==> r.quote.value in Data(db.quotes.rows) && r.quote.value.ticker == ticker
  {
    TickerView(TickerBars(db.bars, ticker), DataUtils.CompanyProfile(db.profiles, ticker),
               DataUtils.MarketQuote(db.quotes, ticker), DataUtils.LatestNews(db.news, ticker, NewsLimit))
  }

  // ------------------------------------------------------------ update form

  /** The table names the form's dispatch recognises. */
  const UpdatableTables: set<string> :=
    {ProfilesTable, BarsTable, QuotesTable, NewsTable, FundamentalsTable, IndicatorsTable}

  /** Table `name` holds the same rows in both databases (true of any name
      that is not a canonical table). */
  predicate SameTable(a: Db, b: Db, name: string) {
    && (name == BarsTable ==> a.bars == b.bars)
    && (name == QuotesTable ==> a.quotes == b.quotes)
    && (name == ProfilesTable ==> a.profiles == b.profiles)
    && (name == NewsTable ==> a.news == b.news)
    && (name == IndicatorsTable ==> a.indicators == b.indicators)
    && (name == FundamentalsTable ==> a.fundamentals == b.fundamentals)
  }

  /** The legacy tables are the same in both databases. */
  predicate SameLegacy(a: Db, b: Db) {
    && a.alphavantageDaily == b.alphavantageDaily && a.polygonData == b.polygonData
    && a.finhubQuotes == b.finhubQuotes && a.fmpProfiles == b.fmpProfiles && a.tickerInfo == b.tickerInfo
  }

  /** One arm of the if/elif chain: the fetcher of the named table, or
      nothing for a name it does not know. Only that table changes. */
  function Apply(db: Db, name: string, tickers: seq<string>, p: Providers, sqrt: real -> real): (r: Db)
    ensures name != BarsTable ==> r.bars == db.bars
    ensures name != QuotesTable ==> r.quotes == db.quotes
    ensures name != ProfilesTable ==> r.profiles == db.profiles
    ensures name != NewsTable ==> r.news == db.news
    ensures name != IndicatorsTable ==> r.indicators == db.indicators
    ensures name != FundamentalsTable ==> r.fundamentals == db.fundamentals
    ensures SameLegacy(db, r)
    ensures name !in UpdatableTables ==> r == db
    ensures Consistent(db) ==> Consistent(r)
  {
    if name == ProfilesTable then
      FetchFmpWrites(db.profiles, tickers, p.profile, p.now);
      db.(profiles := FetchFmp(db.profiles, tickers, p.profile, p.now).0)
    else if name == BarsTable then
      db.(bars := FetchYfinance(db.bars, tickers, p.history, p.today).0)
    else if name == QuotesTable then
      FetchFinhubWrites(db.quotes, tickers, p.quote, p.now);
      db.(quotes := FetchFinhub(db.quotes, tickers, p.quote, p.now).0)
    else if name == NewsTable then
      db.(news := FetchNews(db.news, tickers, p.news).0)
    else if name == FundamentalsTable then
      db.(fundamentals := FetchFundamentalsAll(db.fundamentals, tickers, p.ratios, p.income).0)
    else if name == IndicatorsTable then
      db.(indicators := DataUtils.UpdateIndicatorsForAll(db.indicators, Data(db.bars.rows), p.today, sqrt).0)
    else db
  }

  /** What each recognised name does to its own table. */
  lemma ApplyEffects(db: Db, name: string, tickers: seq<string>, p: Providers, sqrt: real -> real)
    ensures var r := Apply(db, name, tickers, p, sqrt);
      && (name == ProfilesTable ==>
            forall i :: 0 <= i < |tickers| && p.profile(tickers[i]).Some? && |p.profile(tickers[i]).value| > 0 ==>
              HasKey(r.profiles.rows, ProfileKeyOf, ProfileKey(tickers[i], FmpSource)))
      && (name == BarsTable ==>
            forall b :: b in FetchedBars(tickers, p.history, p.today) ==> HasKey(r.bars.rows, BarKeyOf, BarKeyOf(b)))
      && (name == QuotesTable ==>
            forall i :: 0 <= i < |tickers| && p.quote(tickers[i]).Some? && p.quote(tickers[i]).value.c.Present() ==>
              HasKey(r.quotes.rows, QuoteKeyOf, QuoteKey(tickers[i], p.now, FinhubSource)))
      && (name == NewsTable ==>
            db.news.rows <= r.news.rows
            && forall k :: |db.news.rows| <= k < |r.news.rows| ==> r.news.rows[k].data.ticker in tickers)
      && (name == FundamentalsTable ==>
            forall x: Fundamental :: x.ticker !in tickers ==> (x in Data(r.fundamentals.rows) <==> x in Data(db.fundamentals.rows)))
      && (name == IndicatorsTable ==>
            forall x :: x in Data(db.indicators.rows) && (forall b :: b in Data(db.bars.rows) && b.source == YfinanceSource ==> b.ticker != x.ticker) ==>
              x in Data(r.indicators.rows))
  {
    FetchFmpWrites(db.profiles, tickers, p.profile, p.now);
    FetchFinhubWrites(db.quotes, tickers, p.quote, p.now);
  }

  /** The selected names in order, each through Apply. */
  function RunPlan(db: Db, names: seq<string>, tickers: seq<string>, p: Providers, sqrt: real -> real): (r: Db)
    ensures forall other :: other !in names ==> SameTable(db, r, other)
    ensures SameLegacy(db, r)
    ensures (forall i :: 0 <= i < |names| ==> names[i] !in UpdatableTables) ==> r == db
    ensures Consistent(db) ==> Consistent(r)
    decreases |names|
  {
    if |names| == 0 then db
    else
      var init := names[..|names| - 1];
      assert forall other :: other !in names ==> other !in init && other != names[|names| - 1];
      Apply(RunPlan(db, init, tickers, p, sqrt), names[|names| - 1], tickers, p, sqrt)
  }

  /** Names the dispatch does not know, wherever they are added at the
      end, change nothing. */
  lemma {:induction false} UnknownNamesIgnored(db: Db, names: seq<string>, extra: seq<string>, tickers: seq<string>,
                                               p: Providers, sqrt: real -> real)
    requires forall i :: 0 <= i < |extra| ==> extra[i] !in UpdatableTables
    ensures RunPlan(db, names + extra, tickers, p, sqrt) == RunPlan(db, names, tickers, p, sqrt)
    decreases |extra|
  {
    if |extra| == 0 {
      assert names + extra == names;
    } else {
      var init := extra[..|extra| - 1];
      assert (names + extra)[..|names + extra| - 1] == names + init;
      UnknownNamesIgnored(db, names, init, tickers, p, sqrt);
    }
  }

  /** The redirect's message. */
  datatype Message = NoTablesSelected | Updated(count: nat)

  /** update_data: an empty selection does nothing at all; otherwise
      create_database runs its migration and then each selected name is
      dispatched in order. The message counts the names submitted,
      including repeated and unrecognised ones. */
  function UpdateData(db: Db, tables: seq<string>, tickers: seq<string>, p: Providers, sqrt: real -> real): (r: (Db, Message))
    ensures r.1 == NoTablesSelected <==> |tables| == 0
    ensures |tables| == 0 ==> r.0 == db
    ensures |tables| > 0 ==> r.1 == Updated(|tables|)
    ensures forall other :: other !in tables && other != BarsTable && other != QuotesTable && other != ProfilesTable ==>
      SameTable(db, r.0, other)
    ensures Consistent(db) ==> Consistent(r.0)
  {
    if |tables| == 0 then (db, NoTablesSelected)
    else (RunPlan(Migration.MigrateData(db, p.now), tables, tickers, p, sqrt), Updated(|tables|))
  }

  /** An unselected table receives at most the migration's legacy rows. */
  lemma UnselectedTablesOnlyMigrated(db: Db, tables: seq<string>, tickers: seq<string>, p: Providers,
                                     sqrt: real -> real)
    requires |tables| > 0
    ensures var r := UpdateData(db, tables, tickers, p, sqrt).0;
      var m := Migration.MigrateData(db, p.now);
      && (BarsTable !in tables ==> r.bars == m.bars)
      && (QuotesTable !in tables ==> r.quotes == m.quotes)
      && (ProfilesTable !in tables ==> r.profiles == m.profiles)
      && db.bars.rows <= m.bars.rows && db.quotes.rows <= m.quotes.rows && db.profiles.rows <= m.profiles.rows
  {
  }

  /** A selection of nothing but unrecognised names still migrates and is
      reported as that many tables updated. */
  lemma UnknownSelectionCounted(db: Db, tickers: seq<string>, p: Providers, sqrt: real -> real)
    ensures UpdateData(db, ["portfolios"], tickers, p, sqrt) == (Migration.MigrateData(db, p.now), Updated(1))
  {
  }

  // ---------------------------------------------------------- cleanup form

  /** cleanup_db_route: drop the legacy tables, then remove duplicates;
      the message reports how many drops succeeded. */
  function CleanupRoute(db: Db, dropFailing: set<string>, dedupFailing: set<string>): (r: (Db, nat))
    ensures r.1 <= |DbManager.OldTables|
    ensures dropFailing == {} ==> r.1 == |DbManager.OldTables|
    ensures r.0.news == db.news && r.0.indicators == db.indicators && r.0.fundamentals == db.fundamentals
    ensures Consistent(db) ==> Consistent(r.0)
  {
    var (dropped, names) := DbManager.CleanupDatabase(db, dropFailing);
    assert |names| <= |DbManager.OldTables| by {
      assert names == DbManager.DropTables(db, DbManager.OldTables, dropFailing).1;
    }
    (Cleanup.RemoveDuplicateData(dropped, dedupFailing), |names|)
  }

  /** The route is the maintenance script without its refresh step. */
  lemma CleanupRouteIsScriptPrefix(db: Db, tickers: seq<string>, p: Providers, dropFailing: set<string>,
                                   dedupFailing: set<string>)
    ensures var s := Cleanup.CleanupMain(db, tickers, p, dropFailing, dedupFailing);
      var r := CleanupRoute(db, dropFailing, dedupFailing);
      s.0 == Cleanup.UpdateAllData(r.0, tickers, p) && |s.1| == r.1
  {
  }

  /** Pressing the cleanup button twice changes nothing the second time. */
  lemma CleanupRouteIdempotent(db: Db)
    requires WellFormed(db.bars) && WellFormed(db.profiles) && WellFormed(db.quotes)
    ensures var once := CleanupRoute(db, {}, {}).0;
      CleanupRoute(once, {}, {}).0 == once
  {
    DbManager.CleanupRemovesAllLegacy(db);
    var dropped := DbManager.CleanupDatabase(db, {}).0;
    var once := CleanupRoute(db, {}, {}).0;
    var again := DbManager.CleanupDatabase(once, {}).0;
    assert !Migration.LegacyExists(again, Migration.AlphavantageDaily);
    assert !Migration.LegacyExists(again, Migration.PolygonData);
    assert !Migration.LegacyExists(again, Migration.FinhubQuotes);
    assert !Migration.LegacyExists(again, Migration.FmpProfiles);
    assert !Migration.LegacyExists(again, Migration.TickerInfoTable);
    assert again == once;
    Cleanup.RemoveDuplicatesIdempotent(dropped, {});
  }
}
